=== FILE: README.md ===
# Sheet exporter, modelled in Dafny

This project models the core of a small PHP library that exports tables into four formats:
CSV, XLSX (SpreadsheetML), ODS (OpenDocument spreadsheet) and HTML. A caller builds
`Sheet`s (rows of cells, an optional style per row, header names, column widths) and
registers named styles (font, cell background, borders, row height) with an `Exporter`.
Each backend then turns that format-neutral table into its own text.

The model follows the program's structure, with one Dafny module per concept:

- `Wrappers`: `Option` and `Result`; an exception of the source becomes an `Err`.
- `Text`, `Numeric`, `Xml`: number printing, PHP's `is_numeric`/`floatval`, and `xmlEntities`
  with its decoder.
- `Units`: `convertSize` over exact `real`s, with PHP's half-away-from-zero `round`.
- `Sheets`: the `Sheet` class and its `colCount` invariant.
- `Styles`: style records, `prepareBorder`, the style-name check and the registry.
- `Workbook`: the exporter's sheet list, `checkUniqueName`, `addSheet`, `insertSheet`.
- `Walker`: the span-tracking row scan.
  - The three backends that lay cells on a grid each repeat this loop.
  - It is modelled once, as a pure function from a row and the skip plan to a list of events.
  - An event is `Real(col, src)` (source cell `src` written at column `col`) or `Covered(col, k)` (`k` columns covered by a span from above or from the left).
  - The loop bound is a parameter: `Strict` is XLSX's `<`, and `Inclusive` is the `<=` of CSV and ODS.
- `Csv`, `Alpha` (XLSX column letters), `Xlsx`, `XlsxStyles`, `Formula` (ODS formula
  rewriting), `Ods`, `OdsStyles`, `Html`: one renderer per backend, each over the walker's events.

Cell values are `Str(s)` or `Num(text)`. A PHP int or float is carried by its printed text.
A null cell is `Empty`; the other cells are a bare scalar or a `Span` holding the optional
VAL, ROWS, COLS, STYLE and FORMULA keys. Lengths are converted exactly. Where the program
prints a float, the model takes the printing function as a parameter `show: real -> string`.

## Model

| member | source | states |
|---|---|---|
| Xml.XmlEntitiesRoundTrip | src/SheetExporter/Exporter.php:203-207 | decoding the output of `xmlEntities` gives its input back, for every string: numeric and falsy text is passed through and everything else is escaped losslessly |
| Xml.EscapeAllIsMarkupFree | src/SheetExporter/Exporter.php:206 | escaped text holds no raw `<`, `>`, `"` or `'`, whichever apostrophe entity is used |
| Xml.EscapeAllPlain | src/SheetExporter/Exporter.php:206 | text without any of the five special characters comes out unchanged |
| Xml.EscapeAllAppend | src/SheetExporter/Exporter.php:206 | escaping works character by character: it distributes over concatenation |
| Numeric.NatTextIsNumeric | src/SheetExporter/Exporter.php:221 | a printed whole number is numeric, and `floatval` reads it back as the same number |
| Units.ConvertFromUnit | src/SheetExporter/Exporter.php:243-255 | succeeds exactly for em, px, pt, pc, in, mm and cm, and multiplies by that unit's pixel factor (1, 1, 96/72, 16, 96, 3.78, 37.8); any other unit is the input-unit error |
| Units.ConvertToUnit | src/SheetExporter/Exporter.php:264-276 | succeeds exactly for the seven output units; em is returned unrounded, and any other unit divides by its factor and rounds to 2, 2, 4, 4, 6 or 6 places |
| Units.ConvertSize | src/SheetExporter/Exporter.php:217-234 | `convertSize` fails only with its three messages: no unit to read, an unknown input unit, an unknown output unit. Each names the escaped text, with the default unit appended to a bare number as the source does before it throws |
| Units.GridSteps | src/SheetExporter/Exporter.php:264-276 | the number of `1/10^p` steps that `round` lands on is a whole number within half a step of the value |
| Units.RoundToError | src/SheetExporter/Exporter.php:268-273 | rounding to `p` places moves a value by at most half a unit in the last kept place |
| Units.RoundToOnGrid | src/SheetExporter/Exporter.php:268-273 | the rounded value times `10^p` is that whole number of steps, so it has at most `p` decimal places |
| Units.RoundToExact | src/SheetExporter/Exporter.php:268-273 | a value that already has at most `p` decimal places is kept as it is |
| Units.RoundToTie | src/SheetExporter/Exporter.php:268-273 | a value exactly halfway between two `p`-place values goes to the one farther from zero, as PHP's `round` does |
| Units.BareNumberUnchanged | src/SheetExporter/Exporter.php:219-223 | any numeric text whose input unit is the output unit, or with no output unit, is returned as its value |
| Units.BareNumberConverts | src/SheetExporter/Exporter.php:219-231 | numeric text in a known input unit `a` and another output unit `b` is `convertToUnit(b, value × factor(a))`, failing exactly as that does |
| Units.SuffixedByOutput | src/SheetExporter/Exporter.php:224-225 | a number followed by the output unit is read as that number, with no unit arithmetic |
| Units.ConvertKnownUnits | src/SheetExporter/Exporter.php:228-231 | a number followed by a known unit `a` converts to another output unit `b` as value × factor(a) / factor(b), rounded to `b`'s precision unless `b` is em |
| Units.UnknownInputUnit | src/SheetExporter/Exporter.php:219-254 | numeric text with an unrecognised input unit fails with "Unknown input measure unit" naming that unit |
| Units.UnknownOutputUnit | src/SheetExporter/Exporter.php:219-276 | numeric text in a known input unit with an unrecognised output unit fails with "Unknown output measure unit" naming that unit |
| Units.NoUnitFails | src/SheetExporter/Exporter.php:228-233 | non-numeric text with no trailing letters fails with "Unknown measure value" |
| Units.MillimetresToCentimetres | tests/BasicExporterTest.php:19 | 100 read in mm is 10 in cm |
| Units.CentimetresToMillimetres | tests/BasicExporterTest.php:20 | 1 read in cm is 10 in mm |
| Units.PixelsToPoints | tests/BasicExporterTest.php:12 | "100px" with the default `pt` is 75 |
| Units.PixelsAsPixels | tests/BasicExporterTest.php:13 | "100px" read in px is 100 |
| Sheets.NewSheet | src/SheetExporter/Sheet.php:30-33 | a new sheet has the given name, no rows, headers or widths, a column count of 0, and satisfies the sheet invariant |
| Sheets.AddColHeader | src/SheetExporter/Sheet.php:39-43 | appends one header; the column count becomes the larger of the old count and the new number of headers; nothing else changes; the invariant is kept |
| Sheets.SetColHeaders | src/SheetExporter/Sheet.php:49-53 | replaces the headers; the column count never shrinks; nothing else changes |
| Sheets.SetColWidth | src/SheetExporter/Sheet.php:60-64 | replaces the widths and the default width and leaves the count, rows, headers and styles alone |
| Sheets.GetStyle | src/SheetExporter/Sheet.php:149-152 | the style recorded for row `n` if there is one, else none |
| Sheets.AddRow | src/SheetExporter/Sheet.php:71-76 | appends exactly one row and grows the column count to its width; records the style at the new index only when one is given; every other row's style is unchanged |
| Sheets.AddArrayShape | src/SheetExporter/Sheet.php:83-88 | `addArray` appends the rows in order and sets the column count to the widest of the old count and the new rows |
| Sheets.AddArrayStyles | src/SheetExporter/Sheet.php:83-88 | after `addArray`, old rows keep their styles, every new row has the given style, and rows past the end have none |
| Sheets.ColCountMonotone | src/SheetExporter/Sheet.php:39-88 | no building operation decreases the column count |
| Styles.PrepareBorder | src/SheetExporter/Exporter.php:167-182 | with both a flat border key and a side key, every side gets each flat attribute it lacks (its own value wins) and the flat keys are dropped; otherwise the cell is unchanged |
| Styles.PrepareBorderIdempotent | src/SheetExporter/Exporter.php:167-182 | normalising twice equals normalising once, and a normalised cell never holds both forms |
| Styles.SideValueWins | src/SheetExporter/Exporter.php:175 | a per-side colour, style or width given explicitly survives the normalisation |
| Styles.MarkAcceptsTrailingNewline | src/SheetExporter/Exporter.php:95 | the style-name pattern as written accepts `"a\n"`, which the intended test rejects |
| Styles.ValidMarkIsIntended | src/SheetExporter/Exporter.php:95 | the corrected test accepts a subset of what the pattern accepts; the two differ only on names ending in a newline; accepted names hold no newline, space or dot |
| Styles.AddStyle | src/SheetExporter/Exporter.php:93-98 | rejects exactly the names failing the corrected test, with the source's message; otherwise the name then looks up the style with its border normalised |
| Styles.PutLookup | src/SheetExporter/Exporter.php:97 | storing a style keeps the registry's names unique, makes the style visible under its name, and leaves every other name's position and style unchanged |
| Styles.SetDefault | src/SheetExporter/Exporter.php:80-83 | the default style keeps the font and height given, and its cell is the given cell with `prepareBorder` applied: already normalised, and never holding both border forms |
| Workbook.UniqueIndex | src/SheetExporter/Exporter.php:152-160 | the attempt number `checkUniqueName` settles on is the first one, from the starting count on, whose name equals no sheet's name under PHP's loose `==` |
| Workbook.CheckUniqueNameSpec | src/SheetExporter/Exporter.php:152-160 | the result equals no sheet's name under loose `==`, so two numeric names of the same value count as one. It is the name itself when that is free, and otherwise `name_N` for the least N ≥ 1 that is not literally a sheet's name |
| Workbook.AddSheet | src/SheetExporter/Exporter.php:105-110 | fails with "Sheet name already exists." exactly when the name equals a sheet's name under loose `==`; otherwise appends the sheet and changes nothing else |
| Workbook.InsertSheet | src/SheetExporter/Exporter.php:117-122 | appends a new empty sheet whose name equals no sheet's name under loose `==`, and which keeps the requested name when that is free |
| Workbook.AddingKeepsNamesDistinct | src/SheetExporter/Exporter.php:105-122 | both ways of adding a sheet keep the sheet names pairwise distinct under loose `==` |
| Workbook.NumericNamesClash | src/SheetExporter/Exporter.php:105-122 | next to a sheet named "1", `addSheet` refuses "1.0" and `insertSheet` renames it to "1.0_1", because the two names are equal numbers |
| Numeric.LooseEqExact | src/SheetExporter/Exporter.php:155 | a name holding a character that no number can contain, such as the `_` of a suffixed attempt, is loosely equal only to itself |
| Workbook.ExporterAddStyle | src/SheetExporter/Exporter.php:93-98 | `addStyle` on the exporter fails exactly for a bad name, changes only the registry, and stores the normalised style |
| Walker.SeedBelowSpec | src/SheetExporter/ExporterCsv.php:88-93 | a cell spanning R rows at column j of row r leaves `COLS ?? 1` at column j of each of rows r+1 … r+R−1 and changes no other row's entries |
| Walker.SeedRight | src/SheetExporter/ExporterCsv.php:94-96 | a cell spanning C > 1 columns at column j leaves C − 1 at column j+1 of its own row, and nothing otherwise |
| Walker.Step | src/SheetExporter/ExporterCsv.php:62-71 | one iteration advances the column by one and the shift by the skip entry found there. It either moves on to a later source cell, or keeps the source position and the plan. In the second case it uses up the skip entry at that column if there is one |
| Walker.WalkSrcs | src/SheetExporter/ExporterCsv.php:62-71 | the scan emits, in order, exactly the present cells it has not examined yet, up to the limit |
| Walker.WalkCols | src/SheetExporter/ExporterXlsx.php:166-178 | the columns the scan reports strictly increase |
| Walker.WalkRuns | src/SheetExporter/ExporterCsv.php:63-67 | after a covered run of `k` columns at column `c`, every later cell lies at column `c + k` or beyond |
| Walker.WalkPlaced | src/SheetExporter/ExporterOds.php:161-170 | every emitted cell lands at its source index shifted right by the total width of the covered runs reported before it |
| Walker.WalkRowSpec | src/SheetExporter/ExporterCsv.php:56-76 | for a row within the bound, each non-null cell is emitted exactly once, in source order, at increasing and correctly shifted columns |
| Walker.StrictIsPrefix | src/SheetExporter/ExporterXlsx.php:166 | for a row within the column count, the XLSX scan (`<`) is the CSV/ODS scan (`<=`) minus some trailing covered runs, and leaves the same plan for later rows |
| Walker.RowEntriesDiscarded | src/SheetExporter/ExporterCsv.php:74 | after row `num` is scanned, the plan holds entries for later rows only |
| Walker.WalkRowsSpec | src/SheetExporter/ExporterOds.php:151-176 | over a sheet whose rows fit the column count, every row's scan is complete, ordered and placed, for either bound |
| Walker.WalkSheetSpec | src/SheetExporter/ExporterXlsx.php:152-183 | for a valid sheet, both bounds scan every row completely and in order, and the strict scan of each row is a prefix of the inclusive one up to trailing runs |
| Csv.Escape | src/SheetExporter/ExporterCsv.php:107-114 | numbers are written as their text and falsy text as nothing; other text has its quotes doubled, and is quoted exactly when it holds a comma or a quote |
| Csv.DoubleQuotes | src/SheetExporter/ExporterCsv.php:111 | doubling quotes adds no comma, keeps a quote present exactly when there was one, and changes quote-free text not at all |
| Csv.EscapeReadBack | src/SheetExporter/ExporterCsv.php:107-114 | a reader of comma-terminated fields gets back exactly the value's text from an escaped field |
| Csv.BlanksReadBack | src/SheetExporter/ExporterCsv.php:63-66 | a covered run of `k` columns reads back as `k` blank fields |
| Csv.RowReadBack | src/SheetExporter/ExporterCsv.php:56-76 | a row's line reads back, field by field, as the texts of its cells in order, with one blank field per covered column |
| Csv.RowLine | src/SheetExporter/ExporterCsv.php:59-72 | a row's line is not empty and ends in a newline |
| Csv.RowLineReadBack | src/SheetExporter/ExporterCsv.php:59-72 | a row's line, without its newline, reads back as the texts of its cells in order, with one blank field per covered column |
| Csv.SheetText | src/SheetExporter/ExporterCsv.php:31-34 | a sheet's text starts with its header line, holds at least one character per row after it, and ends in a newline unless empty |
| Csv.Compile | src/SheetExporter/ExporterCsv.php:29-36 | the output starts with the first sheet's text |
| Csv.CompileAppend | src/SheetExporter/ExporterCsv.php:31-34 | the sheets are written one after the other with nothing between them: compiling two lists in turn is compiling them together |
| Csv.HeaderLine | src/SheetExporter/ExporterCsv.php:42-50 | with no headers nothing is written; otherwise the line ends in a newline |
| Csv.HeaderReadBack | src/SheetExporter/ExporterCsv.php:44-48 | the header line reads back as the headers themselves |
| Alpha.ToAlpha | src/SheetExporter/ExporterXlsx.php:617-631 | the loop as written, with its single-letter short-cut, computes exactly the bijective base-26 numeral of `num + 1` |
| Alpha.FromBijectiveInverse | src/SheetExporter/ExporterXlsx.php:625-629 | decoding the bijective numeral of `d ≥ 1` gives `d` back |
| Alpha.ColumnRoundTrip | src/SheetExporter/ExporterXlsx.php:617-631 | column letters decode to their column, distinct columns get distinct letters, and exactly the columns below 26 get one letter |
| Alpha.ParseCellRef | src/SheetExporter/ExporterXlsx.php:243 | an `r` reference (letters, then line number) reads back as its column and line |
| Formula.Next | src/SheetExporter/ExporterOds.php:310 | the match at a position consumes at least one and at most the remaining characters, and is a plain character exactly when no reference starts there. `Formula.RefLenComplete` ties "a reference starts" to the pattern |
| Formula.NextSource | src/SheetExporter/ExporterOds.php:310 | the match at a position spells out exactly the characters it consumes |
| Formula.RefLenIsRef | src/SheetExporter/ExporterOds.php:310 | what the scanner measures as a reference has the shape `$?[A-Z]+$?[0-9]+` |
| Formula.RefLenLongest | src/SheetExporter/ExporterOds.php:310 | whenever some prefix has the shape `$?[A-Z]+$?[0-9]+`, the scanner measures a reference at least that long: it misses none and takes the longest |
| Formula.RefLenComplete | src/SheetExporter/ExporterOds.php:310 | the scanner measures no reference exactly when no prefix has the reference shape |
| Formula.MatchAtPattern | src/SheetExporter/ExporterOds.php:310 | the match at an offset is plain exactly when no prefix there has the reference shape, and a link's first part is the longest prefix that does |
| Formula.TokenizeFlatten | src/SheetExporter/ExporterOds.php:309-312 | the scanner's pieces spell the formula back exactly: nothing is lost or invented |
| Formula.TokenizeWellFormed | src/SheetExporter/ExporterOds.php:309-312 | every rewritten link is made of references, with a colon only between two of them |
| Formula.ReformatFormula | src/SheetExporter/ExporterOds.php:307-314 | the result renders a cut of the formula that spells it back exactly. Its links are well formed, each piece is the leftmost-longest match of the pattern at its own offset (`Formula.MatchAt`, read against the pattern by `Formula.MatchAtPattern`), links are rewritten into `[.…]` form and plain characters are kept |
| Formula.NextMatch | src/SheetExporter/ExporterOds.php:310 | the scanner's match at an offset is the leftmost-longest one. It is a plain character exactly when no reference starts there, a link takes the whole first reference, and a second reference (after an optional `:`) is taken whole exactly when one follows. References are measured by `RefLen`, which finds every one and takes the longest (`Formula.RefLenLongest`) |
| Formula.TokenizeLeftmost | src/SheetExporter/ExporterOds.php:309-312 | every piece of the scanner's cut is the leftmost-longest match at its offset |
| Formula.MatchUnique | src/SheetExporter/ExporterOds.php:310 | a piece that is the leftmost-longest match at an offset is the scanner's match there, with the same length |
| Formula.LeftmostUnique | src/SheetExporter/ExporterOds.php:309-312 | a cut of the formula into leftmost-longest matches is exactly the scanner's cut, so there is only one |
| Formula.ReformatUnique | src/SheetExporter/ExporterOds.php:307-314 | any cut of the formula into leftmost-longest matches renders to the reformatted formula, so `Formula.ReformatFormula`'s contract fixes its result |
| Formula.NoRefsUnchanged | src/SheetExporter/ExporterOds.php:307-314 | a formula in which no reference starts anywhere is returned unchanged |
| Formula.RangeExample | src/SheetExporter/ExporterOds.php:311 | `A1:D1` becomes `[.A1:.D1]` |
| Formula.AbsoluteExample | src/SheetExporter/ExporterOds.php:310-311 | `$E$1` becomes `[.$E$1]`: the absolute markers are kept |
| Xlsx.StyleIndex | src/SheetExporter/ExporterXlsx.php:224-226 | a truthy class gets `s` = one past its position among the registered styles (the first one with that name); a falsy class gets none |
| Xlsx.GetCell | src/SheetExporter/ExporterXlsx.php:197-246 | fails exactly when the cell's own STYLE is unregistered. Otherwise its reference reads back as its column and line, and it is typed `n` exactly for a number or a numeric string starting with a digit. Its text and formula decode to the value and the FORMULA, and its `s` names its class. A spanning cell yields a merge range from its own reference to the one `COLS − 1` columns right and `ROWS − 1` lines down |
| Xlsx.RowHeight | src/SheetExporter/ExporterXlsx.php:264-274 | fails with "Missing style" exactly for a truthy, unregistered class; the height is the registered style's non-zero HEIGHT, and none otherwise |
| Xlsx.CoveredRefs | src/SheetExporter/ExporterXlsx.php:168-173 | a covered run of `k` columns at `j` writes `k` empty cells whose references read back as columns j … j+k−1 on the row's line |
| Xlsx.RowCells | src/SheetExporter/ExporterXlsx.php:166-178 | a row's cells fail exactly when an emitted cell has an unregistered STYLE; one merge range is collected per spanning cell |
| Xlsx.BadCellEmitted | src/SheetExporter/ExporterXlsx.php:174-176 | for a complete scan, some emitted cell has a bad STYLE exactly when some cell of the row has one |
| Xlsx.RowXml | src/SheetExporter/ExporterXlsx.php:159-180 | a row fails exactly when its class or a cell's STYLE is unregistered, and otherwise sits on the given line with its class's height |
| Xlsx.SheetRows | src/SheetExporter/ExporterXlsx.php:152-183 | the rows fail exactly when some row is not writable; otherwise there is one `<row>` per sheet row, on consecutive lines after the header, each with its height |
| Xlsx.SheetRowsSpans | src/SheetExporter/ExporterXlsx.php:207-211 | a sheet collects one merge range per spanning cell |
| Xlsx.HeaderCells | src/SheetExporter/ExporterXlsx.php:134-143 | the header row has one unstyled inline-string cell per header, at columns 0, 1, … of line 1, each decoding to its header |
| Xlsx.SheetData | src/SheetExporter/ExporterXlsx.php:100-106 | a sheet's data fails exactly when some row is not writable, and otherwise collects one merge range per spanning cell |
| Xlsx.RelationshipsDistinct | src/SheetExporter/ExporterXlsx.php:592-600 | sheet relationship ids and targets are pairwise distinct, and no id is the `rId1` used for the styles part |
| Xlsx.SheetRelationships | src/SheetExporter/ExporterXlsx.php:592-600 | there is one relationship per sheet; the id of sheet `num` is `rId` followed by digits reading back as `num + 2`, and its target is `/xl/worksheets/sheet<n>.xml` with `n` reading back as `num + 1` |
| Xlsx.MergeXml | src/SheetExporter/ExporterXlsx.php:110-121 | nothing is written without merges; otherwise the `count` attribute reads back as the number of merges, and every merge has its `<mergeCell ref="from:to"/>` element in the block |
| Xlsx.ConvertColor | src/SheetExporter/ExporterXlsx.php:607-610 | `#rrggbb` becomes `FF` followed by the input after its first character, each letter upper-cased |
| Xlsx.ConvertColorCaseBlind | src/SheetExporter/ExporterXlsx.php:609 | the conversion ignores the letter case of its input |
| XlsxStyles.XlsxDefault | src/SheetExporter/ExporterXlsx.php:286-291 | the default style always has a font size, `10pt` when it names none; its cell, height and other font keys are kept as given, and with no default it is a `10pt` font alone |
| XlsxStyles.FontRecord | src/SheetExporter/ExporterXlsx.php:454-460 | a font lacking SIZE inherits the default's SIZE, and lacking FAMILY inherits the default's FAMILY; its other keys are kept |
| XlsxStyles.FindOrAppend | src/SheetExporter/ExporterXlsx.php:514-525 | `sortStyle` returns the first position of an equal record, or appends the record and returns its new position; the list only grows |
| XlsxStyles.FindOrAppendDistinct | src/SheetExporter/ExporterXlsx.php:514-525 | `sortStyle` never introduces a duplicate |
| XlsxStyles.FlatOver | src/SheetExporter/ExporterXlsx.php:493-504 | `reshuffleStyleBorder` overwrites each side's attribute with the flat one whenever the flat one is set |
| XlsxStyles.LineOf | src/SheetExporter/ExporterXlsx.php:475-479 | a border side's record has the colour (default `#000000`), the style as given, and the width converted to points (default 1) |
| XlsxStyles.BorderItemOf | src/SheetExporter/ExporterXlsx.php:465-482 | a border record holds exactly the non-empty sides, each with its converted line, and fails exactly when a drawn side's width does not convert |
| XlsxStyles.ReshuffleSound | src/SheetExporter/ExporterXlsx.php:444-486 | after `reshuffleStyles` there is one format per style, every font, fill and border index leads to an equal record, and no list holds a duplicate; it fails exactly when some border width does not convert |
| XlsxStyles.ReshuffleFonts | src/SheetExporter/ExporterXlsx.php:454-461 | the font list is the first-seen list of the completed non-empty fonts |
| XlsxStyles.ReshuffleFills | src/SheetExporter/ExporterXlsx.php:465-467 | the fill list is the first-seen list of the backgrounds |
| XlsxStyles.ReshuffleBorders | src/SheetExporter/ExporterXlsx.php:469-482 | the border list is the first-seen list of the border records |
| XlsxStyles.DefaultFirst | src/SheetExporter/ExporterXlsx.php:293 | the default style comes first: its font, fill and border are entry 0 of each list |
| XlsxStyles.ReshufflePrefix | src/SheetExporter/ExporterXlsx.php:451-484 | a successful reshuffle extends the reshuffle of every prefix of the style list |
| XlsxStyles.BorderStyleOf | src/SheetExporter/ExporterXlsx.php:387-400 | `solid` becomes `thin`; `dashed` becomes `mediumDashed` from width 2; another truthy style is kept; with no style, width ≥ 4 gives `thick`, ≥ 2 `medium` and > 0 `thin` |
| XlsxStyles.ConvertBorderType | src/SheetExporter/ExporterXlsx.php:416-423 | a truthy style is kept, with `dashed` widened to `mediumDashed`; otherwise the alternative |
| XlsxStyles.BorderStyleRange | src/SheetExporter/ExporterXlsx.php:387-407 | a written style is `thin`, `medium`, `thick`, `mediumDashed` or the style as given; the side is empty exactly when it has neither style nor positive width |
| XlsxStyles.SideXml | src/SheetExporter/ExporterXlsx.php:402-407 | a side with no style is written as an empty element |
| XlsxStyles.PrintedFillsIndex | src/SheetExporter/ExporterXlsx.php:302-330 | with the `gray125` entry inserted after fill 0, the printed list has one more entry, `gray125` is at 1, and each written fill id leads to its own fill |
| XlsxStyles.PrintedIdsMatch | src/SheetExporter/ExporterXlsx.php:429-437 | every style's printed font, fill and border ids lead to the entries built from its own records; an empty font prints font 0, the default's |
| XlsxStyles.CellStyleFormat | src/SheetExporter/ExporterXlsx.php:224-226 | a cell's `s` attribute names the format built from its class's style, because the default comes first |
| Ods.CoveredRoundTrip | src/SheetExporter/ExporterOds.php:163-166 | a covered run of `k` columns is one element that reads back as `k` columns, with the repeat attribute exactly when `k > 1` |
| Ods.QuotedFormulaBreaksAttribute | src/SheetExporter/ExporterOds.php:277 | the formula as written puts a raw `"` into the attribute for the formula `"x"` |
| Ods.FormulaValue | src/SheetExporter/ExporterOds.php:277 | the corrected formula attribute decodes to the rewritten formula and holds no raw `"`, `<` or `>` |
| Ods.CellValue | src/SheetExporter/ExporterOds.php:273-281 | the `tc_` style is there exactly for a truthy class. The float type and value appear exactly for a numeric value, and the formula exactly for a truthy FORMULA. The exported formula is the corrected one: it unescapes to the reformatted formula, where the code at line 277 writes it raw (see Findings). `number-rows-spanned` appears exactly when COLS is given or ROWS > 1, with value `ROWS ?? 1`; `number-columns-spanned` appears exactly when COLS > 1. The text decodes to the value |
| Ods.ItemsWidth | src/SheetExporter/ExporterOds.php:161-171 | a row's items take the covered width plus one column per emitted cell |
| Ods.OdsColumn | src/SheetExporter/ExporterOds.php:160-172 | an emitted cell's table column is its loop column less the null cells before it in its row, since a null cell writes nothing |
| Ods.NoNullsSameColumn | src/SheetExporter/ExporterOds.php:167-170 | in a row without null cells, every cell lands at the column the walker (and XLSX) names for it |
| Ods.RowWidth | src/SheetExporter/ExporterOds.php:161-171 | a row takes its covered columns plus one column per present cell |
| Ods.GetRowHeight | src/SheetExporter/ExporterOds.php:290-300 | fails with "Missing style" exactly for a truthy, unregistered class; a registered class with a height gives `ro_<class>`; otherwise the sheet default |
| Ods.DefHeight | src/SheetExporter/ExporterOds.php:78-79 | the default row style is `rdef` exactly when the default style has a non-zero height |
| Ods.SheetRows | src/SheetExporter/ExporterOds.php:151-176 | fails exactly when some row's class is truthy and unregistered; otherwise one table row per sheet row, in order, with its row style and one item per walker event |
| Ods.HeaderCell | src/SheetExporter/ExporterOds.php:139 | a header is always an unstyled string cell, even when it reads as a number, and decodes to the header |
| Ods.HeaderXml | src/SheetExporter/ExporterOds.php:134-143 | nothing is written exactly when there are no headers |
| Ods.ColumnsCover | src/SheetExporter/ExporterOds.php:183-204 | the column elements stand for one column when no width is set, for `colCount` columns when the default fills the rest, and otherwise for one per width |
| Ods.ColumnsNamed | src/SheetExporter/ExporterOds.php:192-200 | every column style a table uses is `col_<sheet>_<n>` for an own width or `col_<sheet>_default` when the default fills the rest |
| Ods.TableXml | src/SheetExporter/ExporterOds.php:109-120 | a table fails exactly when some row's class is truthy and unregistered |
| OdsStyles.ScriptsValue | src/SheetExporter/ExporterOds.php:355 | an attribute written for three scripts carries the same value under each of its three names and no other |
| OdsStyles.TextColor | src/SheetExporter/ExporterOds.php:351-353 | the text properties carry `fo:color` exactly when COLOR is set, with its value |
| OdsStyles.TextWeight | src/SheetExporter/ExporterOds.php:354-356 | the weight is written under its western, asian and complex names exactly when set |
| OdsStyles.TextSize | src/SheetExporter/ExporterOds.php:357-360 | the size is written under its three names exactly when set |
| OdsStyles.FontSizeUnit | src/SheetExporter/ExporterOds.php:358 | any numeric font size gets `pt`, and the written size reads back through `convertSize` in points as that number; a non-numeric size is kept as given |
| OdsStyles.TextFamily | src/SheetExporter/ExporterOds.php:361-363 | the family is written under its three names exactly when set |
| OdsStyles.TextBackground | src/SheetExporter/ExporterOds.php:364-366 | `fo:background-color` is written exactly when the font's BACKGROUND is set |
| OdsStyles.TextAlign | src/SheetExporter/ExporterOds.php:370 | `left` in any letter case is written as `start`, `right` in any letter case as `end`, and an alignment mentioning neither side is written as given |
| OdsStyles.BorderOf | src/SheetExporter/ExporterOds.php:381-386 | a border has its width converted to points when set, the style (default `solid`) and the colour (default `#000000`); it fails exactly when the width does not convert |
| OdsStyles.BorderSidesSpec | src/SheetExporter/ExporterOds.php:329-337 | a flat border is written once as `fo:border`. Otherwise each described side is written exactly once, in the order left, right, top, bottom, and no other side is |
| OdsStyles.Borders | src/SheetExporter/ExporterOds.php:329-337 | the borders convert one by one; the export fails exactly when one of them fails |
| OdsStyles.StyleProps | src/SheetExporter/ExporterOds.php:321-341 | a style writes its text properties and the paragraph alignment exactly when ALIGN is set (with left/right mapped). It also writes the cell background and, as its borders, exactly what converting the listed sides yields, one per side; it fails exactly when a border fails |
| OdsStyles.SheetColumnDecls | src/SheetExporter/ExporterOds.php:212-227 | every column style a sheet's table refers to is declared for that sheet |
| OdsStyles.RegistryDecls | src/SheetExporter/ExporterOds.php:88-103 | the declarations fail exactly when some registered style's properties or height cannot be converted. Otherwise each registered style declares `tc_<mark>` with its converted properties, and `ro_<mark>` with its height in millimetres when it has a height |
| OdsStyles.StyleDecls | src/SheetExporter/ExporterOds.php:90-101 | one registered style yields its `tc_` cell style first and, when it has a height, its `ro_` row style second; it fails exactly when its properties or its height cannot be converted |
| OdsStyles.CollectFails | src/SheetExporter/ExporterOds.php:89-103 | collecting the declarations over the registry fails exactly when one entry fails |
| OdsStyles.CollectContains | src/SheetExporter/ExporterOds.php:89-103 | every declaration of every entry appears in the collected declarations |
| OdsStyles.RowHeightDecl | src/SheetExporter/ExporterOds.php:96-101 | a style with a height declares exactly one row style `ro_<mark>` carrying the height in millimetres, fails exactly when that conversion fails, and declares nothing without a height |
| OdsStyles.AutoStyles | src/SheetExporter/ExporterOds.php:74-105 | the automatic styles declare every column style of every sheet, `rdef` when the default has a height, and each registered style's `tc_` and (with a height) `ro_` style |
| OdsStyles.RowStyleDeclared | src/SheetExporter/ExporterOds.php:290-300 | every row style a table row refers to is declared |
| OdsStyles.ColumnStyleDeclared | src/SheetExporter/ExporterOds.php:183-229 | every column style a table refers to is declared |
| OdsStyles.CellStyleDeclared | src/SheetExporter/ExporterOds.php:275 | a cell whose class names a registered style refers to a declared `tc_` style |
| OdsStyles.DefaultStyleXml | src/SheetExporter/ExporterOds.php:405-410 | the `Default` style is exactly black text when there is no default. Otherwise it is the default's properties, followed by black text exactly when the default's colour is not truthy; it fails exactly when those properties fail |
| OdsStyles.Tables | src/SheetExporter/ExporterOds.php:109-120 | the tables fail exactly when some sheet has a truthy, unregistered row class |
| OdsStyles.Content | src/SheetExporter/ExporterOds.php:66-128 | `content.xml` is written exactly when the automatic styles convert and every sheet's row classes are known |
| Html.CellOf | src/SheetExporter/ExporterHtml.php:147-155 | a cell's class is its own STYLE, else the row's. A numeric value appends `number`, after a space when there is a class, and is exactly `number` when there is none. `rowspan`/`colspan` appear exactly above one, and the text decodes to the value |
| Html.RowBodyFrom | src/SheetExporter/ExporterHtml.php:107-110 | from any position on, a row writes exactly its present cells, in order |
| Html.RowBodyPresent | src/SheetExporter/ExporterHtml.php:105-111 | a row writes one `<td>` per non-null cell, in order, with no covered cells |
| Html.Rows | src/SheetExporter/ExporterHtml.php:97-113 | the rows fail exactly when some row's class is truthy and unregistered. The message is "Missing style" with the class of the FIRST such row. Otherwise the text is one `<tr>` line per row, in order, holding that row's cells under its class |
| Html.HeaderHtml | src/SheetExporter/ExporterHtml.php:80-91 | nothing is written exactly when there are no headers |
| Html.OwnWidths | src/SheetExporter/ExporterHtml.php:121-128 | one width per own column, failing exactly when one does not convert; the `k`-th width is column `k`'s width converted to points |
| Html.ColWidths | src/SheetExporter/ExporterHtml.php:119-138 | `colCount` widths when a default is set and fewer own widths exist, otherwise one per own width, even with no own widths; fails exactly when a written width does not convert. The own widths come first, each converted to points, and every width after them is the converted default |
| Html.FontDecls | src/SheetExporter/ExporterHtml.php:180-188 | the font properties fail exactly when the SIZE does not convert |
| Html.FontValues | src/SheetExporter/ExporterHtml.php:180-188 | the colour, weight and alignment come out under their properties as given, the family in double quotes and the size converted to points, each exactly when set; no height |
| Html.SideDecls | src/SheetExporter/ExporterHtml.php:217-229 | a border description fails exactly when its width does not convert |
| Html.SidesValues | src/SheetExporter/ExporterHtml.php:203-205 | each described side gets its own `border-<side>-*` colour and style as given, and its width converted to points exactly when set; an undescribed side gets none |
| Html.CellSideValues | src/SheetExporter/ExporterHtml.php:196-208 | without a flat border, a described side's colour, style and converted width are written as given, an undescribed side gets none, and no flat `border-*` property is written |
| Html.CellFlatValues | src/SheetExporter/ExporterHtml.php:200-201 | a flat border is written with the `border-*` properties and no side-specific ones |
| Html.HeightValue | src/SheetExporter/ExporterHtml.php:162-172 | a height is written whenever HEIGHT is set, zero included, and after every font and cell property |
| Html.StyleRules | src/SheetExporter/ExporterHtml.php:44-46 | the registered styles' rules fail exactly when some style's properties fail |
| Html.StyleBlock | src/SheetExporter/ExporterHtml.php:37-47 | the `<style>` block fails exactly when the default style (if set) or a registered style fails |
| Html.TableHtml | src/SheetExporter/ExporterHtml.php:54-66 | a table is written exactly when its widths convert and its row classes are known |
| Html.Tables | src/SheetExporter/ExporterHtml.php:52-68 | the tables fail exactly when some sheet cannot be written |
| Html.Compile | src/SheetExporter/ExporterHtml.php:28-74 | the page is written exactly when the style block and every sheet can be written |

## Left out

- Packaging and I/O are left out because they are side effects: ZIP packaging, temporary files, `download`, `header()` and `readfile`.
- The fixed XML boilerplate is left out because it is constant or reads the clock:
  - namespace declarations, the manifest, `meta.xml` with `date('c')`;
  - XLSX `workbook.xml`, the content types, and the relationships file text. The relationship data itself is modelled by `Xlsx.SheetRelationships`.
  - the HTML `<head>` is also left out.
- Floating-point printing is left out. Lengths are exact `real`s, and the text printed for one is the `show` parameter.
  - XLSX `convertColSize` (the `<cols>` block) and `getFontStyle` print floats and are left out.
  - The XLSX `sheetFormatPr` default height is left out for the same reason.
- `is_numeric` is modelled as an optional sign followed by digits with an optional fraction. Exponents and surrounding whitespace are left out: PHP 8 also accepts `"1e3"`, `" 5"` and `"5 "`, which the model treats as text, so `"5 "` is written as a string cell and not as a number. Hexadecimal text is rejected by both.
  - The same subset decides PHP's loose `==` between sheet names (`Numeric.LooseEq`). Numeric names are compared as exact values, so PHP's integer overflow and float rounding in that comparison are left out.
- `Sheet::filterName` (`strip_tags`) is left out: a sheet's name is taken as already filtered.
- `array_search` in `sortStyle` compares loosely. The model compares records structurally.
- Every row, header list and width list is taken as a PHP list with keys 0 to n-1, so a sequence index stands for a key. The source reads cells by key in CSV, ODS and XLSX (`isset($row[$j-$move])`), iterates with `foreach` in HTML, turns header keys into column letters in XLSX and keys the ODS widths by column. Arrays with gaps or non-integer keys are left out.
- PHP values other than strings, ints and floats in a cell (booleans, nested arrays) are left out. ROWS and COLS are positive integers, so zero or negative spans cannot be written.
- Overlapping spans have no defined behaviour and are not constrained. Two merges starting at the same cell are not collapsed into one map key as PHP's `$mergeCells` would do.
- The program echoes output as it goes, so a "Missing style" exception arrives after part of the text has already been written. The model returns only the error.
- Units.ConvertSize: the unit tests `/…$/i` are case-sensitive suffix tests here. PHP's also accept "PT" for "pt" and a match just before a final newline, so "10PT" with unit pt gives 10 in PHP and an error in the model.
- Csv.RowLine: states the final newline. The fields of the line are stated by `Csv.RowLineReadBack`.
- Xlsx.MergeXml: states that each merge's element is present, not that the elements come in the order of the merges.
- Csv.SheetText: does not split the text back into lines, because a value holding a newline is written unquoted and cannot be told apart from a row break.
- Csv.HeaderLine: states emptiness and the final newline. The fields are stated by `Csv.HeaderReadBack`.
- Ods.HeaderXml: states only when the header row is empty. Each cell is stated by `Ods.HeaderCell`.
- Html.HeaderHtml: states only when the header is empty. The `<th>` cells are not related back to the headers.
- Html.FontDecls: states only the failure case. Every value is stated by `Html.FontValues`.
- Html.StyleBlock: states when it fails. The order of all properties within one rule is stated only through per-property lookups and the height coming last.
- Ods.TableXml: states when it fails. The table text is related to the rows by `Ods.SheetRows`, `Ods.OdsColumn` and `Ods.ColumnsCover`.
- Html.Tables: states when the tables fail. A row's cells are related to the sheet by `Html.RowBodyPresent`.
- OdsStyles.SheetColumnDecls: states that every used column style is declared. The declared widths are not related to the converted values.

## Where the code and its tests disagree

The model follows the code in each of these cases:

- For a row holding a single null cell under a span, the CSV code writes ` ,` and not the ` ,,` the CSV test expects, because null cells write nothing.
- Covered XLSX cells carry no `s` attribute, although the XLSX test expects one.
- The HTML test does not expect the `td { border-color: ... }` rule that the code writes first in the style block.

## Findings

| source | as written | input that shows it | evidently intended | confidence | as-written member | corrected member |
|---|---|---|---|---|---|---|
| src/SheetExporter/ExporterOds.php:277 | the rewritten formula is put into the `table:formula` attribute without escaping | FORMULA `"x"` (a formula holding a string literal) yields `table:formula="of:="x""`, which ends the attribute early | the value escaped as every other attribute text, as the XLSX backend escapes its formulas | medium, not executed | Ods.QuotedFormulaBreaksAttribute | Ods.FormulaValue |
| src/SheetExporter/Exporter.php:95 | the style-name pattern `/^[a-z0-9\-]+$/` has no D modifier, so `$` also matches before a final newline | the mark `"a\n"` is accepted | only lower-case letters, digits and dashes | medium, not executed | Styles.MarkAcceptsTrailingNewline | Styles.ValidMarkIsIntended |

=== FILE: alpha.dfy ===
/**
 * Spreadsheet column letters (`ExporterXlsx::toAlpha`) and A1-style cell references: the
 * bijective base-26 numbering of ECMA-376 Part 1 section 18.3.1.4, where 0 is `A`, 25 is
 * `Z` and 26 is `AA`.
 */
module Alpha {
  import opened Wrappers
  import opened Text

  /** The `i`-th capital letter. */
  function Letter(i: nat): (c: char)
    requires i < 26
    ensures IsUpper(c) && c as int == 'A' as int + i
  {
    ('A' as int + i) as char
  }

  function LetterIndex(c: char): (i: nat)
    requires IsUpper(c)
    ensures i < 26 && Letter(i) == c
  {
    (c as int - 'A' as int) as nat
  }

  /** Reference definition: the bijective base-26 numeral of `d >= 1`. */
  function Bijective(d: nat): (s: string)
    requires d >= 1
    ensures |s| > 0 && forall i :: 0 <= i < |s| ==> IsUpper(s[i])
    decreases d
  {
    if d <= 26 then [Letter(d - 1)]
    else Bijective((d - 1) / 26) + [Letter((d - 1) % 26)]
  }

  /** The letters of column `n` (zero-based). */
  function Column(n: nat): string {
    Bijective(n + 1)
  }

  /**
   * `toAlpha` as written: a single letter below 26, and otherwise the digit loop on
   * `num + 1`, peeling off `(dividend - 1) % 26` and dividing what is left by 26.
   */
  method ToAlpha(num: nat) returns (alpha: string)
    ensures alpha == Column(num)
  {
    if num < 26 {
      return [Letter(num)];
    }
    alpha := "";
    var dividend := num + 1;
    while dividend > 0
      invariant Column(num) == (if dividend > 0 then Bijective(dividend) else "") + alpha
      decreases dividend
    {
      var left := (dividend - 1) % 26;
      alpha := [Letter(left)] + alpha;
      DivStep(dividend);
      dividend := (dividend - left) / 26;
    }
  }

  /** The loop's division agrees with the reference's `(d - 1) / 26`. */
  lemma DivStep(d: nat)
    requires d >= 1
    ensures (d - (d - 1) % 26) / 26 == (d - 1) / 26
    ensures d <= 26 ==> (d - 1) / 26 == 0
  {
    var q := (d - 1) / 26;
    var r := (d - 1) % 26;
    assert d - r == 26 * q + 1;
  }

  /** Value of a bijective base-26 numeral (0 for the empty string). */
  function FromBijective(s: string): nat
    requires forall i :: 0 <= i < |s| ==> IsUpper(s[i])
  {
    if |s| == 0 then 0
    else FromBijective(s[..|s| - 1]) * 26 + LetterIndex(s[|s| - 1]) + 1
  }

  /** Decoding the letters of a column gives the column back. */
  lemma {:induction false} FromBijectiveInverse(d: nat)
    requires d >= 1
    ensures FromBijective(Bijective(d)) == d
    decreases d
  {
    var s := Bijective(d);
    if d > 26 {
      FromBijectiveInverse((d - 1) / 26);
      assert s[..|s| - 1] == Bijective((d - 1) / 26);
    }
  }

  /** The decoder of column letters (`A` is 0). */
  function FromColumn(s: string): int
    requires forall i :: 0 <= i < |s| ==> IsUpper(s[i])
  {
    FromBijective(s) - 1
  }

  /** Column letters round-trip, so distinct columns get distinct letters. */
  lemma ColumnRoundTrip(n: nat, m: nat)
    ensures FromColumn(Column(n)) == n
    ensures Column(n) == Column(m) ==> n == m
    ensures n < 26 <==> |Column(n)| == 1
  {
    FromBijectiveInverse(n + 1);
    FromBijectiveInverse(m + 1);
    if n >= 26 {
      assert |Column(n)| == |Bijective(n / 26)| + 1;
    }
  }

  /** A1-style reference of the cell at column `col`, sheet line `line`. */
  function CellRef(col: nat, line: nat): string {
    Column(col) + NatToString(line)
  }

  /** Length of the leading run of capital letters. */
  function LetterRun(s: string): (n: nat)
    ensures n <= |s| && forall i :: 0 <= i < n ==> IsUpper(s[i])
    ensures n < |s| ==> !IsUpper(s[n])
  {
    if |s| > 0 && IsUpper(s[0]) then 1 + LetterRun(s[1..]) else 0
  }

  /** Reading a reference: column letters, then a decimal line number. */
  function ParseRef(s: string): Option<(int, nat)> {
    var n := LetterRun(s);
    if n == 0 || !AllDigits(s[n..]) || n == |s| then None
    else Some((FromColumn(s[..n]), ParseDigits(s[n..])))
  }

  lemma {:induction false} LetterRunOf(a: string, b: string)
    requires forall i :: 0 <= i < |a| ==> IsUpper(a[i])
    requires |b| > 0 && !IsUpper(b[0])
    ensures LetterRun(a + b) == |a|
    decreases |a|
  {
    if |a| > 0 {
      assert (a + b)[1..] == a[1..] + b;
      LetterRunOf(a[1..], b);
    }
  }

  /** A reference reads back as the column and line it was made from. */
  lemma ParseCellRef(col: nat, line: nat)
    ensures ParseRef(CellRef(col, line)) == Some((col as int, line))
  {
    var a := Column(col);
    var b := NatToString(line);
    LetterRunOf(a, b);
    assert (a + b)[..|a|] == a;
    assert (a + b)[|a|..] == b;
    ColumnRoundTrip(col, col);
    ParseNatToString(line);
  }
}

=== FILE: csv.dfy ===
/**
 * The CSV backend (`ExporterCsv`): field escaping, the header line, and the rendering of a
 * row's walker events, together with a field reader that recovers what was written.
 */
module Csv {
  import opened Wrappers
  import opened Text
  import opened Numeric
  import opened Xml
  import opened Sheets
  import opened Walker

  /** Every `"` doubled (`str_replace('"', '""', ...)`). */
  function DoubleQuotes(s: string): (r: string)
    ensures Contains(r, ',') <==> Contains(s, ',')
    ensures Contains(r, '"') <==> Contains(s, '"')
    ensures !Contains(s, '"') ==> r == s
  {
    if |s| == 0 then []
    else
      var t := DoubleQuotes(s[1..]);
      var h := if s[0] == '"' then "\"\"" else [s[0]];
      HeadContains(s[0], h, ',');
      HeadContains(s[0], h, '"');
      ContainsAppend(h, t, ',');
      ContainsAppend(h, t, '"');
      ContainsCons(s, ',');
      ContainsCons(s, '"');
      h + t
  }

  lemma HeadContains(c0: char, h: string, c: char)
    requires h == [c0] || h == [c0, c0]
    ensures Contains(h, c) <==> c0 == c
  {
    assert h[0] == c0;
  }

  lemma ContainsAppend(a: string, b: string, c: char)
    ensures Contains(a + b, c) <==> Contains(a, c) || Contains(b, c)
  {
    if Contains(a, c) {
      var i :| 0 <= i < |a| && a[i] == c;
      assert (a + b)[i] == c;
    }
    if Contains(a + b, c) {
      var i :| 0 <= i < |a + b| && (a + b)[i] == c;
      if i >= |a| {
        assert b[i - |a|] == c;
      }
    }
    if Contains(b, c) {
      var i :| 0 <= i < |b| && b[i] == c;
      assert (a + b)[i + |a|] == c;
    }
  }

  lemma ContainsCons(s: string, c: char)
    requires |s| > 0
    ensures Contains(s, c) <==> s[0] == c || Contains(s[1..], c)
  {
    if Contains(s, c) && s[0] != c {
      var i :| 0 <= i < |s| && s[i] == c;
      assert s[1..][i - 1] == c;
    }
    if Contains(s[1..], c) {
      var i :| 0 <= i < |s| - 1 && s[1..][i] == c;
      assert s[i + 1] == c;
    }
  }

  /**
   * `getCellValue`: a numeric value is written as its text, a falsy one as nothing; any
   * other text has its quotes doubled and is wrapped in quotes when it holds a comma or a
   * quote (section 2, items 6 and 7, of RFC 4180).
   */
  function Escape(v: Value): (r: string)
    ensures v.IsNumber() ==> r == v.Text()
    ensures !v.IsNumber() && Falsy(v.s) ==> r == ""
    ensures !v.IsNumber() && !Falsy(v.s) && !Contains(v.s, ',') && !Contains(v.s, '"') ==> r == v.s
    ensures !v.IsNumber() && (Contains(v.s, ',') || Contains(v.s, '"')) ==> r == "\"" + DoubleQuotes(v.s) + "\""
  {
    if v.IsNumber() then v.Text()
    else if Falsy(v.s) then ""
    else
      var q := DoubleQuotes(v.s);
      if Contains(q, ',') || Contains(q, '"') then "\"" + q + "\"" else q
  }

  /** The text of a field written for each kind of event: `k` blank fields for a covered run. */
  function Token(row: seq<Cell>, e: Event): string
    requires e.Real? ==> e.src < |row| && row[e.src] != Empty
  {
    match e
    case Covered(_, k) => Repeat(" ,", k)
    case Real(_, src) => Escape(row[src].Shown()) + ","
  }

  /** The body of a row's line: one token per event, in order. */
  function RowBody(row: seq<Cell>, evs: seq<Event>): string
    requires Sourced(row, evs)
  {
    if |evs| == 0 then [] else Token(row, evs[0]) + RowBody(row, evs[1..])
  }

  /** A row's line: its tokens, then a newline. */
  function RowLine(row: seq<Cell>, evs: seq<Event>): (r: string)
    requires Sourced(row, evs)
    ensures |r| > 0 && r[|r| - 1] == '\n'
  {
    RowBody(row, evs) + "\n"
  }

  /** A row's line, without its newline, reads back field by field as the expected fields. */
  lemma RowLineReadBack(row: seq<Cell>, evs: seq<Event>)
    requires Sourced(row, evs)
    ensures ReadFields(RowLine(row, evs)[..|RowLine(row, evs)| - 1]) == Some(ExpectedFields(row, evs))
  {
    var body := RowBody(row, evs);
    RowReadBack(row, evs);
    assert (body + "\n")[..|body|] == body;
  }

  /** `printHeader`: nothing without headers; otherwise each escaped header and a comma, then a newline. */
  function HeaderLine(headers: seq<string>): (r: string)
    ensures |headers| == 0 <==> r == ""
    ensures |headers| > 0 ==> r[|r| - 1] == '\n'
  {
    if |headers| == 0 then "" else HeaderBody(headers) + "\n"
  }

  function HeaderBody(headers: seq<string>): string {
    if |headers| == 0 then [] else Escape(Str(headers[0])) + "," + HeaderBody(headers[1..])
  }

  /** Text that ends in a newline, or is empty, followed by more such text. */
  lemma JoinLines(head: string, body: string)
    requires |head| > 0 ==> head[|head| - 1] == '\n'
    requires |body| > 0 ==> body[|body| - 1] == '\n'
    ensures head <= head + body
    ensures |head + body| > 0 ==> (head + body)[|head + body| - 1] == '\n'
  {
    assert (head + body)[..|head|] == head;
    if |body| > 0 {
      assert (head + body)[|head + body| - 1] == body[|body| - 1];
    }
  }

  /** The text of one sheet: the header line, then one line per row. */
  function SheetText(s: Sheet): (r: string)
    requires Valid(s)
    ensures HeaderLine(s.headers) <= r
    ensures |r| >= |HeaderLine(s.headers)| + |s.rows|
    ensures |r| > 0 ==> r[|r| - 1] == '\n'
  {
    var scan := WalkSheet(s, Inclusive);
    WalkSheetScanned(s, Inclusive);
    var head := HeaderLine(s.headers);
    var body := Lines(s.rows, scan);
    JoinLines(head, body);
    head + body
  }

  function Lines(rows: seq<seq<Cell>>, scan: seq<seq<Event>>): (r: string)
    requires |scan| == |rows|
    requires forall i :: 0 <= i < |rows| ==> RowScanned(rows[i], scan[i])
    ensures |r| >= |rows|
    ensures |rows| > 0 ==> r[|r| - 1] == '\n'
  {
    if |rows| == 0 then []
    else
      assert RowScanned(rows[0], scan[0]);
      WalkSourced(rows[0], scan[0]);
      assert forall i :: 0 <= i < |rows| - 1 ==> rows[1..][i] == rows[i + 1] && scan[1..][i] == scan[i + 1];
      RowLine(rows[0], scan[0]) + Lines(rows[1..], scan[1..])
  }

  /** `compile`: every sheet in order, with nothing between them. */
  function Compile(sheets: seq<Sheet>): (r: string)
    requires forall i :: 0 <= i < |sheets| ==> Valid(sheets[i])
    ensures |sheets| > 0 ==> SheetText(sheets[0]) <= r
  {
    if |sheets| == 0 then []
    else
      assert forall i :: 0 <= i < |sheets| - 1 ==> sheets[1..][i] == sheets[i + 1];
      SheetText(sheets[0]) + Compile(sheets[1..])
  }

  lemma AppendAssoc(t: string, x: string, y: string)
    ensures t + (x + y) == (t + x) + y
  {
  }

  /** Compiling two lists of sheets one after the other is compiling them together. */
  lemma {:induction false} CompileAppend(a: seq<Sheet>, b: seq<Sheet>)
    requires forall i :: 0 <= i < |a| ==> Valid(a[i])
    requires forall i :: 0 <= i < |b| ==> Valid(b[i])
    ensures forall i :: 0 <= i < |a + b| ==> Valid((a + b)[i])
    ensures Compile(a + b) == Compile(a) + Compile(b)
  {
    var ab := a + b;
    forall i | 0 <= i < |ab| ensures Valid(ab[i]) {
      if i < |a| {
        assert ab[i] == a[i];
      } else {
        assert ab[i] == b[i - |a|];
      }
    }
    if |a| > 0 {
      assert ab[0] == a[0];
      assert ab[1..] == a[1..] + b;
      CompileAppend(a[1..], b);
      var t := SheetText(a[0]);
      var x, y := Compile(a[1..]), Compile(b);
      assert Compile(ab) == t + Compile(ab[1..]);
      assert Compile(ab[1..]) == x + y;
      assert Compile(a) == t + x;
      AppendAssoc(t, x, y);
    } else {
      assert ab == b;
    }
  }

  // ---------------------------------------------------------------------------------
  // Reading the output back

  /** The inside of a quoted field up to its closing quote, with `""` read as `"`. */
  function ReadQuoted(s: string): (r: Option<(string, string)>)
    ensures r.Some? ==> |r.value.1| < |s|
  {
    if |s| == 0 then None
    else if s[0] == '"' then
      if |s| > 1 && s[1] == '"' then
        match ReadQuoted(s[2..])
        case Some((f, rest)) => Some(("\"" + f, rest))
        case None => None
      else Some(("", s[1..]))
    else
      match ReadQuoted(s[1..])
      case Some((f, rest)) => Some(([s[0]] + f, rest))
      case None => None
  }

  /** An unquoted field: everything up to the next comma. */
  function ReadPlain(s: string): (r: Option<(string, string)>)
    ensures r.Some? ==> |r.value.1| < |s|
  {
    if |s| == 0 then None
    else if s[0] == ',' then Some(("", s[1..]))
    else
      match ReadPlain(s[1..])
      case Some((f, rest)) => Some(([s[0]] + f, rest))
      case None => None
  }

  /** One comma-terminated field, quoted or not, and what follows its comma. */
  function ReadField(s: string): (r: Option<(string, string)>)
    ensures r.Some? ==> |r.value.1| < |s|
  {
    if |s| > 0 && s[0] == '"' then
      match ReadQuoted(s[1..])
      case Some((f, rest)) => if |rest| > 0 && rest[0] == ',' then Some((f, rest[1..])) else None
      case None => None
    else ReadPlain(s)
  }

  /** All the comma-terminated fields of a line body. */
  function ReadFields(s: string): Option<seq<string>>
    decreases |s|
  {
    if |s| == 0 then Some([])
    else
      match ReadField(s)
      case None => None
      case Some((f, rest)) =>
        match ReadFields(rest)
        case None => None
        case Some(fs) => Some([f] + fs)
  }

  lemma DoubleQuotesCons(s: string)
    requires |s| > 0
    ensures DoubleQuotes(s) == (if s[0] == '"' then "\"\"" else [s[0]]) + DoubleQuotes(s[1..])
  {
  }

  /** A doubled quote reads as one quote. */
  lemma ReadQuotedPair(t: string)
    ensures ReadQuoted("\"\"" + t) == if ReadQuoted(t).Some? then Some(("\"" + ReadQuoted(t).value.0, ReadQuoted(t).value.1)) else None
  {
    assert ("\"\"" + t)[2..] == t;
  }

  /** Any other character reads as itself. */
  lemma ReadQuotedOther(c: char, t: string)
    requires c != '"'
    ensures ReadQuoted([c] + t) == if ReadQuoted(t).Some? then Some(([c] + ReadQuoted(t).value.0, ReadQuoted(t).value.1)) else None
  {
    assert ([c] + t)[1..] == t;
  }

  /** A lone quote closes the field. */
  lemma ReadQuotedClose(rest: string)
    requires |rest| == 0 || rest[0] != '"'
    ensures ReadQuoted("\"" + rest) == Some(("", rest))
  {
    assert ("\"" + rest)[1..] == rest;
  }

  lemma {:induction false} ReadQuotedDoubled(s: string, rest: string)
    requires |rest| == 0 || rest[0] != '"'
    ensures ReadQuoted(DoubleQuotes(s) + "\"" + rest) == Some((s, rest))
    decreases |s|
  {
    if |s| == 0 {
      assert DoubleQuotes(s) + "\"" + rest == "\"" + rest;
      ReadQuotedClose(rest);
    } else {
      var t := DoubleQuotes(s[1..]) + "\"" + rest;
      var h: string := if s[0] == '"' then "\"\"" else [s[0]];
      calc {
        ReadQuoted(DoubleQuotes(s) + "\"" + rest);
      == { DoubleQuotesCons(s); assert DoubleQuotes(s) + "\"" + rest == h + t; }
        ReadQuoted(h + t);
      == { if s[0] == '"' { ReadQuotedPair(t); } else { ReadQuotedOther(s[0], t); }
           ReadQuotedDoubled(s[1..], rest); }
        Some(([s[0]] + s[1..], rest));
      == { assert [s[0]] + s[1..] == s; }
        Some((s, rest));
      }
    }
  }

  lemma {:induction false} ReadPlainUpToComma(s: string, rest: string)
    requires !Contains(s, ',')
    ensures ReadPlain(s + "," + rest) == Some((s, rest))
    decreases |s|
  {
    if |s| > 0 {
      ContainsCons(s, ',');
      ReadPlainUpToComma(s[1..], rest);
      assert (s + "," + rest)[1..] == s[1..] + "," + rest;
      assert [s[0]] + s[1..] == s;
    } else {
      assert (s + "," + rest)[1..] == rest;
    }
  }

  lemma NumericIsPlain(s: string)
    requires IsNumeric(s)
    ensures !Contains(s, ',') && !Contains(s, '"')
  {
    if Contains(s, ',') || Contains(s, '"') {
      var i :| 0 <= i < |s| && (s[i] == ',' || s[i] == '"');
      NumericChars(s, i);
    }
  }

  /** Printed numbers hold no comma and no quote. */
  lemma NumTextIsPlain(t: NumText)
    ensures !Contains(t, ',') && !Contains(t, '"')
  {
  }

  /** A field with no comma and no quote reads back unchanged. */
  lemma PlainReadBack(r: string, rest: string)
    requires !Contains(r, ',') && !Contains(r, '"')
    ensures ReadField(r + "," + rest) == Some((r, rest))
  {
    assert |r| == 0 || r[0] != '"' by {
      if |r| > 0 {
        assert Contains(r, r[0]);
      }
    }
    ReadPlainUpToComma(r, rest);
  }

  /** A quoted field with its quotes doubled reads back as the original text. */
  lemma QuotedReadBack(s: string, rest: string)
    ensures ReadField("\"" + DoubleQuotes(s) + "\"" + "," + rest) == Some((s, rest))
  {
    ReadQuotedDoubled(s, "," + rest);
    assert ("\"" + DoubleQuotes(s) + "\"" + "," + rest)[1..] == DoubleQuotes(s) + "\"" + ("," + rest);
    assert ("," + rest)[1..] == rest;
  }

  /** The reader gets back exactly the text of the written value. */
  lemma EscapeReadBack(v: Value, rest: string)
    ensures ReadField(Escape(v) + "," + rest) == Some((v.Text(), rest))
  {
    if v.IsNumber() {
      if v.Str? {
        NumericIsPlain(v.s);
      } else {
        NumTextIsPlain(v.text);
      }
      PlainReadBack(Escape(v), rest);
    } else if Contains(v.s, ',') || Contains(v.s, '"') {
      QuotedReadBack(v.s, rest);
    } else {
      PlainReadBack(Escape(v), rest);
    }
  }

  /** The fields a reader should see for a row: the cells' texts, and a blank per covered column. */
  function ExpectedFields(row: seq<Cell>, evs: seq<Event>): seq<string>
    requires Sourced(row, evs)
  {
    if |evs| == 0 then []
    else
      (match evs[0]
       case Covered(_, k) => seq(k, _ => " ")
       case Real(_, src) => [row[src].Shown().Text()])
      + ExpectedFields(row, evs[1..])
  }

  lemma {:induction false} BlanksReadBack(k: nat, rest: string)
    requires ReadFields(rest).Some?
    ensures ReadFields(Repeat(" ,", k) + rest) == Some(seq(k, _ => " ") + ReadFields(rest).value)
    decreases k
  {
    if k > 0 {
      BlanksReadBack(k - 1, rest);
      var t := Repeat(" ,", k - 1) + rest;
      assert Repeat(" ,", k) + rest == " " + "," + t;
      assert !Contains(" ", ',') by {
        assert " "[0] != ',';
      }
      ReadPlainUpToComma(" ", t);
      assert ReadField(" " + "," + t) == Some((" ", t));
      var fs := ReadFields(t).value;
      assert fs == seq(k - 1, _ => " ") + ReadFields(rest).value;
      assert ReadFields(" " + "," + t) == Some([" "] + fs);
      assert seq(k, _ => " ") == [" "] + seq(k - 1, _ => " ");
      assert [" "] + fs == seq(k, _ => " ") + ReadFields(rest).value;
    } else {
      assert Repeat(" ,", k) + rest == rest;
      assert seq(k, _ => " ") + ReadFields(rest).value == ReadFields(rest).value;
    }
  }

  /**
   * A row's line body reads back, field by field, as the cells' texts with a blank field
   * for every covered column.
   */
  lemma {:induction false} RowReadBack(row: seq<Cell>, evs: seq<Event>)
    requires Sourced(row, evs)
    ensures ReadFields(RowBody(row, evs)) == Some(ExpectedFields(row, evs))
    decreases |evs|
  {
    if |evs| > 0 {
      RowReadBack(row, evs[1..]);
      var t := RowBody(row, evs[1..]);
      match evs[0]
      case Covered(_, k) =>
        BlanksReadBack(k, t);
      case Real(_, src) =>
        EscapeReadBack(row[src].Shown(), t);
        assert RowBody(row, evs) == Escape(row[src].Shown()) + "," + t;
    }
  }

  /** The header line body reads back as the headers themselves. */
  lemma {:induction false} HeaderReadBack(headers: seq<string>)
    ensures ReadFields(HeaderBody(headers)) == Some(headers)
    decreases |headers|
  {
    if |headers| > 0 {
      HeaderReadBack(headers[1..]);
      EscapeReadBack(Str(headers[0]), HeaderBody(headers[1..]));
      assert [headers[0]] + headers[1..] == headers;
    }
  }
}

=== FILE: formula.dfy ===
/**
 * `ExporterOds::reformatFormula`: every A1-style reference of a formula, optionally followed
 * by a second one (after an optional `:`), is wrapped into the OpenFormula form
 * `[.A1]` / `[.A1:.B2]` of OpenDocument 1.2 Part 2 section 5.8; all other text is kept.
 * The regular expression `(\$?[A-Z]+\$?[0-9]+)((\:?)(\$?[A-Z]+\$?[0-9]+))?` is modelled
 * by a scanner that reads the leftmost match at each position, as `preg_replace_callback`
 * does.
 */
module Formula {
  import opened Wrappers
  import opened Text
  import opened Numeric

  /** Number of consecutive capital letters of `s` starting at `i`. */
  function UpperRun(s: string, i: nat): (n: nat)
    requires i <= |s|
    ensures i + n <= |s|
    ensures i + n < |s| ==> !IsUpper(s[i + n])
    decreases |s| - i
  {
    if i < |s| && IsUpper(s[i]) then 1 + UpperRun(s, i + 1) else 0
  }

  /** The run holds capital letters only. */
  lemma {:induction false} UpperRunUppers(s: string, i: nat)
    requires i <= |s|
    ensures forall k :: i <= k < i + UpperRun(s, i) ==> IsUpper(s[k])
    decreases |s| - i
  {
    if i < |s| && IsUpper(s[i]) {
      UpperRunUppers(s, i + 1);
    }
  }

  /** Length of the `$` marker at `i`, if there is one. */
  function Dollar(s: string, i: nat): (n: nat)
    ensures n <= 1
    ensures n == 1 <==> i < |s| && s[i] == '$'
  {
    if i < |s| && s[i] == '$' then 1 else 0
  }

  /**
   * Length of the reference `\$?[A-Z]+\$?[0-9]+` at the start of `s`, if one starts there.
   * The letter and digit runs are taken whole: the parts after them are optional, so the
   * regular expression never gives characters back.
   */
  function RefLen(s: string): (r: Option<nat>)
    ensures r.Some? ==> 0 < r.value <= |s|
    ensures r.Some? && r.value < |s| ==> !IsDigit(s[r.value])
  {
    var a := Dollar(s, 0);
    var l := UpperRun(s, a);
    var b := Dollar(s, a + l);
    var n := DigitRun(s, a + l + b);
    if l == 0 || n == 0 then None else Some(a + l + b + n)
  }

  /**
   * Reference definition of a single reference split as `a` dollar signs, `l` letters,
   * `b` dollar signs and the rest digits.
   */
  predicate RefShape(t: string, a: nat, l: nat, b: nat) {
    a <= 1 && b <= 1 && 0 < l && a + l + b < |t|
    && (a == 1 ==> t[0] == '$') && (b == 1 ==> t[a + l] == '$')
    && (forall k :: a <= k < a + l ==> IsUpper(t[k])) && AllDigits(t[a + l + b..])
  }

  ghost predicate IsRef(t: string) {
    exists a: nat, l: nat, b: nat :: RefShape(t, a, l, b)
  }

  /** What `RefLen` measures is a reference. */
  lemma RefLenIsRef(s: string)
    requires RefLen(s).Some?
    ensures IsRef(s[..RefLen(s).value])
  {
    var a := Dollar(s, 0);
    var l := UpperRun(s, a);
    var b := Dollar(s, a + l);
    var d := DigitRun(s, a + l + b);
    var n := a + l + b + d;
    assert RefLen(s) == Some(n);
    var t := s[..n];
    UpperRunUppers(s, a);
    DigitRunDigits(s, a + l + b);
    assert forall k :: a <= k < a + l ==> IsUpper(t[k]) by {
      forall k | a <= k < a + l ensures IsUpper(t[k]) {
        assert t[k] == s[k];
      }
    }
    var u := t[a + l + b..];
    assert AllDigits(u) by {
      forall j | 0 <= j < |u| ensures IsDigit(u[j]) {
        assert u[j] == s[a + l + b + j];
      }
    }
    assert RefShape(t, a, l, b);
  }

  /** A run of `l` capital letters at `i` that is followed by none is the whole run. */
  lemma {:induction false} UpperRunExact(s: string, i: nat, l: nat)
    requires i + l <= |s|
    requires forall k :: i <= k < i + l ==> IsUpper(s[k])
    requires i + l < |s| ==> !IsUpper(s[i + l])
    ensures UpperRun(s, i) == l
    decreases l
  {
    if l > 0 {
      UpperRunExact(s, i + 1, l - 1);
    }
  }

  /** A run of `d` digits at `i` is at most the digit run measured there. */
  lemma {:induction false} DigitRunAtLeast(s: string, i: nat, d: nat)
    requires i + d <= |s|
    requires forall k :: i <= k < i + d ==> IsDigit(s[k])
    ensures d <= DigitRun(s, i)
    decreases d
  {
    if d > 0 {
      DigitRunAtLeast(s, i + 1, d - 1);
    }
  }

  /**
   * `RefLen` finds every reference and takes the longest: when some prefix of `s` is a
   * reference, one is measured at the start of `s`, and it is at least that long.
   */
  lemma RefLenLongest(s: string, m: nat)
    requires 0 < m <= |s| && IsRef(s[..m])
    ensures RefLen(s).Some? && m <= RefLen(s).value
  {
    var t := s[..m];
    var a: nat, l: nat, b: nat :| RefShape(t, a, l, b);
    assert t[a] == s[a] && IsUpper(t[a]);
    assert Dollar(s, 0) == a;
    assert forall k :: a <= k < a + l ==> IsUpper(s[k]) by {
      forall k | a <= k < a + l ensures IsUpper(s[k]) {
        assert t[k] == s[k];
      }
    }
    var u := t[a + l + b..];
    assert u[0] == s[a + l + b] && IsDigit(u[0]);
    assert t[a + l] == s[a + l];
    assert !IsUpper(s[a + l]);
    UpperRunExact(s, a, l);
    assert Dollar(s, a + l) == b;
    assert forall k :: a + l + b <= k < m ==> IsDigit(s[k]) by {
      forall k | a + l + b <= k < m ensures IsDigit(s[k]) {
        assert u[k - (a + l + b)] == s[k];
      }
    }
    DigitRunAtLeast(s, a + l + b, m - (a + l + b));
  }

  /** No prefix of `s` is a reference exactly when `RefLen` measures none. */
  lemma RefLenComplete(s: string)
    ensures RefLen(s).None? <==> forall m :: 0 < m <= |s| ==> !IsRef(s[..m])
  {
    if RefLen(s).Some? {
      RefLenIsRef(s);
    }
    forall m | 0 < m <= |s| && IsRef(s[..m]) ensures RefLen(s).Some? {
      RefLenLongest(s, m);
    }
  }

  /** A piece of a formula: one character kept as it is, or a matched reference range. */
  datatype Piece = Plain(c: char) | Link(first: string, colon: bool, second: Option<string>)

  /** The source text of a piece. */
  function Source(p: Piece): string {
    match p
    case Plain(c) => [c]
    case Link(a, colon, b) => a + (if colon then ":" else "") + (if b.Some? then b.value else "")
  }

  /** A link holds references, and one without a second part swallowed no colon. */
  ghost predicate PieceOk(p: Piece) {
    p.Link? ==> IsRef(p.first) && (p.second.Some? ==> IsRef(p.second.value)) && (p.second.None? ==> !p.colon)
  }

  /**
   * A measure of the token that starts a text: its length, when one starts there. The
   * matching below is written for any measure so that its proofs never look inside `RefLen`.
   */
  type Measure = f: string -> Option<nat> | forall x :: f(x).Some? ==> 0 < f(x).value <= |x|
    witness NoToken

  function NoToken(x: string): Option<nat> {
    None
  }

  /** A measure under which no token starts with a colon. */
  ghost predicate ColonFree(ref: Measure) {
    forall x :: |x| > 0 && x[0] == ':' ==> ref(x).None?
  }

  /** A reference never starts with a colon. */
  lemma RefNotColon(t: string)
    requires |t| > 0 && t[0] == ':'
    ensures RefLen(t).None?
  {
    assert Dollar(t, 0) == 0 && UpperRun(t, 0) == 0;
  }

  lemma RefLenColonFree()
    ensures ColonFree(RefLen)
  {
    forall x | |x| > 0 && x[0] == ':' ensures RefLen(x).None? {
      RefNotColon(x);
    }
  }

  /**
   * The match at the start of `s`, with the length it consumes: a reference, optionally
   * followed by `:` and a second reference; or else the first character alone.
   */
  function Next(s: string): (r: (Piece, nat))
    requires |s| > 0
    ensures 0 < r.1 <= |s|
    ensures r.0.Plain? <==> RefLen(s).None?
  {
    NextBy(s, RefLen)
  }

  /** The match at the start of `s` for the tokens `ref` measures. */
  function NextBy(s: string, ref: Measure): (r: (Piece, nat))
    requires |s| > 0
    ensures 0 < r.1 <= |s|
    ensures r.0.Plain? <==> ref(s).None?
  {
    match ref(s)
    case None => (Plain(s[0]), 1)
    case Some(n) => LinkAfter(s, n, ref)
  }

  /** The link that starts with a token of length `n`: the optional `:` and second part. */
  function LinkAfter(s: string, n: nat, ref: Measure): (r: (Piece, nat))
    requires 0 < n <= |s|
    ensures r.0.Link? && n <= r.1 <= |s|
  {
    var c := if n < |s| && s[n] == ':' then 1 else 0;
    LinkOf(s, n, c, ref(s[n + c..]))
  }

  /** The link from a first reference of length `n`, `c` colons and the second match `m`. */
  function LinkOf(s: string, n: nat, c: nat, m: Option<nat>): (r: (Piece, nat))
    requires 0 < n && n + c <= |s| && (m.Some? ==> n + c + m.value <= |s|)
    ensures r.0.Link? && n <= r.1 <= |s|
  {
    match m
    case Some(m) => (Link(s[..n], c == 1, Some(s[n + c..n + c + m])), n + c + m)
    case None => (Link(s[..n], false, None), n)
  }

  /** A match spells back exactly the text it consumes. */
  lemma NextSource(s: string)
    requires |s| > 0
    ensures Source(Next(s).0) == s[..Next(s).1]
  {
    NextBySource(s, RefLen);
  }

  lemma NextBySource(s: string, ref: Measure)
    requires |s| > 0
    ensures Source(NextBy(s, ref).0) == s[..NextBy(s, ref).1]
  {
    match ref(s)
    case None =>
      assert NextBy(s, ref) == (Plain(s[0]), 1);
      assert Source(Plain(s[0])) == s[..1];
    case Some(n) =>
      assert NextBy(s, ref) == LinkAfter(s, n, ref);
      LinkAfterSource(s, n, ref);
  }

  lemma LinkAfterSource(s: string, n: nat, ref: Measure)
    requires 0 < n <= |s|
    ensures Source(LinkAfter(s, n, ref).0) == s[..LinkAfter(s, n, ref).1]
  {
    var c := if n < |s| && s[n] == ':' then 1 else 0;
    var m := ref(s[n + c..]);
    assert LinkAfter(s, n, ref) == LinkOf(s, n, c, m);
    LinkOfSource(s, n, c, m);
  }

  lemma LinkOfSource(s: string, n: nat, c: nat, m: Option<nat>)
    requires 0 < n && n + c <= |s| && (m.Some? ==> n + c + m.value <= |s|)
    requires c <= 1 && (c == 1 ==> s[n] == ':')
    ensures Source(LinkOf(s, n, c, m).0) == s[..LinkOf(s, n, c, m).1]
  {
    match m
    case Some(m) =>
      SourceOfLink(s, n, c, m);
    case None =>
      assert Source(Link(s[..n], false, None)) == s[..n];
  }

  /** A measure whose tokens are all references. */
  ghost predicate MeasuresRefs(ref: Measure) {
    forall x :: ref(x).Some? ==> IsRef(x[..ref(x).value])
  }

  lemma RefLenMeasuresRefs()
    ensures MeasuresRefs(RefLen)
  {
    forall x | RefLen(x).Some? ensures IsRef(x[..RefLen(x).value]) {
      RefLenIsRef(x);
    }
  }

  /** Every match is made of references. */
  lemma NextOk(s: string)
    requires |s| > 0
    ensures PieceOk(Next(s).0)
  {
    RefLenMeasuresRefs();
    NextByOk(s, RefLen);
  }

  lemma NextByOk(s: string, ref: Measure)
    requires |s| > 0 && MeasuresRefs(ref)
    ensures PieceOk(NextBy(s, ref).0)
  {
    if ref(s).Some? {
      var n := ref(s).value;
      assert NextBy(s, ref) == LinkAfter(s, n, ref);
      LinkAfterOk(s, n, ref);
    }
  }

  lemma LinkAfterOk(s: string, n: nat, ref: Measure)
    requires 0 < n <= |s| && IsRef(s[..n]) && MeasuresRefs(ref)
    ensures PieceOk(LinkAfter(s, n, ref).0)
  {
    if n < |s| && s[n] == ':' {
      assert LinkAfter(s, n, ref) == LinkOf(s, n, 1, ref(s[n + 1..]));
      LinkOfOk(s, n, 1, s[n + 1..], ref);
    } else {
      assert LinkAfter(s, n, ref) == LinkOf(s, n, 0, ref(s[n..]));
      LinkOfOk(s, n, 0, s[n..], ref);
    }
  }

  lemma LinkOfOk(s: string, n: nat, c: nat, rest: string, ref: Measure)
    requires 0 < n && n + c <= |s| && rest == s[n + c..] && IsRef(s[..n]) && MeasuresRefs(ref)
    ensures PieceOk(LinkOf(s, n, c, ref(rest)).0)
  {
    if ref(rest).Some? {
      var m := ref(rest).value;
      assert rest[..m] == s[n + c..n + c + m];
      assert IsRef(rest[..m]);
    }
  }

  lemma SourceOfLink(s: string, n: nat, c: nat, m: nat)
    requires n + c + m <= |s| && c <= 1
    requires c == 1 ==> s[n] == ':'
    ensures Source(Link(s[..n], c == 1, Some(s[n + c..n + c + m]))) == s[..n + c + m]
  {
    if c == 1 {
      assert s[..n + c + m] == s[..n] + ":" + s[n + c..n + c + m];
    } else {
      assert s[..n + c + m] == s[..n] + s[n + c..n + c + m];
    }
  }

  /** The scanner: the match at each position, else one character passed through. */
  function Tokenize(s: string): (ps: seq<Piece>)
    decreases |s|
  {
    if |s| == 0 then []
    else
      var p := Next(s);
      [p.0] + Tokenize(s[p.1..])
  }

  function Flatten(ps: seq<Piece>): string {
    if |ps| == 0 then "" else Source(ps[0]) + Flatten(ps[1..])
  }

  /** The callback's output for a piece: `[.` first, then `:.`/`.` and the second, `]`. */
  function Rewrite(p: Piece): string {
    match p
    case Plain(c) => [c]
    case Link(a, colon, b) =>
      "[." + a + (if b.Some? then (if colon then ":" else "") + "." + b.value else "") + "]"
  }

  function RenderPieces(ps: seq<Piece>): string {
    if |ps| == 0 then "" else Rewrite(ps[0]) + RenderPieces(ps[1..])
  }

  /**
   * `reformatFormula`: the formula cut into plain characters and well-formed reference
   * links that spell it back exactly, where each piece is the leftmost-longest match at its
   * offset, with every link rewritten and every plain character kept. `ReformatUnique`
   * shows that such a cut is unique, so these conditions fix the result.
   */
  function ReformatFormula(f: string): (r: string)
    ensures exists ps :: Flatten(ps) == f && WellFormed(ps) && Leftmost(ps) && RenderPieces(ps) == r
  {
    TokenizeFlatten(f);
    TokenizeWellFormed(f);
    TokenizeLeftmost(f);
    RenderPieces(Tokenize(f))
  }

  /** Every piece is well formed. */
  ghost predicate WellFormed(ps: seq<Piece>) {
    forall i :: 0 <= i < |ps| ==> PieceOk(ps[i])
  }

  lemma {:induction false} FlattenCons(p: Piece, ps: seq<Piece>)
    ensures Flatten([p] + ps) == Source(p) + Flatten(ps)
  {
    assert ([p] + ps)[1..] == ps;
  }

  lemma {:induction false} RenderCons(p: Piece, ps: seq<Piece>)
    ensures RenderPieces([p] + ps) == Rewrite(p) + RenderPieces(ps)
  {
    assert ([p] + ps)[1..] == ps;
  }

  lemma {:induction false} FlattenStep(s: string, p: Piece, k: nat, ps: seq<Piece>)
    requires 0 < k <= |s| && Source(p) == s[..k] && Flatten(ps) == s[k..]
    ensures Flatten([p] + ps) == s
  {
    FlattenCons(p, ps);
    assert s == s[..k] + s[k..];
  }

  lemma {:induction false} WellFormedCons(p: Piece, ps: seq<Piece>)
    requires PieceOk(p) && WellFormed(ps)
    ensures WellFormed([p] + ps)
  {
    forall i | 0 <= i < |[p] + ps| ensures PieceOk(([p] + ps)[i]) {
      if i > 0 {
        assert ([p] + ps)[i] == ps[i - 1];
      }
    }
  }

  /** The scanner loses and invents nothing: its pieces spell the formula back. */
  lemma {:induction false} TokenizeFlatten(s: string)
    ensures Flatten(Tokenize(s)) == s
    decreases |s|
  {
    if |s| > 0 {
      var p := Next(s);
      TokenizeFlatten(s[p.1..]);
      NextSource(s);
      FlattenStep(s, p.0, p.1, Tokenize(s[p.1..]));
    }
  }

  /** Every link the scanner forms is made of references. */
  lemma {:induction false} TokenizeWellFormed(s: string)
    ensures WellFormed(Tokenize(s))
    decreases |s|
  {
    if |s| > 0 {
      var p := Next(s);
      TokenizeWellFormed(s[p.1..]);
      NextOk(s);
      WellFormedCons(p.0, Tokenize(s[p.1..]));
    }
  }

  // ---------------------------------------------------------------------------------
  // The match at each offset, stated without the scanner

  /**
   * `p` is the match `preg_replace_callback` makes at the start of `t`: it spells a prefix
   * of `t`, and it is a kept character exactly when no reference starts there.
   */
  predicate MatchAt(p: Piece, t: string) {
    MatchBy(p, t, RefLen)
  }

  /** `p` is the leftmost-longest match at the start of `t` for the tokens `ref` measures. */
  predicate MatchBy(p: Piece, t: string, ref: Measure) {
    |t| > 0 && |Source(p)| <= |t| && Source(p) == t[..|Source(p)|]
    && (p.Plain? <==> ref(t).None?) && (p.Link? ==> LongestLink(p, t, ref))
  }

  /**
   * A link takes its first token whole; its second part is present exactly when a token
   * follows, after a `:` when there is one, and is then taken whole too.
   */
  predicate LongestLink(p: Piece, t: string, ref: Measure)
    requires p.Link?
  {
    var n := |p.first|;
    ref(t) == Some(n)
    && (p.second.Some? ==>
          var c := if p.colon then 1 else 0;
          n + c <= |t| && ref(t[n + c..]) == Some(|p.second.value|))
    && (p.second.None? ==>
          !p.colon && n <= |t| && ref(t[n..]).None? && !(n < |t| && t[n] == ':' && ref(t[n + 1..]).Some?))
  }

  /**
   * `MatchAt` read against the pattern itself: the piece is plain exactly when no prefix of
   * `t` is a reference, and a link's first part is the longest reference prefix of `t`.
   */
  lemma MatchAtPattern(p: Piece, t: string)
    requires MatchAt(p, t)
    ensures p.Plain? <==> forall m :: 0 < m <= |t| ==> !IsRef(t[..m])
    ensures p.Link? ==> IsRef(p.first) && forall m :: 0 < m <= |t| && IsRef(t[..m]) ==> m <= |p.first|
  {
    RefLenComplete(t);
    if p.Link? {
      var n := |p.first|;
      assert RefLen(t) == Some(n);
      assert Source(p)[..n] == p.first;
      assert t[..n] == p.first;
      RefLenIsRef(t);
      forall m | 0 < m <= |t| && IsRef(t[..m]) ensures m <= n {
        RefLenLongest(t, m);
      }
    }
  }

  /** Every piece of the cut satisfies `m` at its own offset. */
  ghost predicate EachAt(ps: seq<Piece>, m: (Piece, string) -> bool) {
    forall i :: 0 <= i < |ps| ==> m(ps[i], Flatten(ps[i..]))
  }

  /** Every piece of the cut is the match at its own offset. */
  ghost predicate Leftmost(ps: seq<Piece>) {
    EachAt(ps, MatchAt)
  }

  /** The scanner's match at the start of `t` is the leftmost-longest one. */
  lemma NextMatch(t: string)
    requires |t| > 0
    ensures MatchAt(Next(t).0, t)
  {
    RefLenColonFree();
    NextByMatch(t, RefLen);
  }

  lemma NextByMatch(t: string, ref: Measure)
    requires |t| > 0 && ColonFree(ref)
    ensures MatchBy(NextBy(t, ref).0, t, ref)
  {
    NextBySource(t, ref);
    if ref(t).None? {
      assert NextBy(t, ref) == (Plain(t[0]), 1);
    } else {
      var n := ref(t).value;
      assert NextBy(t, ref) == LinkAfter(t, n, ref);
      LinkAfterMatch(t, n, ref);
    }
  }

  lemma LinkAfterMatch(t: string, n: nat, ref: Measure)
    requires ref(t) == Some(n) && ColonFree(ref)
    ensures LongestLink(LinkAfter(t, n, ref).0, t, ref)
  {
    if n < |t| && t[n] == ':' {
      assert LinkAfter(t, n, ref) == LinkOf(t, n, 1, ref(t[n + 1..]));
      if ref(t[n + 1..]).Some? {
        RangeLongest(t, n, 1, ref(t[n + 1..]).value, ref);
      } else {
        assert t[n..][0] == ':';
        SingleLongest(t, n, ref);
      }
    } else {
      assert LinkAfter(t, n, ref) == LinkOf(t, n, 0, ref(t[n..]));
      if ref(t[n..]).Some? {
        RangeLongest(t, n, 0, ref(t[n..]).value, ref);
      } else {
        SingleLongest(t, n, ref);
      }
    }
  }

  lemma RangeLongest(t: string, n: nat, c: nat, k: nat, ref: Measure)
    requires ref(t) == Some(n) && c <= 1 && (c == 1 <==> n < |t| && t[n] == ':')
    requires n + c + k <= |t| && ref(t[n + c..]) == Some(k)
    ensures LinkOf(t, n, c, Some(k)).0 == Link(t[..n], c == 1, Some(t[n + c..n + c + k]))
    ensures LongestLink(Link(t[..n], c == 1, Some(t[n + c..n + c + k])), t, ref)
  {
  }

  lemma SingleLongest(t: string, n: nat, ref: Measure)
    requires ref(t) == Some(n) && n <= |t| && ref(t[n..]).None?
    requires !(n < |t| && t[n] == ':' && ref(t[n + 1..]).Some?)
    ensures LongestLink(Link(t[..n], false, None), t, ref)
  {
  }

  /** A piece that is the match at the start of `t` is the scanner's match, of the same length. */
  lemma MatchUnique(p: Piece, t: string)
    requires MatchAt(p, t)
    ensures Next(t) == (p, |Source(p)|)
  {
    RefLenColonFree();
    MatchByUnique(p, t, RefLen);
  }

  lemma MatchByUnique(p: Piece, t: string, ref: Measure)
    requires MatchBy(p, t, ref) && ColonFree(ref)
    ensures NextBy(t, ref) == (p, |Source(p)|)
  {
    match p
    case Plain(c) =>
      PlainUnique(c, t, ref);
    case Link(a, colon, b) =>
      LinkUnique(p, t, ref);
  }

  lemma PlainUnique(c: char, t: string, ref: Measure)
    requires MatchBy(Plain(c), t, ref)
    ensures NextBy(t, ref) == (Plain(c), 1)
  {
    assert [c] == t[..1];
    assert NextBy(t, ref) == (Plain(t[0]), 1);
  }

  lemma LinkUnique(p: Piece, t: string, ref: Measure)
    requires p.Link? && MatchBy(p, t, ref) && ColonFree(ref)
    ensures NextBy(t, ref) == (p, |Source(p)|)
  {
    var Link(a, colon, b) := p;
    assert LongestLink(p, t, ref);
    assert NextBy(t, ref) == LinkAfter(t, |a|, ref);
    if b.Some? && colon {
      ColonRangeUnique(t, a, b.value, ref);
    } else if b.Some? {
      assert Source(p) == a + "" + b.value;
      RangeUnique(t, a, b.value, ref);
    } else {
      SingleUnique(t, a, ref);
    }
  }

  lemma ColonRangeUnique(t: string, a: string, b: string, ref: Measure)
    requires ref(t) == Some(|a|) && |a| + 1 <= |t| && ref(t[|a| + 1..]) == Some(|b|)
    requires |a| + 1 + |b| <= |t| && a + ":" + b == t[..|a| + 1 + |b|]
    ensures LinkAfter(t, |a|, ref) == (Link(a, true, Some(b)), |a| + 1 + |b|)
  {
    var n := |a|;
    PrefixParts(t, a, ":", b);
    assert t[n] == t[n..n + 1][0] == ':';
    assert LinkAfter(t, n, ref) == LinkOf(t, n, 1, ref(t[n + 1..]));
  }

  lemma RangeUnique(t: string, a: string, b: string, ref: Measure)
    requires ref(t) == Some(|a|) && ref(t[|a|..]) == Some(|b|) && ColonFree(ref)
    requires |a| + |b| <= |t| && a + "" + b == t[..|a| + |b|]
    ensures LinkAfter(t, |a|, ref) == (Link(a, false, Some(b)), |a| + |b|)
  {
    var n := |a|;
    PrefixParts(t, a, "", b);
    assert t[n..][0] == t[n];
    assert LinkAfter(t, n, ref) == LinkOf(t, n, 0, ref(t[n..]));
  }

  lemma SingleUnique(t: string, a: string, ref: Measure)
    requires ref(t) == Some(|a|) && |a| <= |t| && a == t[..|a|] && ref(t[|a|..]).None?
    requires !(|a| < |t| && t[|a|] == ':' && ref(t[|a| + 1..]).Some?)
    ensures LinkAfter(t, |a|, ref) == (Link(a, false, None), |a|)
  {
    var n := |a|;
    if n < |t| && t[n] == ':' {
      assert LinkAfter(t, n, ref) == LinkOf(t, n, 1, ref(t[n + 1..]));
    } else {
      assert LinkAfter(t, n, ref) == LinkOf(t, n, 0, ref(t[n..]));
    }
  }

  /** The parts of a prefix of `t` are the corresponding slices of `t`. */
  lemma PrefixParts(t: string, a: string, x: string, b: string)
    requires |a| + |x| + |b| <= |t| && a + x + b == t[..|a| + |x| + |b|]
    ensures a == t[..|a|] && x == t[|a|..|a| + |x|] && b == t[|a| + |x|..|a| + |x| + |b|]
  {
    var w := a + x + b;
    assert a == w[..|a|] && x == w[|a|..|a| + |x|] && b == w[|a| + |x|..];
  }

  lemma {:induction false} EachAtCons(p: Piece, ps: seq<Piece>, m: (Piece, string) -> bool)
    requires m(p, Flatten([p] + ps)) && EachAt(ps, m)
    ensures EachAt([p] + ps, m)
  {
    var qs := [p] + ps;
    forall i | 0 <= i < |qs| ensures m(qs[i], Flatten(qs[i..])) {
      if i == 0 {
        assert qs[0..] == qs;
      } else {
        assert qs[i] == ps[i - 1] && qs[i..] == ps[i - 1..];
      }
    }
  }

  /** Every piece the scanner forms is the leftmost-longest match at its offset. */
  lemma {:induction false} TokenizeLeftmost(s: string)
    ensures Leftmost(Tokenize(s))
    decreases |s|
  {
    if |s| > 0 {
      var p := Next(s);
      var rest := Tokenize(s[p.1..]);
      TokenizeLeftmost(s[p.1..]);
      TokenizeFlatten(s);
      NextMatch(s);
      assert Tokenize(s) == [p.0] + rest;
      EachAtCons(p.0, rest, MatchAt);
    }
  }

  lemma EachAtTail(ps: seq<Piece>, m: (Piece, string) -> bool)
    requires |ps| > 0 && EachAt(ps, m)
    ensures EachAt(ps[1..], m)
  {
    forall i | 0 <= i < |ps| - 1 ensures m(ps[1..][i], Flatten(ps[1..][i..])) {
      assert ps[1..][i] == ps[i + 1] && ps[1..][i..] == ps[i + 1..];
    }
  }

  /** A cut in which each piece is the scanner's match at its offset is the scanner's cut. */
  lemma {:induction false} EachAtUnique(ps: seq<Piece>, s: string, m: (Piece, string) -> bool)
    requires Flatten(ps) == s && EachAt(ps, m)
    requires forall p, t :: m(p, t) ==> |t| > 0 && Next(t) == (p, |Source(p)|)
    ensures ps == Tokenize(s)
    decreases |ps|
  {
    if |ps| > 0 {
      assert ps[0..] == ps;
      assert m(ps[0], s);
      var k := |Source(ps[0])|;
      assert Next(s) == (ps[0], k);
      assert s == Source(ps[0]) + Flatten(ps[1..]);
      assert Flatten(ps[1..]) == s[k..];
      EachAtTail(ps, m);
      EachAtUnique(ps[1..], s[k..], m);
      assert Tokenize(s) == [ps[0]] + Tokenize(s[k..]);
      assert ps == [ps[0]] + ps[1..];
    }
  }

  /** A cut of `s` into leftmost-longest matches is the scanner's cut: there is only one. */
  lemma LeftmostUnique(ps: seq<Piece>, s: string)
    requires Flatten(ps) == s && Leftmost(ps)
    ensures ps == Tokenize(s)
  {
    forall p, t | MatchAt(p, t) ensures |t| > 0 && Next(t) == (p, |Source(p)|) {
      MatchUnique(p, t);
    }
    EachAtUnique(ps, s, MatchAt);
  }

  /** Any cut of the formula into leftmost-longest matches renders to the reformatted formula. */
  lemma ReformatUnique(f: string, ps: seq<Piece>)
    requires Flatten(ps) == f && Leftmost(ps)
    ensures RenderPieces(ps) == ReformatFormula(f)
  {
    LeftmostUnique(ps, f);
  }

  /** No reference starts anywhere in `s`. */
  predicate NoRefs(s: string) {
    forall i :: 0 <= i < |s| ==> RefLen(s[i..]).None?
  }

  /** A formula without references is returned unchanged. */
  lemma {:induction false} NoRefsUnchanged(s: string)
    requires NoRefs(s)
    ensures ReformatFormula(s) == s
    decreases |s|
  {
    if |s| > 0 {
      assert RefLen(s[0..]).None? && s[0..] == s;
      assert NoRefs(s[1..]) by {
        forall i | 0 <= i < |s| - 1 ensures RefLen(s[1..][i..]).None? {
          assert s[1..][i..] == s[i + 1..];
        }
      }
      NoRefsUnchanged(s[1..]);
      RenderCons(Plain(s[0]), Tokenize(s[1..]));
      assert Next(s) == (Plain(s[0]), 1);
      assert [s[0]] + s[1..] == s;
    }
  }

  /** A column letter and one digit, not followed by another digit, make a reference. */
  lemma ShortRef(t: string)
    requires |t| >= 2 && IsUpper(t[0]) && IsDigit(t[1]) && (|t| > 2 ==> !IsDigit(t[2]))
    ensures RefLen(t) == Some(2)
  {
    assert Dollar(t, 0) == 0;
    assert UpperRun(t, 1) == 0;
    assert Dollar(t, 1) == 0;
    assert DigitRun(t, 2) == 0;
  }

  /** The scan of `A1:D1`: a single range link. */
  lemma RangeTokens()
    ensures Tokenize("A1:D1") == [Link("A1", true, Some("D1"))]
  {
    var t := "A1:D1";
    ShortRef(t);
    assert t[2] == ':';
    var rest := t[3..];
    assert rest == "D1";
    ShortRef(rest);
    assert t[3..5] == "D1";
    assert t[..2] == "A1";
    SourceOfLink(t, 2, 1, 2);
    assert Next(t) == (Link("A1", true, Some("D1")), 5);
    assert t[5..] == "";
  }

  lemma RewriteRange()
    ensures Rewrite(Link("A1", true, Some("D1"))) == "[.A1:.D1]"
  {
  }

  /** A range reference is written `[.A1:.D1]`, as in the `SUM` formulas of the ODS tests. */
  lemma RangeExample()
    ensures ReformatFormula("A1:D1") == "[.A1:.D1]"
  {
    var p := Link("A1", true, Some("D1"));
    RangeTokens();
    assert [p][1..] == [];
    assert RenderPieces([p]) == Rewrite(p);
    RewriteRange();
  }

  /** The scan of `$E$1`: a single link. */
  lemma AbsoluteTokens()
    ensures Tokenize("$E$1") == [Link("$E$1", false, None)]
  {
    var s := "$E$1";
    assert Dollar(s, 0) == 1 && UpperRun(s, 2) == 0 && UpperRun(s, 1) == 1 && Dollar(s, 2) == 1 && DigitRun(s, 3) == 1;
    assert RefLen(s) == Some(4);
    assert s[4..] == "" && UpperRun("", 0) == 0 && RefLen("").None?;
    assert s[..4] == s;
    assert LinkAfter(s, 4, RefLen) == LinkOf(s, 4, 0, RefLen(s[4..]));
    assert Next(s) == (Link("$E$1", false, None), 4);
  }

  /** Absolute markers are kept: `$E$1` becomes `[.$E$1]`. */
  lemma AbsoluteExample()
    ensures ReformatFormula("$E$1") == "[.$E$1]"
  {
    var p := Link("$E$1", false, None);
    AbsoluteTokens();
    assert [p][1..] == [];
    assert RenderPieces([p]) == Rewrite(p);
    RewriteAbsolute();
  }

  lemma RewriteAbsolute()
    ensures Rewrite(Link("$E$1", false, None)) == "[.$E$1]"
  {
  }
}

=== FILE: html.dfy ===
/**
 * The HTML backend (`ExporterHtml`). The `<style>` block holds one rule for the default
 * style and one per registered style. Each sheet becomes a `<table>` with a caption,
 * `<col>` widths, a header row and one `<tr>` per row. Unlike the spreadsheet backends,
 * every non-null cell of a row is written in order, and spans become `rowspan`/`colspan`
 * with no covered cells. Converted lengths are printed through the `show` parameter.
 */
module Html {
  import opened Wrappers
  import opened Text
  import opened Numeric
  import opened Xml
  import opened Sheets
  import opened Styles
  import opened Units
  import opened Workbook
  import opened Walker

  // ---------------------------------------------------------------------------------
  // Cells

  /** A `<td>`: its class, its spans and its escaped text. */
  datatype HCell = HCell(cls: Option<string>, rowspan: Option<pos>, colspan: Option<pos>, text: string)

  function CellHtml(x: HCell): string {
    "<td"
    + (if x.cls.Some? && Truthy(x.cls.value) then " class=\"" + x.cls.value + "\"" else "")
    + (if x.rowspan.Some? then " rowspan=\"" + NatToString(x.rowspan.value) + "\"" else "")
    + (if x.colspan.Some? then " colspan=\"" + NatToString(x.colspan.value) + "\"" else "")
    + ">" + x.text + "</td>"
  }

  /** The class `getCell` writes: a number gets `number` after its own class, if any. */
  function NumberClass(cls: Option<string>, numeric: bool): Option<string> {
    if numeric then Some((if cls.None? then "" else cls.value + " ") + "number") else cls
  }

  /**
   * `getCell` for a non-null cell: its own STYLE or the row's class, with `number` added
   * for a numeric value; `rowspan` and `colspan` above one; the value escaped.
   */
  function CellOf(c: Cell, rowClass: Option<string>): (x: HCell)
    requires c != Empty
    ensures !c.Shown().IsNumber() ==> x.cls == CellClass(c, rowClass)
    ensures c.Shown().IsNumber() ==> x.cls.Some? && Truthy(x.cls.value) && EndsWith(x.cls.value, "number")
    ensures c.Shown().IsNumber() && CellClass(c, rowClass).Some? ==>
      x.cls.value == CellClass(c, rowClass).value + " number"
    ensures c.Shown().IsNumber() && CellClass(c, rowClass).None? ==> x.cls == Some("number")
    ensures x.rowspan.Some? <==> c.RowSpan() > 1
    ensures x.rowspan.Some? ==> x.rowspan.value == c.RowSpan()
    ensures x.colspan.Some? <==> c.ColSpan() > 1
    ensures x.colspan.Some? ==> x.colspan.value == c.ColSpan()
    ensures Unescape(x.text) == c.Shown().Text()
  {
    var v := c.Shown();
    XmlEntitiesRoundTrip(v.Text());
    var cls := NumberClass(CellClass(c, rowClass), v.IsNumber());
    assert v.IsNumber() ==> EndsWith(cls.value, "number") by {
      if v.IsNumber() {
        var pre := if CellClass(c, rowClass).None? then "" else CellClass(c, rowClass).value + " ";
        assert cls.value == pre + "number";
        assert cls.value[|cls.value| - 6..] == "number";
      }
    }
    HCell(cls,
      if c.RowSpan() > 1 then Some(c.RowSpan()) else None,
      if c.ColSpan() > 1 then Some(c.ColSpan()) else None,
      XmlEntities(v.Text()))
  }

  /** A null cell writes nothing. */
  function EntryHtml(c: Cell, rowClass: Option<string>): string {
    if c == Empty then "" else CellHtml(CellOf(c, rowClass))
  }

  /** `printSheet`'s inner loop: every entry of the row, in order. */
  function RowBody(row: seq<Cell>, rowClass: Option<string>): string {
    if |row| == 0 then "" else EntryHtml(row[0], rowClass) + RowBody(row[1..], rowClass)
  }

  /** The cells at the given indices, written in order. */
  function CellsAt(row: seq<Cell>, idx: seq<nat>, rowClass: Option<string>): string
    requires forall x :: x in idx ==> x < |row| && row[x] != Empty
  {
    if |idx| == 0 then ""
    else
      assert idx[0] in idx;
      assert forall x :: x in idx[1..] ==> x in idx;
      CellHtml(CellOf(row[idx[0]], rowClass)) + CellsAt(row, idx[1..], rowClass)
  }

  lemma CellsAtCons(row: seq<Cell>, a: nat, rest: seq<nat>, rowClass: Option<string>)
    requires a < |row| && row[a] != Empty
    requires forall x :: x in rest ==> x < |row| && row[x] != Empty
    ensures CellsAt(row, [a] + rest, rowClass) == CellHtml(CellOf(row[a], rowClass)) + CellsAt(row, rest, rowClass)
  {
    assert ([a] + rest)[1..] == rest;
  }

  /** A null cell adds nothing to the row. */
  lemma RowBodySkip(row: seq<Cell>, a: nat, rowClass: Option<string>)
    requires a < |row| && row[a] == Empty
    ensures RowBody(row[a..], rowClass) == RowBody(row[a + 1..], rowClass)
  {
    var t := row[a..];
    assert t[0] == row[a] && t[1..] == row[a + 1..];
    assert EntryHtml(row[a], rowClass) == "";
  }

  /** From position `a` on, a row writes exactly its present cells, in order. */
  lemma {:induction false} RowBodyFrom(row: seq<Cell>, a: nat, rowClass: Option<string>)
    requires a <= |row|
    ensures RowBody(row[a..], rowClass) == CellsAt(row, PresentBetween(row, a, |row|), rowClass)
    decreases |row| - a
  {
    if a < |row| {
      PresentStep(row, a, |row|);
      RowBodyFrom(row, a + 1, rowClass);
      var t := row[a..];
      assert t[0] == row[a] && t[1..] == row[a + 1..];
      assert RowBody(t, rowClass) == EntryHtml(row[a], rowClass) + RowBody(row[a + 1..], rowClass);
      var rest := PresentBetween(row, a + 1, |row|);
      assert RowBody(row[a + 1..], rowClass) == CellsAt(row, rest, rowClass);
      if row[a] != Empty {
        assert PresentBetween(row, a, |row|) == [a] + rest;
        CellsAtCons(row, a, rest, rowClass);
      } else {
        RowBodySkip(row, a, rowClass);
        assert PresentBetween(row, a, |row|) == rest;
        assert RowBody(row[a..], rowClass) == CellsAt(row, rest, rowClass);
      }
    }
  }

  /**
   * A row writes one `<td>` per present cell, in order, and nothing for a null cell:
   * unlike the spreadsheet backends, no cell is held back by a span.
   */
  lemma RowBodyPresent(row: seq<Cell>, rowClass: Option<string>)
    ensures RowBody(row, rowClass) == CellsAt(row, Present(row), rowClass)
  {
    RowBodyFrom(row, 0, rowClass);
    assert row[0..] == row;
  }

  // ---------------------------------------------------------------------------------
  // Rows

  /** One row of the table: its class's cells between `<tr>` and `</tr>`. */
  function RowLine(s: Sheet, i: nat): string
    requires i < |s.rows|
  {
    "\t\t\t<tr>" + RowBody(s.rows[i], GetStyle(s, i)) + "</tr>\n"
  }

  /** The lines of the rows from `num` on, in order. */
  function RowLines(s: Sheet, num: nat): seq<string>
    requires num <= |s.rows|
  {
    seq(|s.rows| - num, k requires 0 <= k < |s.rows| - num => RowLine(s, num + k))
  }

  lemma RowLinesStep(s: Sheet, num: nat)
    requires num < |s.rows|
    ensures Concat(RowLines(s, num)) == RowLine(s, num) + Concat(RowLines(s, num + 1))
  {
    assert RowLines(s, num)[1..] == RowLines(s, num + 1);
  }

  /** Row `i` is the first row from `num` on whose class is set but not registered. */
  predicate FirstUnknownRow(s: Sheet, reg: Registry, num: nat, i: nat) {
    && num <= i < |s.rows|
    && !RowClassOk(s, reg, i)
    && (forall j :: num <= j < i ==> RowClassOk(s, reg, j))
    && GetStyle(s, i).Some?
  }

  lemma FirstUnknownBack(s: Sheet, reg: Registry, num: nat)
    requires num < |s.rows| && RowClassOk(s, reg, num)
    ensures forall i :: FirstUnknownRow(s, reg, num + 1, i) ==> FirstUnknownRow(s, reg, num, i)
  {
  }

  /**
   * `printSheet` from row `num` on: each row's class must be falsy or registered (a
   * cell's own STYLE is not checked). The first row whose class is unknown stops the
   * sheet with its message; otherwise every row is written as a `<tr>`, in order.
   */
  function Rows(s: Sheet, reg: Registry, num: nat): (r: Result<string>)
    requires num <= |s.rows|
    ensures r.Err? <==> !RowClassesKnown(s, reg, num)
    ensures r.Err? ==>
      exists i: nat :: FirstUnknownRow(s, reg, num, i) && r.error == "Missing style: " + HtmlSpecialChars(GetStyle(s, i).value)
    ensures r.Ok? ==> r.value == Concat(RowLines(s, num))
    decreases |s.rows| - num
  {
    if num == |s.rows| then Ok("")
    else
      var cls := GetStyle(s, num);
      RowClassesKnownStep(s, reg, num);
      if !RowClassOk(s, reg, num) then
        assert FirstUnknownRow(s, reg, num, num);
        Err("Missing style: " + HtmlSpecialChars(cls.value))
      else
        FirstUnknownBack(s, reg, num);
        RowLinesStep(s, num);
        var rest :- Rows(s, reg, num + 1);
        Ok(RowLine(s, num) + rest)
  }

  /** `printHeader`: nothing without headers, else a `<thead>` with one `<th>` per header. */
  function HeaderHtml(headers: seq<string>): (r: string)
    ensures r == "" <==> |headers| == 0
  {
    if |headers| == 0 then ""
    else "\t\t<thead>\n\t\t\t<tr>\n\t\t\t\t" + HeaderCells(headers) + "\t\t\t</tr>\n\t\t</thead>\n"
  }

  function HeaderCells(headers: seq<string>): string {
    if |headers| == 0 then "" else "<th>" + XmlEntities(headers[0]) + "</th>" + HeaderCells(headers[1..])
  }

  // ---------------------------------------------------------------------------------
  // Column widths

  /** A length converted to points and written with the unit. */
  function PointText(v: string, show: real -> string): (r: Result<string>)
    ensures r.Err? <==> ConvertSize(v, "pt", None).Err?
  {
    var x :- ConvertSize(v, "pt", None);
    Ok(show(x) + "pt")
  }

  function OptPointText(v: Option<string>, show: real -> string): (r: Result<Option<string>>)
    ensures r.Err? <==> v.Some? && ConvertSize(v.value, "pt", None).Err?
    ensures r.Ok? ==> (r.value.Some? <==> v.Some?)
  {
    if v.Some? then
      var t :- PointText(v.value, show);
      Ok(Some(t))
    else Ok(None)
  }

  /** The widths of the sheet's own columns from index `i` on, as written. */
  function OwnWidths(cols: seq<string>, i: nat, show: real -> string): (r: Result<seq<string>>)
    requires i <= |cols|
    ensures r.Err? <==> exists k :: i <= k < |cols| && ConvertSize(cols[k], "pt", None).Err?
    ensures r.Ok? ==> |r.value| == |cols| - i
    ensures r.Ok? ==> forall k :: 0 <= k < |r.value| ==> PointText(cols[i + k], show) == Ok(r.value[k])
    decreases |cols| - i
  {
    if i == |cols| then Ok([])
    else
      var w :- PointText(cols[i], show);
      var rest :- OwnWidths(cols, i + 1, show);
      Ok([w] + rest)
  }

  /**
   * `printColWidths`: a `<col>` per own width, then the default width once per remaining
   * column when a default is set. The default applies even when no own width is set.
   */
  function ColWidths(s: Sheet, show: real -> string): (r: Result<seq<string>>)
    ensures r.Ok? ==> |r.value| == if TruthyOpt(s.colDefault) && |s.cols| < s.colCount then s.colCount else |s.cols|
    ensures r.Err? <==>
      (exists k :: 0 <= k < |s.cols| && ConvertSize(s.cols[k], "pt", None).Err?)
      || (TruthyOpt(s.colDefault) && |s.cols| < s.colCount && ConvertSize(s.colDefault.value, "pt", None).Err?)
    ensures r.Ok? ==> forall k :: 0 <= k < |s.cols| ==> PointText(s.cols[k], show) == Ok(r.value[k])
    ensures r.Ok? ==> forall k :: |s.cols| <= k < |r.value| ==>
      s.colDefault.Some? && PointText(s.colDefault.value, show) == Ok(r.value[k])
  {
    var own :- OwnWidths(s.cols, 0, show);
    if TruthyOpt(s.colDefault) && |s.cols| < s.colCount then
      var w :- PointText(s.colDefault.value, show);
      Ok(own + seq(s.colCount - |s.cols|, _ => w))
    else Ok(own)
  }

  function ColsHtml(widths: seq<string>): string {
    if |widths| == 0 then "" else "\t\t<col style=\"width: " + widths[0] + "\" />\n" + ColsHtml(widths[1..])
  }

  // ---------------------------------------------------------------------------------
  // Styles

  /** The CSS properties `getStyle` writes. */
  datatype Prop =
    | Color | FontSize | FontFamily | FontWeight | TextAlign | BackgroundColor
    | BorderColor(side: Option<SideKey>) | BorderStyle(side: Option<SideKey>) | BorderWidth(side: Option<SideKey>)
    | Height

  /** The prefix of a border property: `border` for all sides, `border-<side>` for one. */
  function BorderPrefix(side: Option<SideKey>): string {
    if side.Some? then "border-" + SideName(side.value) else "border"
  }

  function PropName(p: Prop): string {
    match p
    case Color => "color"
    case FontSize => "font-size"
    case FontFamily => "font-family"
    case FontWeight => "font-weight"
    case TextAlign => "text-align"
    case BackgroundColor => "background-color"
    case BorderColor(s) => BorderPrefix(s) + "-color"
    case BorderStyle(s) => BorderPrefix(s) + "-style"
    case BorderWidth(s) => BorderPrefix(s) + "-width"
    case Height => "height"
  }

  type Decl = (Prop, string)

  function DeclText(d: Decl): string {
    PropName(d.0) + ": " + d.1
  }

  /** The family as `getStyleFont` writes it: in double quotes. */
  function QuotedFamily(f: Font): Option<string> {
    if f.family.Some? then Some("\"" + f.family.value + "\"") else None
  }

  /** The properties of a font, in the order `getStyleFont` writes them. */
  const FontKeys: seq<Prop> := [Color, FontSize, FontFamily, FontWeight, TextAlign]

  /** `getStyleFont`: colour, size in points, quoted family, weight and alignment. */
  function FontDecls(f: Font, show: real -> string): (r: Result<seq<Decl>>)
    ensures r.Err? <==> f.size.Some? && ConvertSize(f.size.value, "pt", None).Err?
  {
    if f.IsEmpty() then Ok([])
    else
      var size :- OptPointText(f.size, show);
      Ok(Joined(FontParts(f, size)))
  }

  /** One part per font property, holding its declaration when it is set. */
  function FontParts(f: Font, size: Option<string>): seq<seq<Decl>> {
    [Entry(Color, f.color), Entry(FontSize, size), Entry(FontFamily, QuotedFamily(f)),
     Entry(FontWeight, f.weight), Entry(TextAlign, f.align)]
  }

  /** `getStyleBorder`: the colour, style and width of one border description. */
  function SideDecls(side: Option<SideKey>, s: Side, show: real -> string): (r: Result<seq<Decl>>)
    ensures r.Err? <==> s.width.Some? && ConvertSize(s.width.value, "pt", None).Err?
  {
    var w :- OptPointText(s.width, show);
    Ok(Entry(BorderColor(side), s.color) + Entry(BorderStyle(side), s.style) + Entry(BorderWidth(side), w))
  }

  /** The described sides among `ks`, in that order. */
  function SidesDecls(c: CellStyle, ks: seq<SideKey>, show: real -> string): Result<seq<Decl>> {
    if |ks| == 0 then Ok([])
    else
      var here :- if ks[0] in c.sides && !c.sides[ks[0]].IsEmpty() then SideDecls(Some(ks[0]), c.sides[ks[0]], show) else Ok([]);
      var rest :- SidesDecls(c, ks[1..], show);
      Ok(here + rest)
  }

  /** `getStyleCell`: the background, then the flat border or each described side. */
  function CellDecls(c: CellStyle, show: real -> string): Result<seq<Decl>> {
    if c.IsEmpty() then Ok([])
    else
      var borders :- if c.HasFlat() then SideDecls(None, c.flat, show) else SidesDecls(c, SideOrder, show);
      Ok(Entry(BackgroundColor, c.background) + borders)
  }

  /** `getStyle`: the font, the cell, and a height whenever one is set, zero included. */
  function StyleDecls(st: Style, show: real -> string): Result<seq<Decl>> {
    var font :- FontDecls(st.font, show);
    var cell :- CellDecls(st.cell, show);
    var height :- OptPointText(if st.height.Some? then Some(IntToString(st.height.value)) else None, show);
    Ok(font + cell + Entry(Height, height))
  }

  /** Lookup in three concatenated lists. */
  lemma FirstValue3<K, V>(a: seq<(K, V)>, b: seq<(K, V)>, c: seq<(K, V)>, k: K)
    ensures FirstValue(a + b + c, k) ==
      if FirstValue(a, k).Some? then FirstValue(a, k) else if FirstValue(b, k).Some? then FirstValue(b, k) else FirstValue(c, k)
  {
    FirstValueAppend(a + b, c, k);
    FirstValueAppend(a, b, k);
  }

  /** The declarations of several parts, in order. */
  function Joined(parts: seq<seq<Decl>>): seq<Decl> {
    if |parts| == 0 then [] else parts[0] + Joined(parts[1..])
  }

  /** Each part declares at most one property, its own key, and no two keys are the same. */
  predicate Keyed(parts: seq<seq<Decl>>, keys: seq<Prop>) {
    && |parts| == |keys|
    && (forall i :: 0 <= i < |parts| ==> parts[i] == [] || (|parts[i]| == 1 && parts[i][0].0 == keys[i]))
    && (forall i, j :: 0 <= i < j < |keys| ==> keys[i] != keys[j])
  }

  lemma KeyedTail(parts: seq<seq<Decl>>, keys: seq<Prop>)
    requires Keyed(parts, keys) && |parts| > 0
    ensures Keyed(parts[1..], keys[1..])
  {
    forall i, j | 0 <= i < j < |keys| - 1 ensures keys[1..][i] != keys[1..][j] {
      assert keys[1..][i] == keys[i + 1] && keys[1..][j] == keys[j + 1];
    }
  }

  /** A property none of the parts is keyed by is not declared. */
  lemma {:induction false} KeyedAbsent(parts: seq<seq<Decl>>, keys: seq<Prop>, p: Prop)
    requires Keyed(parts, keys) && p !in keys
    ensures FirstValue(Joined(parts), p).None?
    decreases |parts|
  {
    if |parts| > 0 {
      KeyedTail(parts, keys);
      assert p != keys[0] && p !in keys[1..];
      KeyedAbsent(parts[1..], keys[1..], p);
      FirstValueAppend(parts[0], Joined(parts[1..]), p);
    }
  }

  /** A property keyed by part `j` has exactly the value that part declares. */
  lemma {:induction false} KeyedAt(parts: seq<seq<Decl>>, keys: seq<Prop>, j: nat)
    requires Keyed(parts, keys) && j < |keys|
    ensures FirstValue(Joined(parts), keys[j]) == FirstValue(parts[j], keys[j])
    decreases j
  {
    KeyedTail(parts, keys);
    FirstValueAppend(parts[0], Joined(parts[1..]), keys[j]);
    if j == 0 {
      assert forall i :: 0 <= i < |keys[1..]| ==> keys[1..][i] == keys[i + 1];
      KeyedAbsent(parts[1..], keys[1..], keys[0]);
    } else {
      assert keys[0] != keys[j];
      KeyedAt(parts[1..], keys[1..], j - 1);
    }
  }

  /** The font's keys come out under their properties: the size in points, the family quoted. */
  lemma FontValues(f: Font, show: real -> string)
    requires FontDecls(f, show).Ok?
    ensures FirstValue(FontDecls(f, show).value, Color) == f.color
    ensures FirstValue(FontDecls(f, show).value, FontSize) == OptPointText(f.size, show).value
    ensures FirstValue(FontDecls(f, show).value, FontSize).Some? <==> f.size.Some?
    ensures FirstValue(FontDecls(f, show).value, FontFamily) ==
      if f.family.Some? then Some("\"" + f.family.value + "\"") else None
    ensures FirstValue(FontDecls(f, show).value, FontWeight) == f.weight
    ensures FirstValue(FontDecls(f, show).value, TextAlign) == f.align
    ensures FirstValue(FontDecls(f, show).value, Height).None?
  {
    if !f.IsEmpty() {
      var size := OptPointText(f.size, show).value;
      var parts := FontParts(f, size);
      FontPartsKeyed(f, size);
      KeyedAt(parts, FontKeys, 0);
      KeyedAt(parts, FontKeys, 1);
      KeyedAt(parts, FontKeys, 2);
      KeyedAt(parts, FontKeys, 3);
      KeyedAt(parts, FontKeys, 4);
      KeyedAbsent(parts, FontKeys, Height);
      EntryValue(Color, f.color, Color);
      EntryValue(FontSize, size, FontSize);
      EntryValue(FontFamily, QuotedFamily(f), FontFamily);
      EntryValue(FontWeight, f.weight, FontWeight);
      EntryValue(TextAlign, f.align, TextAlign);
    }
  }

  lemma FontPartsKeyed(f: Font, size: Option<string>)
    ensures Keyed(FontParts(f, size), FontKeys)
  {
  }

  /**
   * A flat border is written with the `border-*` properties; otherwise each described
   * side with its own `border-<side>-*` properties, its colour and style as given, and
   * no side that is not described.
   */
  lemma {:induction false} SidesValues(c: CellStyle, ks: seq<SideKey>, show: real -> string, k: SideKey)
    requires SidesDecls(c, ks, show).Ok?
    requires forall i, j :: 0 <= i < j < |ks| ==> ks[i] != ks[j]
    ensures FirstValue(SidesDecls(c, ks, show).value, BorderColor(Some(k))) ==
      if k in ks && k in c.sides && !c.sides[k].IsEmpty() then c.sides[k].color else None
    ensures FirstValue(SidesDecls(c, ks, show).value, BorderStyle(Some(k))) ==
      if k in ks && k in c.sides && !c.sides[k].IsEmpty() then c.sides[k].style else None
    ensures FirstValue(SidesDecls(c, ks, show).value, BorderWidth(Some(k))).Some? <==>
      k in ks && k in c.sides && !c.sides[k].IsEmpty() && c.sides[k].width.Some?
    ensures k in ks && k in c.sides && !c.sides[k].IsEmpty() ==>
      OptPointText(c.sides[k].width, show) == Ok(FirstValue(SidesDecls(c, ks, show).value, BorderWidth(Some(k))))
    decreases |ks|
  {
    if |ks| > 0 {
      var on := ks[0] in c.sides && !c.sides[ks[0]].IsEmpty();
      var here: seq<Decl> := if on then SideDecls(Some(ks[0]), c.sides[ks[0]], show).value else [];
      var rest := SidesDecls(c, ks[1..], show).value;
      assert SidesDecls(c, ks, show).value == here + rest;
      SidesValues(c, ks[1..], show, k);
      assert k in ks <==> k == ks[0] || k in ks[1..];
      assert k == ks[0] ==> k !in ks[1..];
      FirstValueAppend(here, rest, BorderColor(Some(k)));
      FirstValueAppend(here, rest, BorderStyle(Some(k)));
      FirstValueAppend(here, rest, BorderWidth(Some(k)));
      if on {
        var s := c.sides[ks[0]];
        var w := OptPointText(s.width, show).value;
        var x := Entry(BorderColor(Some(ks[0])), s.color);
        var y := Entry(BorderStyle(Some(ks[0])), s.style);
        var z := Entry(BorderWidth(Some(ks[0])), w);
        assert here == x + y + z;
        EntryValue(BorderColor(Some(ks[0])), s.color, BorderColor(Some(k)));
        EntryValue(BorderStyle(Some(ks[0])), s.style, BorderColor(Some(k)));
        EntryValue(BorderWidth(Some(ks[0])), w, BorderColor(Some(k)));
        EntryValue(BorderColor(Some(ks[0])), s.color, BorderStyle(Some(k)));
        EntryValue(BorderStyle(Some(ks[0])), s.style, BorderStyle(Some(k)));
        EntryValue(BorderWidth(Some(ks[0])), w, BorderStyle(Some(k)));
        EntryValue(BorderColor(Some(ks[0])), s.color, BorderWidth(Some(k)));
        EntryValue(BorderStyle(Some(ks[0])), s.style, BorderWidth(Some(k)));
        EntryValue(BorderWidth(Some(ks[0])), w, BorderWidth(Some(k)));
        FirstValue3(x, y, z, BorderColor(Some(k)));
        FirstValue3(x, y, z, BorderStyle(Some(k)));
        FirstValue3(x, y, z, BorderWidth(Some(k)));
      }
    }
  }

  lemma SideOrderDistinct()
    ensures forall i, j :: 0 <= i < j < |SideOrder| ==> SideOrder[i] != SideOrder[j]
    ensures forall k: SideKey :: k in SideOrder
  {
    forall k: SideKey ensures k in SideOrder {
      match k
      case Left => assert SideOrder[0] == k;
      case Right => assert SideOrder[1] == k;
      case Top => assert SideOrder[2] == k;
      case Bottom => assert SideOrder[3] == k;
    }
  }

  /** Without a flat border, a side's properties are present exactly when the side is described. */
  lemma CellSideValues(c: CellStyle, show: real -> string, k: SideKey)
    requires CellDecls(c, show).Ok? && !c.HasFlat()
    ensures FirstValue(CellDecls(c, show).value, BorderColor(Some(k))) ==
      if k in c.sides && !c.sides[k].IsEmpty() then c.sides[k].color else None
    ensures FirstValue(CellDecls(c, show).value, BorderStyle(Some(k))) ==
      if k in c.sides && !c.sides[k].IsEmpty() then c.sides[k].style else None
    ensures k in c.sides && !c.sides[k].IsEmpty() ==>
      OptPointText(c.sides[k].width, show) == Ok(FirstValue(CellDecls(c, show).value, BorderWidth(Some(k))))
    ensures !(k in c.sides && !c.sides[k].IsEmpty()) ==> FirstValue(CellDecls(c, show).value, BorderWidth(Some(k))).None?
    ensures FirstValue(CellDecls(c, show).value, BorderColor(None)).None?
  {
    if !c.IsEmpty() {
      SideOrderDistinct();
      var sd := SidesDecls(c, SideOrder, show).value;
      SidesValues(c, SideOrder, show, k);
      var bg := Entry(BackgroundColor, c.background);
      assert CellDecls(c, show).value == bg + sd;
      FirstValueAppend(bg, sd, BorderColor(Some(k)));
      FirstValueAppend(bg, sd, BorderStyle(Some(k)));
      FirstValueAppend(bg, sd, BorderWidth(Some(k)));
      FirstValueAppend(bg, sd, BorderColor(None));
      EntryValue(BackgroundColor, c.background, BorderColor(Some(k)));
      EntryValue(BackgroundColor, c.background, BorderWidth(Some(k)));
      EntryValue(BackgroundColor, c.background, BorderStyle(Some(k)));
      EntryValue(BackgroundColor, c.background, BorderColor(None));
      SidesNeverFlat(c, SideOrder, show);
    }
  }

  lemma {:induction false} SidesNeverFlat(c: CellStyle, ks: seq<SideKey>, show: real -> string)
    requires SidesDecls(c, ks, show).Ok?
    ensures FirstValue(SidesDecls(c, ks, show).value, BorderColor(None)).None?
    decreases |ks|
  {
    if |ks| > 0 {
      SidesNeverFlat(c, ks[1..], show);
      var on := ks[0] in c.sides && !c.sides[ks[0]].IsEmpty();
      var here: seq<Decl> := if on then SideDecls(Some(ks[0]), c.sides[ks[0]], show).value else [];
      var rest := SidesDecls(c, ks[1..], show).value;
      assert SidesDecls(c, ks, show).value == here + rest;
      FirstValueAppend(here, rest, BorderColor(None));
    }
  }

  /** A flat border is written once, with the `border-*` properties and no side-specific ones. */
  lemma CellFlatValues(c: CellStyle, show: real -> string)
    requires CellDecls(c, show).Ok? && c.HasFlat()
    ensures FirstValue(CellDecls(c, show).value, BorderColor(None)) == c.flat.color
    ensures FirstValue(CellDecls(c, show).value, BorderStyle(None)) == c.flat.style
    ensures forall k: SideKey :: FirstValue(CellDecls(c, show).value, BorderColor(Some(k))).None?
  {
    FlatValueAt(c, show, BorderColor(None));
    FlatValueAt(c, show, BorderStyle(None));
    forall k: SideKey ensures FirstValue(CellDecls(c, show).value, BorderColor(Some(k))).None? {
      FlatValueAt(c, show, BorderColor(Some(k)));
    }
  }

  /** The value of one property among the declarations of a cell with a flat border. */
  lemma FlatValueAt(c: CellStyle, show: real -> string, p: Prop)
    requires CellDecls(c, show).Ok? && c.HasFlat()
    ensures FirstValue(CellDecls(c, show).value, p) ==
      if p == BackgroundColor then c.background else if p == BorderColor(None) then c.flat.color
      else if p == BorderStyle(None) then c.flat.style
      else if p == BorderWidth(None) then OptPointText(c.flat.width, show).value else None
  {
    var bg := Entry(BackgroundColor, c.background);
    var s := c.flat;
    var w := OptPointText(s.width, show).value;
    var x := Entry(BorderColor(None), s.color);
    var y := Entry(BorderStyle(None), s.style);
    var z := Entry(BorderWidth(None), w);
    assert CellDecls(c, show).value == bg + (x + y + z);
    EntryValue(BackgroundColor, c.background, p);
    EntryValue(BorderColor(None), s.color, p);
    EntryValue(BorderStyle(None), s.style, p);
    EntryValue(BorderWidth(None), w, p);
    FirstValue3(x, y, z, p);
    FirstValueAppend(bg, x + y + z, p);
  }

  /**
   * A style's height is written whenever it is set, zero included (the spreadsheet
   * backends skip a zero height), and after every font and cell property.
   */
  lemma HeightValue(st: Style, show: real -> string)
    requires StyleDecls(st, show).Ok?
    ensures FirstValue(StyleDecls(st, show).value, Height).Some? <==> st.height.Some?
    ensures var ds := StyleDecls(st, show).value; st.height.Some? ==> ds[|ds| - 1].0 == Height
  {
    var font := FontDecls(st.font, show).value;
    var cell := CellDecls(st.cell, show).value;
    var h := OptPointText(if st.height.Some? then Some(IntToString(st.height.value)) else None, show).value;
    assert StyleDecls(st, show).value == font + cell + Entry(Height, h);
    FontValues(st.font, show);
    CellHasNoHeight(st.cell, show);
    EntryValue(Height, h, Height);
    FirstValue3(font, cell, Entry(Height, h), Height);
  }

  lemma CellHasNoHeight(c: CellStyle, show: real -> string)
    requires CellDecls(c, show).Ok?
    ensures FirstValue(CellDecls(c, show).value, Height).None?
  {
    var ds := CellDecls(c, show).value;
    forall i | 0 <= i < |ds| ensures ds[i].0 != Height {
      NoHeightIn(c, show, i);
    }
  }

  lemma NoHeightIn(c: CellStyle, show: real -> string, i: nat)
    requires CellDecls(c, show).Ok? && i < |CellDecls(c, show).value|
    ensures CellDecls(c, show).value[i].0 != Height
  {
    var ds := CellDecls(c, show).value;
    if c.HasFlat() {
      CellFlatFirstValues(c, show, i);
    } else {
      SidesNoHeight(c, SideOrder, show);
      var bg := Entry(BackgroundColor, c.background);
      var sd := SidesDecls(c, SideOrder, show).value;
      assert ds == bg + sd;
      if i >= |bg| {
        assert ds[i] == sd[i - |bg|];
      }
    }
  }

  lemma CellFlatFirstValues(c: CellStyle, show: real -> string, i: nat)
    requires CellDecls(c, show).Ok? && c.HasFlat() && i < |CellDecls(c, show).value|
    ensures CellDecls(c, show).value[i].0 != Height
  {
    var s := c.flat;
    var w := OptPointText(s.width, show).value;
    var all := Entry(BackgroundColor, c.background) + (Entry(BorderColor(None), s.color) + Entry(BorderStyle(None), s.style) + Entry(BorderWidth(None), w));
    assert CellDecls(c, show).value == all;
  }

  lemma {:induction false} SidesNoHeight(c: CellStyle, ks: seq<SideKey>, show: real -> string)
    requires SidesDecls(c, ks, show).Ok?
    ensures forall i :: 0 <= i < |SidesDecls(c, ks, show).value| ==> SidesDecls(c, ks, show).value[i].0 != Height
    decreases |ks|
  {
    if |ks| > 0 {
      SidesNoHeight(c, ks[1..], show);
      var on := ks[0] in c.sides && !c.sides[ks[0]].IsEmpty();
      var here: seq<Decl> := if on then SideDecls(Some(ks[0]), c.sides[ks[0]], show).value else [];
      var rest := SidesDecls(c, ks[1..], show).value;
      assert SidesDecls(c, ks, show).value == here + rest;
      assert forall i :: 0 <= i < |here| ==> here[i].0 != Height;
    }
  }

  /** One rule of the `<style>` block: the selector and the properties joined by `; `. */
  function Rule(selector: string, ds: seq<Decl>): string {
    "\t\t" + selector + " { " + Join("; ", seq(|ds|, i requires 0 <= i < |ds| => DeclText(ds[i]))) + " }\n"
  }

  /** The rules of the registered styles from index `i` on, one `.mark` rule each, in order. */
  function StyleRules(reg: Registry, i: nat, show: real -> string): (r: Result<string>)
    requires i <= |reg|
    ensures r.Err? <==> exists k :: i <= k < |reg| && StyleDecls(reg[k].1, show).Err?
    decreases |reg| - i
  {
    if i == |reg| then Ok("")
    else
      var ds := StyleDecls(reg[i].1, show);
      if ds.Err? then Err(ds.error)
      else
        var rest :- StyleRules(reg, i + 1, show);
        Ok(Rule("." + reg[i].0, ds.value) + rest)
  }

  /**
   * The `<style>` block of `compile`: the fixed rules for borders and numbers, the
   * default style for `th` and `td` when one is set, and a rule per registered style.
   */
  function StyleBlock(ex: Exporter, show: real -> string): (r: Result<string>)
    ensures r.Err? <==>
      (ex.defaultStyle.Some? && StyleDecls(ex.defaultStyle.value, show).Err?)
      || exists k :: 0 <= k < |ex.styles| && StyleDecls(ex.styles[k].1, show).Err?
  {
    var def :- if ex.defaultStyle.Some? then (var ds :- StyleDecls(ex.defaultStyle.value, show); Ok(Rule("th,td", ds))) else Ok("");
    var rules :- StyleRules(ex.styles, 0, show);
    Ok("\t\ttd { border-color: " + DefaultColor + "; }\n\t\ttd.number { text-align: right; }\n" + def + rules)
  }

  // ---------------------------------------------------------------------------------
  // Tables

  /** A sheet's widths all convert and its row classes are all known. */
  predicate SheetOk(s: Sheet, reg: Registry, show: real -> string) {
    ColWidths(s, show).Ok? && RowClassesKnown(s, reg, 0)
  }

  /** One sheet's `<table>`: caption, widths, header and body. */
  function TableHtml(s: Sheet, reg: Registry, show: real -> string): (r: Result<string>)
    ensures r.Ok? <==> SheetOk(s, reg, show)
  {
    var widths :- ColWidths(s, show);
    var rows :- Rows(s, reg, 0);
    Ok("\t<table border=\"1\" cellspacing=\"0\" cellpadding=\"5\">\n\t\t<caption>" + s.name + "</caption>\n"
      + ColsHtml(widths) + HeaderHtml(s.headers) + "\t\t<tbody>\n" + rows + "\t\t</tbody>\n\t</table>\n")
  }

  /** The tables of every sheet, in order. */
  function Tables(ex: Exporter, show: real -> string): (r: Result<string>)
    ensures r.Err? <==> exists j :: 0 <= j < |ex.sheets| && !SheetOk(ex.sheets[j], ex.styles, show)
  {
    ConcatOk(TableResults(ex, show))
  }

  /** The table of each sheet, or its error. */
  function TableResults(ex: Exporter, show: real -> string): (rs: seq<Result<string>>)
    ensures |rs| == |ex.sheets|
    ensures forall j :: 0 <= j < |rs| ==> (rs[j].Err? <==> !SheetOk(ex.sheets[j], ex.styles, show))
  {
    seq(|ex.sheets|, j requires 0 <= j < |ex.sheets| => TableHtml(ex.sheets[j], ex.styles, show))
  }

  /**
   * The styles and tables `compile` writes between the fixed head and foot of the page:
   * it fails exactly when a style or a sheet cannot be written.
   */
  function Compile(ex: Exporter, show: real -> string): (r: Result<string>)
    ensures r.Ok? <==> StyleBlock(ex, show).Ok? && forall j :: 0 <= j < |ex.sheets| ==> SheetOk(ex.sheets[j], ex.styles, show)
  {
    var styles :- StyleBlock(ex, show);
    var tables :- Tables(ex, show);
    Ok("\t<style>\n" + styles + "\t</style>\n</head>\n<body>\n" + tables + "</body>\n</html>\n")
  }
}

=== FILE: numeric.dfy ===
/**
 * The numeric-literal grammar shared by every backend: PHP's `is_numeric` test and the
 * `floatval` reading of a leading number, over the decimal subset
 * `[+-]? ( D+ ('.' D*)? | '.' D+ )`.
 */
module Numeric {
  import opened Text

  /** Number of consecutive digits of `s` starting at `i`. */
  function DigitRun(s: string, i: nat): (n: nat)
    requires i <= |s|
    ensures i + n <= |s|
    ensures i + n < |s| ==> !IsDigit(s[i + n])
    decreases |s| - i
  {
    if i < |s| && IsDigit(s[i]) then 1 + DigitRun(s, i + 1) else 0
  }

  /** The run holds digits only. */
  lemma {:induction false} DigitRunDigits(s: string, i: nat)
    requires i <= |s|
    ensures forall k :: i <= k < i + DigitRun(s, i) ==> IsDigit(s[k])
    decreases |s| - i
  {
    if i < |s| && IsDigit(s[i]) {
      DigitRunDigits(s, i + 1);
    }
  }

  /** The longest decimal prefix of a string, split into its parts. */
  datatype Prefix = Prefix(signLen: nat, intLen: nat, hasDot: bool, fracLen: nat) {
    function Len(): nat {
      signLen + intLen + (if hasDot then 1 + fracLen else 0)
    }
    predicate HasDigits() {
      intLen > 0 || fracLen > 0
    }
  }

  function ScanPrefix(s: string): (p: Prefix)
    ensures p.Len() <= |s|
    ensures p.signLen <= 1 && (p.signLen == 1 ==> s[0] == '-' || s[0] == '+')
    ensures !p.hasDot ==> p.fracLen == 0
  {
    var a := if |s| > 0 && (s[0] == '-' || s[0] == '+') then 1 else 0;
    var d1 := DigitRun(s, a);
    if a + d1 < |s| && s[a + d1] == '.' then
      var d2 := DigitRun(s, a + d1 + 1);
      if d1 > 0 || d2 > 0 then Prefix(a, d1, true, d2) else Prefix(a, 0, false, 0)
    else Prefix(a, d1, false, 0)
  }

  /** PHP's `is_numeric` on a string: the whole string is one decimal literal. */
  predicate IsNumeric(s: string) {
    var p := ScanPrefix(s);
    p.HasDigits() && p.Len() == |s|
  }

  /** The parts the scan reports are the sign, the digit run after it, the dot and the digit run after that. */
  lemma ScanPrefixParts(s: string)
    ensures var p := ScanPrefix(s);
      p.intLen == DigitRun(s, p.signLen)
      && (p.hasDot ==> p.signLen + p.intLen < |s| && s[p.signLen + p.intLen] == '.'
                       && p.fracLen == DigitRun(s, p.signLen + p.intLen + 1))
  {
    var a := if |s| > 0 && (s[0] == '-' || s[0] == '+') then 1 else 0;
    var d1 := DigitRun(s, a);
    if a + d1 < |s| && s[a + d1] == '.' {
      var d2 := DigitRun(s, a + d1 + 1);
      if d1 > 0 || d2 > 0 {
        assert ScanPrefix(s) == Prefix(a, d1, true, d2);
      } else {
        assert ScanPrefix(s) == Prefix(a, 0, false, 0);
      }
    } else {
      assert ScanPrefix(s) == Prefix(a, d1, false, 0);
    }
  }

  /** Every character of a numeric string is a digit, a sign or the dot. */
  lemma NumericChars(s: string, i: nat)
    requires IsNumeric(s) && i < |s|
    ensures IsDigit(s[i]) || s[i] == '-' || s[i] == '+' || s[i] == '.'
  {
    var p := ScanPrefix(s);
    ScanPrefixParts(s);
    var a := p.signLen;
    if a <= i < a + p.intLen {
      DigitRunDigits(s, a);
    } else if i > a + p.intLen {
      assert p.hasDot;
      DigitRunDigits(s, a + p.intLen + 1);
    }
  }

  function Pow10(k: nat): (r: nat)
    ensures r >= 1
  {
    if k == 0 then 1 else 10 * Pow10(k - 1)
  }

  /** PHP's `floatval`: the value of the leading decimal literal, 0 when there is none. */
  function LeadingValue(s: string): real {
    var p := ScanPrefix(s);
    if !p.HasDigits() then 0.0
    else
      ScanPrefixParts(s);
      DigitRunDigits(s, p.signLen);
      var ip := s[p.signLen..p.signLen + p.intLen];
      var fp := if p.hasDot then (DigitRunDigits(s, p.signLen + p.intLen + 1); s[p.signLen + p.intLen + 1..p.Len()]) else [];
      var mag := ParseDigits(ip) as real + (ParseDigits(fp) as real) / (Pow10(|fp|) as real);
      if p.signLen == 1 && s[0] == '-' then -mag else mag
  }

  /**
   * PHP 8's loose `==` between two strings: two numeric strings compare by value, any
   * other pair character by character.
   */
  predicate LooseEq(a: string, b: string) {
    if IsNumeric(a) && IsNumeric(b) then LeadingValue(a) == LeadingValue(b) else a == b
  }

  /** A string holding a character outside digits, signs and the dot is compared exactly. */
  lemma LooseEqExact(a: string, b: string, i: nat)
    requires i < |b| && !IsDigit(b[i]) && b[i] != '-' && b[i] != '+' && b[i] != '.'
    ensures LooseEq(a, b) <==> a == b
  {
    if IsNumeric(b) {
      NumericChars(b, i);
    }
  }

  /** A printed natural is numeric, and reads back as itself. */
  lemma NatTextIsNumeric(n: nat)
    ensures IsNumeric(NatToString(n))
    ensures LeadingValue(NatToString(n)) == n as real
  {
    var s := NatToString(n);
    assert s[0] != '-' && s[0] != '+' by { assert IsDigit(s[0]); }
    DigitRunAll(s, 0);
    assert s[0..|s|] == s;
    ParseNatToString(n);
  }

  lemma {:induction false} DigitRunAll(s: string, i: nat)
    requires i <= |s| && AllDigits(s)
    ensures DigitRun(s, i) == |s| - i
    decreases |s| - i
  {
    if i < |s| {
      DigitRunAll(s, i + 1);
    }
  }
}

=== FILE: ods.dfy ===
/**
 * The content part of the ODS backend (`ExporterOds`): table cells with their value type,
 * formula and spans, the covered cells of section 9.1.5 of OpenDocument 1.2 Part 1, row
 * style names, the header row, column elements and the table of each sheet.
 */
module Ods {
  import opened Wrappers
  import opened Text
  import opened Numeric
  import opened Xml
  import opened Sheets
  import opened Styles
  import opened Walker
  import opened Formula

  // ---------------------------------------------------------------------------------
  // Covered cells

  const CoveredOpen := "<table:covered-table-cell"
  const RepeatedOpen := " table:number-columns-repeated=\""
  const CoveredClose := " />"

  /** The element standing for `k` consecutive columns covered by a span from elsewhere. */
  function CoveredXml(k: pos): string {
    CoveredOpen + (if k > 1 then RepeatedOpen + NatToString(k) + "\"" else "") + CoveredClose
  }

  /**
   * Reader of a covered element: the number of columns it stands for, that is its
   * repeat count, or one without the attribute.
   */
  function CoveredCount(x: string): Option<nat> {
    if x == CoveredOpen + CoveredClose then Some(1)
    else
      var pre := CoveredOpen + RepeatedOpen;
      var post := "\"" + CoveredClose;
      if |pre| + |post| < |x| && x[..|pre|] == pre && x[|x| - |post|..] == post
        && AllDigits(x[|pre|..|x| - |post|])
      then Some(ParseDigits(x[|pre|..|x| - |post|]))
      else None
  }

  /** A covered run of `k` columns is written as one element that reads back as `k` columns. */
  lemma CoveredRoundTrip(k: pos)
    ensures CoveredCount(CoveredXml(k)) == Some(k)
    ensures k == 1 <==> CoveredXml(k) == CoveredOpen + CoveredClose
  {
    var x := CoveredXml(k);
    if k > 1 {
      var pre := CoveredOpen + RepeatedOpen;
      var post := "\"" + CoveredClose;
      var d := NatToString(k);
      assert x == pre + d + post;
      assert x[..|pre|] == pre;
      assert x[|x| - |post|..] == post;
      assert x[|pre|..|x| - |post|] == d;
      ParseNatToString(k);
      assert |x| > |CoveredOpen + CoveredClose|;
    }
  }

  // ---------------------------------------------------------------------------------
  // Table cells

  /**
   * One `<table:table-cell>`: the class of its `tc_` style, the `office:value` of a float,
   * the formula attribute's value, the two span counts and the escaped paragraph text.
   */
  datatype OCell = OCell(
    style: Option<string>,
    float: Option<string>,
    formula: Option<string>,
    rowsSpanned: Option<pos>,
    colsSpanned: Option<pos>,
    text: string)

  function CellXml(x: OCell): string {
    "<table:table-cell"
    + (if x.style.Some? then " table:style-name=\"tc_" + x.style.value + "\"" else "")
    + " office:value-type=" + (if x.float.Some? then "\"float\" office:value=\"" + x.float.value + "\"" else "\"string\"")
    + (if x.formula.Some? then " table:formula=\"of:=" + x.formula.value + "\"" else "")
    + (if x.rowsSpanned.Some? then " table:number-rows-spanned=\"" + NatToString(x.rowsSpanned.value) + "\"" else "")
    + (if x.colsSpanned.Some? then " table:number-columns-spanned=\"" + NatToString(x.colsSpanned.value) + "\"" else "")
    + "><text:p>" + x.text + "</text:p></table:table-cell>"
  }

  /** The formula attribute value as the code writes it: the rewritten formula, unescaped. */
  function FormulaValueAsWritten(f: string): string {
    ReformatFormula(f)
  }

  /**
   * A formula holding a string literal puts a raw quote into the attribute value, so the
   * attribute ends early.
   */
  lemma QuotedFormulaBreaksAttribute()
    ensures FormulaValueAsWritten("\"x\"") == "\"x\""
    ensures Contains(FormulaValueAsWritten("\"x\""), '"')
  {
    var f := "\"x\"";
    assert NoRefs(f) by {
      forall i | 0 <= i < |f| ensures RefLen(f[i..]).None? {
        var t := f[i..];
        assert t[0] == f[i];
        assert Dollar(t, 0) == 0;
        assert UpperRun(t, 0) == 0;
      }
    }
    NoRefsUnchanged(f);
    assert f[0] == '"';
  }

  /** The formula attribute value, escaped as the XLSX backend escapes its formulas. */
  function FormulaValue(f: string): (r: string)
    ensures Unescape(r) == ReformatFormula(f)
    ensures forall i :: 0 <= i < |r| ==> r[i] != '"' && r[i] != '<' && r[i] != '>'
  {
    var r := HtmlSpecialChars(ReformatFormula(f));
    UnescapeEscapeAll(ReformatFormula(f), HtmlApos);
    assert forall i :: 0 <= i < |r| ==> r[i] != '"' && r[i] != '<' && r[i] != '>' by {
      forall i | 0 <= i < |r| ensures r[i] != '"' && r[i] != '<' && r[i] != '>' {
        EscapeAllIsMarkupFree(ReformatFormula(f), HtmlApos, i);
      }
    }
    r
  }

  /**
   * `getCell`/`getCellValue` for a present cell: the `tc_` style of its class when that is
   * truthy, the float type for a numeric value, the formula of a truthy FORMULA, the row
   * span whenever COLS is given or ROWS exceeds one, the column span when COLS exceeds one.
   */
  function CellValue(c: Cell, rowClass: Option<string>): (x: OCell)
    requires c != Empty
    ensures x.style.Some? <==> TruthyOpt(CellClass(c, rowClass))
    ensures x.style.Some? ==> x.style == CellClass(c, rowClass)
    ensures x.float.Some? <==> c.Shown().IsNumber()
    ensures x.float.Some? ==> x.float.value == c.Shown().Text() && Unescape(x.float.value) == c.Shown().Text()
    ensures x.formula.Some? <==> c.Span? && TruthyOpt(c.formula)
    ensures x.formula.Some? ==> Unescape(x.formula.value) == ReformatFormula(c.formula.value)
    ensures x.rowsSpanned.Some? <==> c.Span? && (c.cols.Some? || c.RowSpan() > 1)
    ensures x.rowsSpanned.Some? ==> x.rowsSpanned.value == c.RowSpan()
    ensures x.colsSpanned.Some? <==> c.ColSpan() > 1
    ensures x.colsSpanned.Some? ==> x.colsSpanned.value == c.ColSpan()
    ensures Unescape(x.text) == c.Shown().Text()
  {
    var cls := CellClass(c, rowClass);
    var v := c.Shown();
    XmlEntitiesRoundTrip(v.Text());
    assert v.IsNumber() ==> Unescape(v.Text()) == v.Text() by {
      if v.IsNumber() && v.Str? {
        NumericHasNoAmpersand(v.s);
        UnescapePlain(v.s);
      } else if v.IsNumber() {
        UnescapePlain(v.text);
      }
    }
    OCell(
      if TruthyOpt(cls) then cls else None,
      if v.IsNumber() then Some(v.Text()) else None,
      if c.Span? && TruthyOpt(c.formula) then Some(FormulaValue(c.formula.value)) else None,
      if c.Span? && (c.cols.Some? || c.RowSpan() > 1) then Some(c.RowSpan()) else None,
      if c.ColSpan() > 1 then Some(c.ColSpan()) else None,
      XmlEntities(v.Text()))
  }

  // ---------------------------------------------------------------------------------
  // Rows

  /** What a row holds, in order: a covered run or a table cell. */
  datatype Item = Cover(k: pos) | Filled(cell: OCell)

  function ItemXml(i: Item): string {
    match i
    case Cover(k) => CoveredXml(k)
    case Filled(x) => CellXml(x)
  }

  function ItemsXml(items: seq<Item>): string {
    if |items| == 0 then [] else ItemXml(items[0]) + ItemsXml(items[1..])
  }

  /** The item written for one walker event. */
  function ItemOf(row: seq<Cell>, e: Event, rowClass: Option<string>): Item
    requires e.Real? ==> e.src < |row| && row[e.src] != Empty
  {
    match e
    case Covered(_, k) => Cover(k)
    case Real(_, src) => Filled(CellValue(row[src], rowClass))
  }

  /** The items of a row: one per walker event. */
  function Items(row: seq<Cell>, evs: seq<Event>, rowClass: Option<string>): seq<Item>
    requires Sourced(row, evs)
  {
    seq(|evs|, a requires 0 <= a < |evs| => ItemOf(row, evs[a], rowClass))
  }

  /** Number of table columns the items take: `k` for a covered run, one for a cell. */
  function Width(items: seq<Item>): nat {
    if |items| == 0 then 0 else (if items[0].Cover? then items[0].k else 1) + Width(items[1..])
  }

  /** Every covered run takes its length and every emitted cell one column. */
  lemma {:induction false} ItemsWidth(row: seq<Cell>, evs: seq<Event>, rowClass: Option<string>)
    requires Sourced(row, evs)
    ensures Width(Items(row, evs, rowClass)) == CovSum(evs) + |Srcs(evs)|
    decreases |evs|
  {
    if |evs| > 0 {
      var items := Items(row, evs, rowClass);
      assert Sourced(row, evs[1..]) by {
        forall a | 0 <= a < |evs[1..]| && evs[1..][a].Real? ensures evs[1..][a].src < |row| && row[evs[1..][a].src] != Empty {
          assert evs[1..][a] == evs[a + 1];
        }
      }
      assert items[1..] == Items(row, evs[1..], rowClass);
      ItemsWidth(row, evs[1..], rowClass);
    }
  }

  /** Number of present cells of `row` at the indices `a .. x - 1`. */
  function CountFrom(row: seq<Cell>, a: int, x: int): (n: nat)
    ensures a <= x ==> n <= x - a
    decreases x - a
  {
    if a >= x then 0 else (if Present1(row, a) then 1 else 0) + CountFrom(row, a + 1, x)
  }

  /** The `p`-th present cell is preceded by exactly `p` present cells. */
  lemma {:induction false} PresentRank(row: seq<Cell>, a: int, b: int, p: nat)
    requires p < |PresentBetween(row, a, b)|
    ensures p == CountFrom(row, a, PresentBetween(row, a, b)[p])
    decreases b - a
  {
    PresentStep(row, a, b);
    var rest := PresentBetween(row, a + 1, b);
    if Present1(row, a) {
      if p > 0 {
        assert PresentBetween(row, a, b)[p] == rest[p - 1];
        PresentRank(row, a + 1, b, p - 1);
      }
    } else {
      assert PresentBetween(row, a, b)[p] == rest[p];
      PresentRank(row, a + 1, b, p);
    }
  }

  /** Number of null cells before index `x` of a row. */
  function NullsBefore(row: seq<Cell>, x: nat): nat {
    x - CountFrom(row, 0, x)
  }

  /**
   * Where each emitted cell lands: its table column (the width of the items before it)
   * is the loop column the walker gives it, less the null cells before it in its row,
   * since a null cell writes nothing.
   */
  lemma OdsColumn(row: seq<Cell>, evs: seq<Event>, rowClass: Option<string>, a: nat)
    requires RowScanned(row, evs) && Sourced(row, evs)
    requires a < |evs| && evs[a].Real?
    ensures Width(Items(row, evs, rowClass)[..a]) + NullsBefore(row, evs[a].src) == evs[a].col
  {
    var pre := evs[..a];
    assert Sourced(row, pre) by {
      forall b | 0 <= b < |pre| && pre[b].Real? ensures pre[b].src < |row| && row[pre[b].src] != Empty {
        assert pre[b] == evs[b];
      }
    }
    assert Items(row, evs, rowClass)[..a] == Items(row, pre, rowClass);
    ItemsWidth(row, pre, rowClass);
    assert evs == pre + evs[a..];
    SrcsAppend(pre, evs[a..]);
    assert evs[a..][1..] == evs[a + 1..];
    assert Srcs(evs[a..]) == [evs[a].src] + Srcs(evs[a + 1..]);
    var p := |Srcs(pre)|;
    assert Present(row)[p] == evs[a].src;
    PresentRank(row, 0, |row|, p);
  }

  /** All present cells before `x` means as many of them as `x`. */
  lemma {:induction false} CountAllPresent(row: seq<Cell>, a: nat, x: nat)
    requires a <= x <= |row|
    requires forall i :: 0 <= i < |row| ==> row[i] != Empty
    ensures CountFrom(row, a, x) == x - a
    decreases x - a
  {
    if a < x {
      CountAllPresent(row, a + 1, x);
    }
  }

  /** In a row without null cells, every cell lands at the column the XLSX backend names for it. */
  lemma NoNullsSameColumn(row: seq<Cell>, evs: seq<Event>, rowClass: Option<string>, a: nat)
    requires RowScanned(row, evs) && Sourced(row, evs)
    requires forall i :: 0 <= i < |row| ==> row[i] != Empty
    requires a < |evs| && evs[a].Real?
    ensures Width(Items(row, evs, rowClass)[..a]) == evs[a].col
  {
    OdsColumn(row, evs, rowClass, a);
    CountAllPresent(row, 0, evs[a].src);
  }

  /** A whole row takes the covered columns plus one column per present cell. */
  lemma RowWidth(row: seq<Cell>, evs: seq<Event>, rowClass: Option<string>)
    requires RowScanned(row, evs) && Sourced(row, evs)
    ensures Width(Items(row, evs, rowClass)) == CovSum(evs) + |Present(row)|
  {
    ItemsWidth(row, evs, rowClass);
  }

  /**
   * `getRowHeight`: a truthy row class must name a registered style; the row takes that
   * style's `ro_` row style when it has a height, and the sheet-wide default otherwise.
   */
  function GetRowHeight(reg: Registry, cls: Option<string>, def: Option<string>): (r: Result<Option<string>>)
    ensures r.Err? <==> TruthyOpt(cls) && Lookup(reg, cls.value).None?
    ensures r.Err? ==> r.error == "Missing style: " + HtmlSpecialChars(cls.value)
    ensures r.Ok? && TruthyOpt(cls) && Lookup(reg, cls.value).value.HasHeight() ==> r.value == Some("ro_" + cls.value)
    ensures r.Ok? && !(TruthyOpt(cls) && Lookup(reg, cls.value).value.HasHeight()) ==> r.value == def
  {
    if !TruthyOpt(cls) then Ok(def)
    else
      match Lookup(reg, cls.value)
      case None => Err("Missing style: " + HtmlSpecialChars(cls.value))
      case Some(st) => if st.HasHeight() then Ok(Some("ro_" + cls.value)) else Ok(def)
  }

  /** The default row style `rdef`, declared when the default style has a height. */
  function DefHeight(d: Option<Style>): (r: Option<string>)
    ensures r.Some? <==> d.Some? && d.value.HasHeight()
    ensures r.Some? ==> r.value == "rdef"
  {
    if d.Some? && d.value.HasHeight() then Some("rdef") else None
  }

  /** A written row: its row style (if any) and its items. */
  datatype ORow = ORow(height: Option<string>, items: seq<Item>)

  function RowXml(r: ORow): string {
    "        <table:table-row"
    + (if r.height.Some? && Truthy(r.height.value) then " table:style-name=\"" + r.height.value + "\"" else "")
    + ">" + ItemsXml(r.items) + "</table:table-row>\n"
  }

  /** The written rows carry, in order, their rows' styles and cells. */
  predicate RowsPlaced(out: seq<ORow>, s: Sheet, scan: seq<seq<Event>>, reg: Registry, def: Option<string>, num: nat)
    requires |scan| == |s.rows| && num + |out| <= |s.rows|
    requires forall i :: 0 <= i < |s.rows| ==> Sourced(s.rows[i], scan[i])
  {
    forall i :: 0 <= i < |out| ==>
      GetRowHeight(reg, GetStyle(s, num + i), def) == Ok(out[i].height)
      && out[i].items == Items(s.rows[num + i], scan[num + i], GetStyle(s, num + i))
  }

  lemma RowsPlacedCons(x: ORow, rest: seq<ORow>, s: Sheet, scan: seq<seq<Event>>, reg: Registry, def: Option<string>, num: nat)
    requires |scan| == |s.rows| && num + 1 + |rest| <= |s.rows|
    requires forall i :: 0 <= i < |s.rows| ==> Sourced(s.rows[i], scan[i])
    requires GetRowHeight(reg, GetStyle(s, num), def) == Ok(x.height)
    requires x.items == Items(s.rows[num], scan[num], GetStyle(s, num))
    requires RowsPlaced(rest, s, scan, reg, def, num + 1)
    ensures RowsPlaced([x] + rest, s, scan, reg, def, num)
  {
    var out := [x] + rest;
    forall i | 0 <= i < |out|
      ensures GetRowHeight(reg, GetStyle(s, num + i), def) == Ok(out[i].height)
      ensures out[i].items == Items(s.rows[num + i], scan[num + i], GetStyle(s, num + i))
    {
      if i > 0 {
        assert out[i] == rest[i - 1];
      }
    }
  }

  /**
   * `printSheet` from row `num` on: one table row per sheet row, in order, each with the
   * row style `getRowHeight` picks and one item per walker event; the first row whose
   * class names no registered style stops the export.
   */
  function SheetRows(s: Sheet, scan: seq<seq<Event>>, reg: Registry, def: Option<string>, num: nat): (r: Result<seq<ORow>>)
    requires |scan| == |s.rows| && num <= |s.rows|
    requires forall i :: 0 <= i < |s.rows| ==> Sourced(s.rows[i], scan[i])
    ensures r.Err? <==> !RowClassesKnown(s, reg, num)
    ensures r.Ok? ==> |r.value| == |s.rows| - num && RowsPlaced(r.value, s, scan, reg, def, num)
    decreases |s.rows| - num
  {
    if num == |s.rows| then Ok([])
    else
      var h := GetRowHeight(reg, GetStyle(s, num), def);
      RowClassesKnownStep(s, reg, num);
      if h.Err? then Err(h.error)
      else
        var rest := SheetRows(s, scan, reg, def, num + 1);
        if rest.Err? then Err(rest.error)
        else
          var x := ORow(h.value, Items(s.rows[num], scan[num], GetStyle(s, num)));
          RowsPlacedCons(x, rest.value, s, scan, reg, def, num);
          Ok([x] + rest.value)
  }

  // ---------------------------------------------------------------------------------
  // Header and columns

  /** A header cell: always a plain string cell, even when the header reads as a number. */
  function HeaderCell(h: string): (x: OCell)
    ensures x.style.None? && x.float.None? && x.formula.None? && x.rowsSpanned.None? && x.colsSpanned.None?
    ensures Unescape(x.text) == h
  {
    XmlEntitiesRoundTrip(h);
    OCell(None, None, None, None, None, XmlEntities(h))
  }

  /** `printHeader`: nothing without headers, else one row with a cell per header. */
  function HeaderXml(headers: seq<string>): (r: string)
    ensures r == "" <==> |headers| == 0
  {
    if |headers| == 0 then ""
    else
      var cells := seq(|headers|, i requires 0 <= i < |headers| => CellXml(HeaderCell(headers[i])));
      "<table:table-row>" + Concat(cells) + "</table:table-row>\n"
  }

  /** A `<table:table-column>`: its column style and how many columns it stands for. */
  datatype Column = Column(style: Option<string>, repeated: Option<nat>)

  function ColName(sid: nat, i: nat): string {
    "col_" + NatToString(sid) + "_" + NatToString(i)
  }

  function DefaultColName(sid: nat): string {
    "col_" + NatToString(sid) + "_default"
  }

  /** A default width is set and some columns have no width of their own. */
  predicate DefaultFills(s: Sheet) {
    TruthyOpt(s.colDefault) && |s.cols| < s.colCount
  }

  /**
   * `printColWidths`: a bare column when no width is set; else one styled column per width
   * and, when the default width fills the rest, one repeated column for the others.
   */
  function Columns(s: Sheet, sid: nat): seq<Column> {
    if |s.cols| == 0 then [Column(None, None)]
    else
      seq(|s.cols|, i requires 0 <= i < |s.cols| => Column(Some(ColName(sid, i)), None))
      + (if DefaultFills(s) then [Column(Some(DefaultColName(sid)), Some(s.colCount - |s.cols|))] else [])
  }

  function ColumnXml(c: Column): string {
    if c.style.None? then "        <table:table-column/>\n"
    else
      "        <table:table-column table:style-name=\"" + c.style.value + "\""
      + (if c.repeated.Some? then " table:number-columns-repeated=\"" + NatToString(c.repeated.value) + "\"" else "")
      + " />\n"
  }

  function ColumnsXml(cs: seq<Column>): string {
    if |cs| == 0 then "" else ColumnXml(cs[0]) + ColumnsXml(cs[1..])
  }

  /** Number of table columns the column elements stand for. */
  function Span(cs: seq<Column>): nat {
    if |cs| == 0 then 0 else (if cs[0].repeated.Some? then cs[0].repeated.value else 1) + Span(cs[1..])
  }

  lemma {:induction false} SpanAppend(a: seq<Column>, b: seq<Column>)
    ensures Span(a + b) == Span(a) + Span(b)
    decreases |a|
  {
    if |a| > 0 {
      assert (a + b)[1..] == a[1..] + b;
      SpanAppend(a[1..], b);
    } else {
      assert a + b == b;
    }
  }

  lemma {:induction false} SpanSingles(cs: seq<Column>)
    requires forall i :: 0 <= i < |cs| ==> cs[i].repeated.None?
    ensures Span(cs) == |cs|
    decreases |cs|
  {
    if |cs| > 0 {
      SpanSingles(cs[1..]);
    }
  }

  /**
   * The declared columns cover the sheet's width exactly when the default width fills the
   * rest; otherwise one per width set (or the single bare column).
   */
  lemma ColumnsCover(s: Sheet, sid: nat)
    ensures Span(Columns(s, sid)) ==
      if |s.cols| == 0 then 1 else if DefaultFills(s) then s.colCount else |s.cols|
  {
    if |s.cols| > 0 {
      var own := seq(|s.cols|, i requires 0 <= i < |s.cols| => Column(Some(ColName(sid, i)), None));
      SpanSingles(own);
      var tail: seq<Column> := if DefaultFills(s) then [Column(Some(DefaultColName(sid)), Some(s.colCount - |s.cols|))] else [];
      SpanAppend(own, tail);
      if DefaultFills(s) {
        assert Span(tail) == s.colCount - |s.cols| + Span(tail[1..]);
      }
    }
  }

  /** Every column style a sheet's table refers to is one the automatic styles declare. */
  predicate ColumnStyleName(s: Sheet, sid: nat, name: string) {
    (exists i :: 0 <= i < |s.cols| && name == ColName(sid, i))
    || (DefaultFills(s) && name == DefaultColName(sid))
  }

  lemma ColumnsNamed(s: Sheet, sid: nat, k: nat)
    requires k < |Columns(s, sid)| && Columns(s, sid)[k].style.Some?
    ensures ColumnStyleName(s, sid, Columns(s, sid)[k].style.value)
  {
    if k < |s.cols| {
      assert Columns(s, sid)[k].style.value == ColName(sid, k);
    }
  }

  // ---------------------------------------------------------------------------------
  // Tables

  /**
   * One `<table:table>` of `fileSheet`: the sheet's name, its columns, its header row and
   * its rows, walked with the inclusive column bound `printSheet` loops to.
   */
  function TableXml(s: Sheet, sid: nat, reg: Registry, def: Option<string>): (r: Result<string>)
    requires Valid(s)
    ensures r.Err? <==> !RowClassesKnown(s, reg, 0)
  {
    var scan := WalkSheet(s, Inclusive);
    WalkSheetScanned(s, Inclusive);
    assert forall i :: 0 <= i < |s.rows| ==> Sourced(s.rows[i], scan[i]) by {
      forall i | 0 <= i < |s.rows| ensures Sourced(s.rows[i], scan[i]) {
        WalkSourced(s.rows[i], scan[i]);
      }
    }
    var rows :- SheetRows(s, scan, reg, def, 0);
    Ok("      <table:table table:name=\"" + s.name + "\">\n" + ColumnsXml(Columns(s, sid)) + HeaderXml(s.headers)
      + Concat(seq(|rows|, i requires 0 <= i < |rows| => RowXml(rows[i]))) + "      </table:table>\n")
  }
}

=== FILE: odsstyles.dfy ===
/**
 * The OpenDocument styles of `ExporterOds`. This covers the properties `getStyle`,
 * `getStyleFont` and `getBorderStyle` write for a style, and the automatic styles of
 * `fileSheet`: column widths, row heights and one cell style per registered style. It
 * also covers the default cell style of `fileStyles`. Converted lengths are kept as
 * numbers. How PHP prints a float is left to the `show` parameter of the rendering
 * functions.
 */
module OdsStyles {
  import opened Wrappers
  import opened Text
  import opened Numeric
  import opened Sheets
  import opened Styles
  import opened Units
  import opened Workbook
  import opened Ods

  /** The unit style sizes are given in (`Exporter::UNITS`). */
  const Points := "pt"

  // ---------------------------------------------------------------------------------
  // Text properties

  /** An XML attribute: its name and its (already printable) value. */
  type Attr = (string, string)

  function AttrsXml(attrs: seq<Attr>): string {
    if |attrs| == 0 then "" else " " + attrs[0].0 + "=\"" + attrs[0].1 + "\"" + AttrsXml(attrs[1..])
  }

  /** The font size as written: a bare number gets the point unit. */
  function FontSize(size: string): string {
    if IsNumeric(size) then size + Points else size
  }

  /** One attribute set three times, for the western, asian and complex scripts. */
  function Scripts(western: string, asian: string, complex: string, v: Option<string>): seq<Attr> {
    if v.Some? then [(western, v.value), (asian, v.value), (complex, v.value)] else []
  }

  lemma ScriptsValue(w: string, a: string, c: string, v: Option<string>, other: string)
    ensures FirstValue(Scripts(w, a, c, v), w) == v
    ensures FirstValue(Scripts(w, a, c, v), a) == v
    ensures FirstValue(Scripts(w, a, c, v), c) == v
    ensures other != w && other != a && other != c ==> FirstValue(Scripts(w, a, c, v), other).None?
  {
    if v.Some? {
      var s := Scripts(w, a, c, v);
      var t := [(c, v.value)];
      assert s[1..] == [(a, v.value), (c, v.value)] && s[1..][1..] == t;
      assert FirstValue(t, c) == v;
      assert t[1..] == [];
      assert other != c ==> FirstValue(t, other).None?;
    }
  }

  /** The size value as `getStyleFont` writes it. */
  function SizeValue(f: Font): Option<string> {
    if f.size.Some? then Some(FontSize(f.size.value)) else None
  }

  /** The groups of `TextProps`, in order. */
  function Weight(f: Font): seq<Attr> {
    Scripts("fo:font-weight", "style:font-weight-asian", "style:font-weight-complex", f.weight)
  }

  function Size(f: Font): seq<Attr> {
    Scripts("fo:font-size", "style:font-size-asian", "style:font-size-complex", SizeValue(f))
  }

  function Family(f: Font): seq<Attr> {
    Scripts("style:font-name", "style:font-name-asian", "style:font-name-complex", f.family)
  }

  /**
   * `getStyleFont`'s `<style:text-properties>`: colour, weight, size, family and background,
   * each written only when its key is set, in this order.
   */
  function TextProps(f: Font): seq<Attr> {
    Entry("fo:color", f.color) + (Weight(f) + (Size(f) + (Family(f) + Entry("fo:background-color", f.background))))
  }

  lemma ColorIsNoScript()
    ensures "fo:color" != "fo:font-weight" && "fo:color" != "fo:font-size"
  {
    assert "fo:color"[3] == 'c';
  }

  /** The colour comes first, under `fo:color`. */
  lemma TextColor(f: Font)
    ensures FirstValue(TextProps(f), "fo:color") == f.color
  {
    var rest := Weight(f) + (Size(f) + (Family(f) + Entry("fo:background-color", f.background)));
    FirstValueAppend(Entry("fo:color", f.color), rest, "fo:color");
    if f.color.None? {
      ColorIsNoScript();
      ScriptsValue("fo:font-weight", "style:font-weight-asian", "style:font-weight-complex", f.weight, "fo:color");
      FirstValueAppend(Weight(f), Size(f) + (Family(f) + Entry("fo:background-color", f.background)), "fo:color");
      ScriptsValue("fo:font-size", "style:font-size-asian", "style:font-size-complex", SizeValue(f), "fo:color");
      FirstValueAppend(Size(f), Family(f) + Entry("fo:background-color", f.background), "fo:color");
      ScriptsValue("style:font-name", "style:font-name-asian", "style:font-name-complex", f.family, "fo:color");
      FirstValueAppend(Family(f), Entry("fo:background-color", f.background), "fo:color");
      EntryValue("fo:background-color", f.background, "fo:color");
    }
  }

  /** The weight is written under its three names. */
  lemma TextWeight(f: Font, name: string)
    requires name in {"fo:font-weight", "style:font-weight-asian", "style:font-weight-complex"}
    ensures FirstValue(TextProps(f), name) == f.weight
  {
    var rest := Size(f) + (Family(f) + Entry("fo:background-color", f.background));
    EntryValue("fo:color", f.color, name);
    FirstValueAppend(Entry("fo:color", f.color), Weight(f) + rest, name);
    ScriptsValue("fo:font-weight", "style:font-weight-asian", "style:font-weight-complex", f.weight, name);
    FirstValueAppend(Weight(f), rest, name);
    if f.weight.None? {
      ScriptsValue("fo:font-size", "style:font-size-asian", "style:font-size-complex", SizeValue(f), name);
      FirstValueAppend(Size(f), Family(f) + Entry("fo:background-color", f.background), name);
      ScriptsValue("style:font-name", "style:font-name-asian", "style:font-name-complex", f.family, name);
      FirstValueAppend(Family(f), Entry("fo:background-color", f.background), name);
      EntryValue("fo:background-color", f.background, name);
    }
  }

  /** The size is written under its three names, a bare number with the point unit. */
  lemma TextSize(f: Font, name: string)
    requires name in {"fo:font-size", "style:font-size-asian", "style:font-size-complex"}
    ensures FirstValue(TextProps(f), name) == SizeValue(f)
  {
    var rest := Family(f) + Entry("fo:background-color", f.background);
    EntryValue("fo:color", f.color, name);
    FirstValueAppend(Entry("fo:color", f.color), Weight(f) + (Size(f) + rest), name);
    ScriptsValue("fo:font-weight", "style:font-weight-asian", "style:font-weight-complex", f.weight, name);
    FirstValueAppend(Weight(f), Size(f) + rest, name);
    ScriptsValue("fo:font-size", "style:font-size-asian", "style:font-size-complex", SizeValue(f), name);
    FirstValueAppend(Size(f), rest, name);
    if f.size.None? {
      ScriptsValue("style:font-name", "style:font-name-asian", "style:font-name-complex", f.family, name);
      FirstValueAppend(Family(f), Entry("fo:background-color", f.background), name);
      EntryValue("fo:background-color", f.background, name);
    }
  }

  /** The family is written under its three names. */
  lemma TextFamily(f: Font, name: string)
    requires name in {"style:font-name", "style:font-name-asian", "style:font-name-complex"}
    ensures FirstValue(TextProps(f), name) == f.family
  {
    var b := Entry("fo:background-color", f.background);
    EntryValue("fo:color", f.color, name);
    FirstValueAppend(Entry("fo:color", f.color), Weight(f) + (Size(f) + (Family(f) + b)), name);
    ScriptsValue("fo:font-weight", "style:font-weight-asian", "style:font-weight-complex", f.weight, name);
    FirstValueAppend(Weight(f), Size(f) + (Family(f) + b), name);
    ScriptsValue("fo:font-size", "style:font-size-asian", "style:font-size-complex", SizeValue(f), name);
    FirstValueAppend(Size(f), Family(f) + b, name);
    ScriptsValue("style:font-name", "style:font-name-asian", "style:font-name-complex", f.family, name);
    FirstValueAppend(Family(f), b, name);
    EntryValue("fo:background-color", f.background, name);
  }

  /** The background comes last, under `fo:background-color`. */
  lemma TextBackground(f: Font)
    ensures FirstValue(TextProps(f), "fo:background-color") == f.background
  {
    var name := "fo:background-color";
    var b := Entry(name, f.background);
    EntryValue("fo:color", f.color, name);
    FirstValueAppend(Entry("fo:color", f.color), Weight(f) + (Size(f) + (Family(f) + b)), name);
    ScriptsValue("fo:font-weight", "style:font-weight-asian", "style:font-weight-complex", f.weight, name);
    FirstValueAppend(Weight(f), Size(f) + (Family(f) + b), name);
    ScriptsValue("fo:font-size", "style:font-size-asian", "style:font-size-complex", SizeValue(f), name);
    FirstValueAppend(Size(f), Family(f) + b, name);
    ScriptsValue("style:font-name", "style:font-name-asian", "style:font-name-complex", f.family, name);
    FirstValueAppend(Family(f), b, name);
    EntryValue(name, f.background, name);
  }

  /**
   * A bare number as font size is written in points, and the written size reads back in
   * points as that number; a size that is not a bare number is kept as given.
   */
  lemma FontSizeUnit(size: string)
    ensures IsNumeric(size) ==> FontSize(size) == size + "pt"
    ensures IsNumeric(size) ==> ConvertSize(FontSize(size), Points, None) == Ok(LeadingValue(size))
    ensures !IsNumeric(size) ==> FontSize(size) == size
  {
    if IsNumeric(size) {
      SuffixedByOutput(size, Points, Points, None);
    }
  }

  // ---------------------------------------------------------------------------------
  // Alignment

  /** `pat` occurs at the start of `s`, ignoring letter case. */
  predicate StartsCI(s: string, pat: string) {
    |pat| <= |s| && Upper(s[..|pat|]) == Upper(pat)
  }

  /**
   * `str_ireplace` with one pattern: every case-insensitive occurrence of `pat`, scanned
   * left to right without overlaps, is replaced by `rep`.
   */
  function ReplaceCI(s: string, pat: string, rep: string): string
    requires |pat| > 0
    decreases |s|
  {
    if |s| == 0 then ""
    else if StartsCI(s, pat) then rep + ReplaceCI(s[|pat|..], pat, rep)
    else [s[0]] + ReplaceCI(s[1..], pat, rep)
  }

  /** `pat` occurs nowhere in `s`, ignoring letter case. */
  predicate NoOccurrence(s: string, pat: string) {
    forall i :: 0 <= i < |s| ==> !StartsCI(s[i..], pat)
  }

  /** Text without the pattern is left as it is. */
  lemma {:induction false} ReplaceAbsent(s: string, pat: string, rep: string)
    requires |pat| > 0 && NoOccurrence(s, pat)
    ensures ReplaceCI(s, pat, rep) == s
    decreases |s|
  {
    if |s| > 0 {
      assert s[0..] == s;
      assert NoOccurrence(s[1..], pat) by {
        forall i | 0 <= i < |s[1..]| ensures !StartsCI(s[1..][i..], pat) {
          assert s[1..][i..] == s[i + 1..];
        }
      }
      ReplaceAbsent(s[1..], pat, rep);
      assert [s[0]] + s[1..] == s;
    }
  }

  /** The text as a whole matches the pattern: it is replaced once. */
  lemma ReplaceWhole(s: string, pat: string, rep: string)
    requires |pat| > 0 && |s| == |pat| && Upper(s) == Upper(pat)
    ensures ReplaceCI(s, pat, rep) == rep
  {
    assert s[..|pat|] == s;
    assert s[|pat|..] == "";
  }

  /**
   * `str_ireplace(['left','right'], ['start','end'], ...)`: the pairs applied in turn, so
   * `left` and `right` in any letter case become `start` and `end`, and an alignment that
   * mentions neither side is written as given.
   */
  function TextAlign(a: string): (r: string)
    ensures |a| == 4 && Upper(a) == "LEFT" ==> r == "start"
    ensures |a| == 5 && Upper(a) == "RIGHT" ==> r == "end"
    ensures NoOccurrence(a, "left") && NoOccurrence(a, "right") ==> r == a
  {
    AlignCases(a);
    ReplaceCI(ReplaceCI(a, "left", "start"), "right", "end")
  }

  lemma AlignCases(a: string)
    ensures |a| == 4 && Upper(a) == "LEFT" ==> ReplaceCI(ReplaceCI(a, "left", "start"), "right", "end") == "start"
    ensures |a| == 5 && Upper(a) == "RIGHT" ==> ReplaceCI(ReplaceCI(a, "left", "start"), "right", "end") == "end"
    ensures NoOccurrence(a, "left") && NoOccurrence(a, "right") ==> ReplaceCI(ReplaceCI(a, "left", "start"), "right", "end") == a
  {
    if |a| == 4 && Upper(a) == "LEFT" {
      LeftToStart(a);
    }
    if |a| == 5 && Upper(a) == "RIGHT" {
      RightToEnd(a);
    }
    if NoOccurrence(a, "left") && NoOccurrence(a, "right") {
      NeitherSideKept(a);
    }
  }

  /** Text shorter than the pattern is left as it is. */
  lemma {:induction false} ReplaceShort(s: string, pat: string, rep: string)
    requires 0 < |pat| && |s| < |pat|
    ensures ReplaceCI(s, pat, rep) == s
    decreases |s|
  {
    if |s| > 0 {
      ReplaceShort(s[1..], pat, rep);
      assert [s[0]] + s[1..] == s;
    }
  }

  lemma ReplaceSkip(s: string, pat: string, rep: string)
    requires 0 < |pat| && 0 < |s| && !StartsCI(s, pat)
    ensures ReplaceCI(s, pat, rep) == [s[0]] + ReplaceCI(s[1..], pat, rep)
  {
  }

  /** A first character that differs, ignoring case, rules out a match. */
  lemma NoStart(s: string, pat: string)
    requires 0 < |pat| <= |s| && UpperChar(s[0]) != UpperChar(pat[0])
    ensures !StartsCI(s, pat)
  {
    assert Upper(s[..|pat|])[0] == UpperChar(s[0]);
  }

  lemma NeitherSideKept(a: string)
    requires NoOccurrence(a, "left") && NoOccurrence(a, "right")
    ensures ReplaceCI(ReplaceCI(a, "left", "start"), "right", "end") == a
  {
    ReplaceAbsent(a, "left", "start");
    ReplaceAbsent(a, "right", "end");
  }

  lemma LeftToStart(a: string)
    requires |a| == 4 && Upper(a) == "LEFT"
    ensures ReplaceCI(ReplaceCI(a, "left", "start"), "right", "end") == "start"
  {
    UpperLeft();
    ReplaceWhole(a, "left", "start");
    var t := "start";
    NoStart(t, "right");
    ReplaceShort(t[1..], "right", "end");
    assert [t[0]] + t[1..] == t;
  }

  lemma RightToEnd(a: string)
    requires |a| == 5 && Upper(a) == "RIGHT"
    ensures ReplaceCI(ReplaceCI(a, "left", "start"), "right", "end") == "end"
  {
    NoLeftInRight(a);
    UpperLeft();
    ReplaceWhole(a, "right", "end");
  }

  lemma NoLeftInRight(a: string)
    requires |a| == 5 && Upper(a) == "RIGHT"
    ensures ReplaceCI(a, "left", "start") == a
  {
    var l := "left";
    assert UpperChar(l[0]) == 'L';
    assert UpperChar(a[0]) == Upper(a)[0] == 'R';
    assert UpperChar(a[1]) == Upper(a)[1] == 'I';
    NoStart(a, l);
    NoStart(a[1..], l);
    ReplaceNear(a, l, "start");
  }

  /** Text one character longer than the pattern, matching at neither place, is left alone. */
  lemma ReplaceNear(s: string, pat: string, rep: string)
    requires 0 < |pat| && |s| == |pat| + 1 && !StartsCI(s, pat) && !StartsCI(s[1..], pat)
    ensures ReplaceCI(s, pat, rep) == s
  {
    var b := s[1..];
    ReplaceShort(b[1..], pat, rep);
    ReplaceSkip(b, pat, rep);
    ReplaceSkip(s, pat, rep);
    assert [b[0]] + b[1..] == b;
    assert [s[0]] + b == s;
  }

  lemma UpperLeft()
    ensures Upper("left") == "LEFT" && Upper("right") == "RIGHT"
  {
  }

  // ---------------------------------------------------------------------------------
  // Borders

  /** A border as `getBorderStyle` writes it: the side (none for all four), width in points, style, colour. */
  datatype Border = Border(side: Option<SideKey>, width: Option<real>, style: string, color: string)

  /** `getBorderStyle`: the width converted to points, the style defaulting to `solid`, the colour to black. */
  function BorderOf(s: Side, side: Option<SideKey>): (r: Result<Border>)
    ensures r.Err? <==> s.width.Some? && ConvertSize(s.width.value, Points, None).Err?
    ensures r.Ok? ==> r.value.side == side && r.value.style == s.style.GetOr("solid") && r.value.color == s.color.GetOr(DefaultColor)
    ensures r.Ok? ==> (r.value.width.Some? <==> s.width.Some?)
    ensures r.Ok? && s.width.Some? ==> ConvertSize(s.width.value, Points, None) == Ok(r.value.width.value)
  {
    if s.width.Some? then
      var w :- ConvertSize(s.width.value, Points, None);
      Ok(Border(side, Some(w), s.style.GetOr("solid"), s.color.GetOr(DefaultColor)))
    else Ok(Border(side, None, s.style.GetOr("solid"), s.color.GetOr(DefaultColor)))
  }

  /** The sides among `ks` the cell gives a non-empty description for, in the order of `ks`. */
  function SidesFrom(c: CellStyle, ks: seq<SideKey>): seq<(Side, Option<SideKey>)> {
    if |ks| == 0 then []
    else if ks[0] in c.sides && !c.sides[ks[0]].IsEmpty() then [(c.sides[ks[0]], Some(ks[0]))] + SidesFrom(c, ks[1..])
    else SidesFrom(c, ks[1..])
  }

  /** The borders a cell style writes: the flat form once, else every given side. */
  function BorderSides(c: CellStyle): seq<(Side, Option<SideKey>)> {
    if c.HasFlat() then [(c.flat, None)] else SidesFrom(c, SideOrder)
  }

  /** Position of a side in the visiting order. */
  function SideRank(k: SideKey): nat {
    match k
    case Left => 0
    case Right => 1
    case Top => 2
    case Bottom => 3
  }

  /** Every side listed is one of `ks` that the cell describes, with its description. */
  lemma {:induction false} SidesFromSound(c: CellStyle, ks: seq<SideKey>)
    ensures forall i :: 0 <= i < |SidesFrom(c, ks)| ==>
      var p := SidesFrom(c, ks)[i];
      p.1.Some? && p.1.value in c.sides && p.0 == c.sides[p.1.value] && !p.0.IsEmpty() && p.1.value in ks
    decreases |ks|
  {
    if |ks| > 0 {
      var rest := SidesFrom(c, ks[1..]);
      SidesFromSound(c, ks[1..]);
      var out := SidesFrom(c, ks);
      forall i | 0 <= i < |out|
        ensures out[i].1.Some? && out[i].1.value in c.sides && out[i].0 == c.sides[out[i].1.value]
        ensures !out[i].0.IsEmpty() && out[i].1.value in ks
      {
        var j := if ks[0] in c.sides && !c.sides[ks[0]].IsEmpty() then i - 1 else i;
        if j >= 0 {
          assert out[i] == rest[j];
          var m :| 0 <= m < |ks[1..]| && ks[1..][m] == rest[j].1.value;
          assert ks[m + 1] == out[i].1.value;
        }
      }
    }
  }

  /** Every side of `ks` that the cell describes is listed. */
  lemma {:induction false} SidesFromComplete(c: CellStyle, ks: seq<SideKey>, k: SideKey)
    requires k in ks && k in c.sides && !c.sides[k].IsEmpty()
    ensures exists i :: 0 <= i < |SidesFrom(c, ks)| && SidesFrom(c, ks)[i].1 == Some(k)
    decreases |ks|
  {
    var out := SidesFrom(c, ks);
    var rest := SidesFrom(c, ks[1..]);
    var here := ks[0] in c.sides && !c.sides[ks[0]].IsEmpty();
    if k == ks[0] {
      assert out[0].1 == Some(k);
    } else {
      var m :| 0 <= m < |ks| && ks[m] == k;
      assert m > 0 && ks[1..][m - 1] == k;
      SidesFromComplete(c, ks[1..], k);
      var i :| 0 <= i < |rest| && rest[i].1 == Some(k);
      if here {
        assert out[i + 1] == rest[i];
      } else {
        assert out[i] == rest[i];
      }
    }
  }

  /** Listed sides keep the order of `ks`. */
  lemma {:induction false} SidesFromOrdered(c: CellStyle, ks: seq<SideKey>)
    requires forall i, j :: 0 <= i < j < |ks| ==> SideRank(ks[i]) < SideRank(ks[j])
    ensures forall i :: 0 <= i < |SidesFrom(c, ks)| ==> SidesFrom(c, ks)[i].1.Some?
    ensures forall i, j :: 0 <= i < j < |SidesFrom(c, ks)| ==>
      SideRank(SidesFrom(c, ks)[i].1.value) < SideRank(SidesFrom(c, ks)[j].1.value)
    decreases |ks|
  {
    SidesFromSound(c, ks);
    if |ks| > 0 {
      var rest := SidesFrom(c, ks[1..]);
      SidesFromOrdered(c, ks[1..]);
      SidesFromSound(c, ks[1..]);
      var out := SidesFrom(c, ks);
      if ks[0] in c.sides && !c.sides[ks[0]].IsEmpty() {
        forall i, j | 0 <= i < j < |out| ensures SideRank(out[i].1.value) < SideRank(out[j].1.value) {
          assert out[j] == rest[j - 1];
          if i > 0 {
            assert out[i] == rest[i - 1];
          } else {
            var m :| 0 <= m < |ks[1..]| && ks[1..][m] == rest[j - 1].1.value;
            assert ks[m + 1] == out[j].1.value;
          }
        }
      }
    }
  }

  lemma SideOrderRanked()
    ensures forall i, j :: 0 <= i < j < |SideOrder| ==> SideRank(SideOrder[i]) < SideRank(SideOrder[j])
    ensures forall k: SideKey :: k in SideOrder
  {
    forall k: SideKey ensures k in SideOrder {
      assert SideOrder[SideRank(k)] == k;
    }
  }

  /**
   * A flat border is written once for all four sides; otherwise each side the cell
   * describes is written exactly once, left, right, top, bottom, and no other.
   */
  lemma BorderSidesSpec(c: CellStyle)
    ensures c.HasFlat() ==> BorderSides(c) == [(c.flat, None)]
    ensures !c.HasFlat() ==> forall k: SideKey ::
      (k in c.sides && !c.sides[k].IsEmpty()) <==> exists i :: 0 <= i < |BorderSides(c)| && BorderSides(c)[i].1 == Some(k)
    ensures !c.HasFlat() ==> forall i :: 0 <= i < |BorderSides(c)| ==>
      var p := BorderSides(c)[i]; p.1.Some? && p.1.value in c.sides && p.0 == c.sides[p.1.value]
    ensures !c.HasFlat() ==> forall i, j :: 0 <= i < j < |BorderSides(c)| ==>
      SideRank(BorderSides(c)[i].1.value) < SideRank(BorderSides(c)[j].1.value)
  {
    if !c.HasFlat() {
      SideOrderRanked();
      SidesFromSound(c, SideOrder);
      SidesFromOrdered(c, SideOrder);
      var bs := BorderSides(c);
      forall k: SideKey ensures (k in c.sides && !c.sides[k].IsEmpty()) <==> exists i :: 0 <= i < |bs| && bs[i].1 == Some(k) {
        if exists i :: 0 <= i < |bs| && bs[i].1 == Some(k) {
          var i :| 0 <= i < |bs| && bs[i].1 == Some(k);
          assert bs[i].1.value == k;
        }
        if k in c.sides && !c.sides[k].IsEmpty() {
          SidesFromComplete(c, SideOrder, k);
        }
      }
    }
  }

  /** Every side converted, the first failing width stopping the export. */
  function Borders(list: seq<(Side, Option<SideKey>)>): (r: Result<seq<Border>>)
    ensures r.Err? <==> exists i :: 0 <= i < |list| && BorderOf(list[i].0, list[i].1).Err?
    ensures r.Ok? ==> |r.value| == |list| && forall i :: 0 <= i < |list| ==> BorderOf(list[i].0, list[i].1) == Ok(r.value[i])
  {
    if |list| == 0 then Ok([])
    else
      var b := BorderOf(list[0].0, list[0].1);
      if b.Err? then Err(b.error)
      else
        var rest := Borders(list[1..]);
        if rest.Err? then
          assert exists i :: 0 <= i < |list[1..]| && BorderOf(list[1..][i].0, list[1..][i].1).Err?;
          Err(rest.error)
        else
          assert forall i :: 1 <= i < |list| ==> list[i] == list[1..][i - 1];
          Ok([b.value] + rest.value)
  }

  function BorderXml(b: Border, show: real -> string): string {
    " fo:border" + (if b.side.Some? then "-" + SideName(b.side.value) else "") + "= \""
    + (if b.width.Some? then show(b.width.value) + Points + " " else "")
    + b.style + " " + b.color + "\""
  }

  function BordersXml(bs: seq<Border>, show: real -> string): string {
    if |bs| == 0 then "" else BorderXml(bs[0], show) + BordersXml(bs[1..], show)
  }

  // ---------------------------------------------------------------------------------
  // Whole styles

  /** What `getStyle` writes for a style, with every length converted. */
  datatype Props = Props(text: seq<Attr>, align: Option<string>, background: Option<string>, borders: seq<Border>)

  /**
   * `getStyle`: the text properties (always, the FONT array being always set), the
   * paragraph alignment when ALIGN is set, and the cell properties with the background
   * and the borders; a border width that cannot be converted stops the export.
   */
  function StyleProps(st: Style): (r: Result<Props>)
    ensures r.Err? <==> exists i :: 0 <= i < |BorderSides(st.cell)| && BorderOf(BorderSides(st.cell)[i].0, BorderSides(st.cell)[i].1).Err?
    ensures r.Ok? ==> r.value.text == TextProps(st.font) && r.value.background == st.cell.background
    ensures r.Ok? ==> (r.value.align.Some? <==> st.font.align.Some?)
    ensures r.Ok? && st.font.align.Some? ==> r.value.align.value == TextAlign(st.font.align.value)
    ensures r.Ok? ==> |r.value.borders| == |BorderSides(st.cell)|
    ensures r.Ok? ==> Borders(BorderSides(st.cell)) == Ok(r.value.borders)
  {
    var bs :- Borders(BorderSides(st.cell));
    Ok(Props(TextProps(st.font), if st.font.align.Some? then Some(TextAlign(st.font.align.value)) else None, st.cell.background, bs))
  }

  /** Each written border is `getBorder` of the side listed at its position. */
  lemma StylePropsBorders(st: Style, i: nat)
    requires StyleProps(st).Ok? && i < |BorderSides(st.cell)|
    ensures i < |StyleProps(st).value.borders|
    ensures BorderOf(BorderSides(st.cell)[i].0, BorderSides(st.cell)[i].1) == Ok(StyleProps(st).value.borders[i])
  {
  }

  function PropsXml(p: Props, show: real -> string): string {
    "      <style:text-properties" + AttrsXml(p.text) + " />\n"
    + (if p.align.Some? then "      <style:paragraph-properties fo:text-align=\"" + p.align.value + "\" />\n" else "")
    + "      <style:table-cell-properties"
    + (if p.background.Some? then " fo:background-color=\"" + p.background.value + "\"" else "")
    + BordersXml(p.borders, show) + " />\n"
  }

  // ---------------------------------------------------------------------------------
  // Automatic styles

  /** A declaration of `<office:automatic-styles>`. */
  datatype Decl =
    | ColumnDecl(name: string, width: real)
    | RowDecl(name: string, height: real)
    | CellDecl(name: string, props: Props)
  {
    function Name(): string {
      match this
      case ColumnDecl(n, _) => n
      case RowDecl(n, _) => n
      case CellDecl(n, _) => n
    }
  }

  function DeclXml(d: Decl, show: real -> string): string {
    match d
    case ColumnDecl(n, w) =>
      "    <style:style style:name=\"" + n + "\" style:family=\"table-column\">\n"
      + "      <style:table-column-properties fo:break-before=\"auto\" style:column-width=\"" + show(w) + "mm\" />\n"
      + "    </style:style>\n"
    case RowDecl(n, h) =>
      "    <style:style style:name=\"" + n + "\" style:family=\"table-row\">\n"
      + "      <style:table-row-properties style:row-height=\"" + show(h) + "mm\" />\n"
      + "    </style:style>\n"
    case CellDecl(n, p) =>
      "    <style:style style:name=\"" + n + "\" style:family=\"table-cell\">\n" + PropsXml(p, show) + "    </style:style>\n"
  }

  /** A length in points converted to millimetres. */
  function ToMm(v: string): Result<real> {
    ConvertSize(v, Points, Some("mm"))
  }

  /** Names declared by a list of declarations. */
  predicate Declares(ds: seq<Decl>, name: string) {
    exists i :: 0 <= i < |ds| && ds[i].Name() == name
  }

  lemma DeclaresAppend(a: seq<Decl>, b: seq<Decl>, name: string)
    ensures Declares(a + b, name) <==> Declares(a, name) || Declares(b, name)
  {
    if Declares(a, name) {
      var i :| 0 <= i < |a| && a[i].Name() == name;
      assert (a + b)[i] == a[i];
    }
    if Declares(b, name) {
      var i :| 0 <= i < |b| && b[i].Name() == name;
      assert (a + b)[|a| + i] == b[i];
    }
  }

  lemma DeclaresCons(d: Decl, rest: seq<Decl>)
    ensures forall name :: Declares([d] + rest, name) <==> d.Name() == name || Declares(rest, name)
  {
    forall name ensures Declares([d] + rest, name) <==> d.Name() == name || Declares(rest, name) {
      DeclaresAppend([d], rest, name);
      assert [d][0] == d;
    }
  }

  lemma WidthDeclsStep(d: Decl, rest: seq<Decl>, n: nat, sid: nat, i: nat)
    requires d.Name() == ColName(sid, i)
    requires forall k :: i + 1 <= k < n ==> Declares(rest, ColName(sid, k))
    ensures forall k :: i <= k < n ==> Declares([d] + rest, ColName(sid, k))
  {
    DeclaresCons(d, rest);
  }

  /** The width declarations of the sheet's own widths, from index `i` on. */
  function WidthDecls(cols: seq<string>, sid: nat, i: nat): (r: Result<seq<Decl>>)
    requires i <= |cols|
    ensures r.Ok? ==> forall k :: i <= k < |cols| ==> Declares(r.value, ColName(sid, k))
    decreases |cols| - i
  {
    if i == |cols| then Ok([])
    else
      var w :- ToMm(cols[i]);
      var rest :- WidthDecls(cols, sid, i + 1);
      WidthDeclsStep(ColumnDecl(ColName(sid, i), w), rest, |cols|, sid, i);
      Ok([ColumnDecl(ColName(sid, i), w)] + rest)
  }

  /** `printColStyles` for one sheet: a style per own width and one for the default width. */
  function SheetColumnDecls(s: Sheet, sid: nat): (r: Result<seq<Decl>>)
    ensures r.Ok? ==> forall name :: ColumnStyleName(s, sid, name) ==> Declares(r.value, name)
  {
    var own :- WidthDecls(s.cols, sid, 0);
    if DefaultFills(s) then
      var w :- ToMm(s.colDefault.value);
      var out := own + [ColumnDecl(DefaultColName(sid), w)];
      assert forall name :: ColumnStyleName(s, sid, name) ==> Declares(out, name) by {
        forall name | ColumnStyleName(s, sid, name) ensures Declares(out, name) {
          DeclaresAppend(own, [ColumnDecl(DefaultColName(sid), w)], name);
          if !DefaultFills(s) || name != DefaultColName(sid) {
            var k :| 0 <= k < |s.cols| && name == ColName(sid, k);
          } else {
            assert out[|own|].Name() == name;
          }
        }
      }
      Ok(out)
    else
      assert forall name :: ColumnStyleName(s, sid, name) ==> Declares(own, name) by {
        forall name | ColumnStyleName(s, sid, name) ensures Declares(own, name) {
          var k :| 0 <= k < |s.cols| && name == ColName(sid, k);
        }
      }
      Ok(own)
  }

  /** The column styles of every sheet from index `sid` on. */
  function ColumnDecls(sheets: seq<Sheet>, sid: nat): (r: Result<seq<Decl>>)
    requires sid <= |sheets|
    ensures r.Ok? ==> forall k, name :: sid <= k < |sheets| && ColumnStyleName(sheets[k], k, name) ==> Declares(r.value, name)
    decreases |sheets| - sid
  {
    if sid == |sheets| then Ok([])
    else
      var own :- SheetColumnDecls(sheets[sid], sid);
      var rest :- ColumnDecls(sheets, sid + 1);
      assert forall k, name :: sid <= k < |sheets| && ColumnStyleName(sheets[k], k, name) ==> Declares(own + rest, name) by {
        forall k, name | sid <= k < |sheets| && ColumnStyleName(sheets[k], k, name) ensures Declares(own + rest, name) {
          DeclaresAppend(own, rest, name);
        }
      }
      Ok(own + rest)
  }

  /** The `rdef` row style, declared when the default style has a height. */
  function DefaultRowDecl(d: Option<Style>): (r: Result<seq<Decl>>)
    ensures r.Ok? && DefHeight(d).Some? ==> Declares(r.value, DefHeight(d).value)
  {
    if d.Some? && d.value.HasHeight() then
      var h :- ToMm(IntToString(d.value.height.value));
      assert [RowDecl("rdef", h)][0].Name() == "rdef";
      Ok([RowDecl("rdef", h)])
    else Ok([])
  }

  /** The `ro_` row style of a registered style with a height. */
  function RowHeightDecl(mark: string, st: Style): (r: Result<seq<Decl>>)
    ensures r.Err? <==> st.HasHeight() && ToMm(IntToString(st.height.value)).Err?
    ensures r.Ok? ==> (|r.value| == 1 <==> st.HasHeight()) && |r.value| <= 1
    ensures r.Ok? && st.HasHeight() ==> r.value[0] == RowDecl("ro_" + mark, ToMm(IntToString(st.height.value)).value)
  {
    if st.HasHeight() then
      var h :- ToMm(IntToString(st.height.value));
      Ok([RowDecl("ro_" + mark, h)])
    else Ok([])
  }

  /** A registered style whose properties or height cannot be converted. */
  predicate DeclFails(st: Style) {
    StyleProps(st).Err? || (st.HasHeight() && ToMm(IntToString(st.height.value)).Err?)
  }

  /** The `tc_` cell style a registered style declares. */
  function CellDeclOf(mark: string, st: Style): Decl
    requires StyleProps(st).Ok?
  {
    CellDecl("tc_" + mark, StyleProps(st).value)
  }

  /** The `ro_` row style a registered style with a height declares. */
  function RowDeclOf(mark: string, st: Style): Decl
    requires st.HasHeight() && ToMm(IntToString(st.height.value)).Ok?
  {
    RowDecl("ro_" + mark, ToMm(IntToString(st.height.value)).value)
  }

  /** The declarations of one registered style: its `tc_` cell style, then its `ro_` row style when it has a height. */
  function StyleDecls(mark: string, st: Style): (r: Result<seq<Decl>>)
    ensures r.Err? <==> DeclFails(st)
    ensures r.Ok? ==> |r.value| >= 1 && r.value[0] == CellDeclOf(mark, st)
    ensures r.Ok? && st.HasHeight() ==> |r.value| == 2 && r.value[1] == RowDeclOf(mark, st)
  {
    var p :- StyleProps(st);
    var row :- RowHeightDecl(mark, st);
    Ok([CellDecl("tc_" + mark, p)] + row)
  }

  /** The declarations of every entry of `reg` in order; the first entry that fails fails them all. */
  function CollectDecls(reg: Registry, decls: (string, Style) -> Result<seq<Decl>>): Result<seq<Decl>>
  {
    if |reg| == 0 then Ok([])
    else
      var head :- decls(reg[0].0, reg[0].1);
      var rest :- CollectDecls(reg[1..], decls);
      Ok(head + rest)
  }

  lemma {:induction false} CollectFails(reg: Registry, decls: (string, Style) -> Result<seq<Decl>>)
    ensures CollectDecls(reg, decls).Err? <==> exists i :: 0 <= i < |reg| && decls(reg[i].0, reg[i].1).Err?
  {
    if |reg| > 0 {
      CollectFails(reg[1..], decls);
      if exists i :: 0 <= i < |reg[1..]| && decls(reg[1..][i].0, reg[1..][i].1).Err? {
        var i :| 0 <= i < |reg[1..]| && decls(reg[1..][i].0, reg[1..][i].1).Err?;
        assert reg[1..][i] == reg[i + 1];
      }
      if exists i :: 0 <= i < |reg| && decls(reg[i].0, reg[i].1).Err? {
        var i :| 0 <= i < |reg| && decls(reg[i].0, reg[i].1).Err?;
        if i > 0 {
          assert reg[i] == reg[1..][i - 1];
        }
      }
    }
  }

  lemma {:induction false} CollectContains(reg: Registry, decls: (string, Style) -> Result<seq<Decl>>, i: nat, k: nat)
    requires CollectDecls(reg, decls).Ok? && i < |reg|
    ensures decls(reg[i].0, reg[i].1).Ok?
    ensures k < |decls(reg[i].0, reg[i].1).value| ==> decls(reg[i].0, reg[i].1).value[k] in CollectDecls(reg, decls).value
  {
    var head := decls(reg[0].0, reg[0].1).value;
    var rest := CollectDecls(reg[1..], decls).value;
    assert CollectDecls(reg, decls).value == head + rest;
    if i == 0 {
      if k < |head| {
        assert (head + rest)[k] == head[k];
      }
    } else {
      assert reg[i] == reg[1..][i - 1];
      CollectContains(reg[1..], decls, i - 1, k);
      if k < |decls(reg[i].0, reg[i].1).value| {
        var j :| 0 <= j < |rest| && rest[j] == decls(reg[i].0, reg[i].1).value[k];
        assert (head + rest)[|head| + j] == rest[j];
      }
    }
  }

  lemma DeclaresMember(ds: seq<Decl>, d: Decl)
    requires d in ds
    ensures Declares(ds, d.Name())
  {
    var j :| 0 <= j < |ds| && ds[j] == d;
  }

  /** What collecting `StyleDecls` over a registry declares, and when it fails. */
  lemma CollectStyleDecls(reg: Registry)
    ensures CollectDecls(reg, StyleDecls).Err? <==> exists i :: 0 <= i < |reg| && DeclFails(reg[i].1)
    ensures CollectDecls(reg, StyleDecls).Ok? ==> forall i :: 0 <= i < |reg| ==>
      !DeclFails(reg[i].1) && CellDeclOf(reg[i].0, reg[i].1) in CollectDecls(reg, StyleDecls).value
    ensures CollectDecls(reg, StyleDecls).Ok? ==> forall i :: 0 <= i < |reg| && reg[i].1.HasHeight() ==>
      RowDeclOf(reg[i].0, reg[i].1) in CollectDecls(reg, StyleDecls).value
  {
    CollectFails(reg, StyleDecls);
    assert forall i :: 0 <= i < |reg| ==> (StyleDecls(reg[i].0, reg[i].1).Err? <==> DeclFails(reg[i].1));
    var r := CollectDecls(reg, StyleDecls);
    if r.Ok? {
      forall i | 0 <= i < |reg|
        ensures !DeclFails(reg[i].1) && CellDeclOf(reg[i].0, reg[i].1) in r.value
        ensures reg[i].1.HasHeight() ==> RowDeclOf(reg[i].0, reg[i].1) in r.value
      {
        CollectContains(reg, StyleDecls, i, 0);
        CollectContains(reg, StyleDecls, i, 1);
      }
    }
  }

  /**
   * A `tc_` cell style per registered style, followed by its `ro_` row style when it has a
   * height; the whole fails when any registered style cannot be converted.
   */
  function RegistryDecls(reg: Registry): (r: Result<seq<Decl>>)
    ensures r.Err? <==> exists i :: 0 <= i < |reg| && DeclFails(reg[i].1)
    ensures r.Ok? ==> forall i :: 0 <= i < |reg| ==> !DeclFails(reg[i].1) && CellDeclOf(reg[i].0, reg[i].1) in r.value
    ensures r.Ok? ==> forall i :: 0 <= i < |reg| && reg[i].1.HasHeight() ==>
      !DeclFails(reg[i].1) && RowDeclOf(reg[i].0, reg[i].1) in r.value
    ensures r.Ok? ==> forall i :: 0 <= i < |reg| ==> Declares(r.value, "tc_" + reg[i].0)
    ensures r.Ok? ==> forall i :: 0 <= i < |reg| && reg[i].1.HasHeight() ==> Declares(r.value, "ro_" + reg[i].0)
  {
    var r := CollectDecls(reg, StyleDecls);
    CollectStyleDecls(reg);
    assert r.Ok? ==> forall i :: 0 <= i < |reg| ==> Declares(r.value, "tc_" + reg[i].0) by {
      if r.Ok? {
        forall i | 0 <= i < |reg| ensures Declares(r.value, "tc_" + reg[i].0) {
          DeclaresMember(r.value, CellDeclOf(reg[i].0, reg[i].1));
        }
      }
    }
    assert r.Ok? ==> forall i :: 0 <= i < |reg| && reg[i].1.HasHeight() ==> Declares(r.value, "ro_" + reg[i].0) by {
      if r.Ok? {
        forall i | 0 <= i < |reg| && reg[i].1.HasHeight() ensures Declares(r.value, "ro_" + reg[i].0) {
          DeclaresMember(r.value, RowDeclOf(reg[i].0, reg[i].1));
        }
      }
    }
    r
  }

  /**
   * `<office:automatic-styles>` of `fileSheet`: the column styles of every sheet, the
   * default row style, then the cell and row styles of the registry in order.
   */
  function AutoStyles(ex: Exporter): (r: Result<seq<Decl>>)
    ensures r.Ok? ==> forall k, name :: 0 <= k < |ex.sheets| && ColumnStyleName(ex.sheets[k], k, name) ==> Declares(r.value, name)
    ensures r.Ok? && DefHeight(ex.defaultStyle).Some? ==> Declares(r.value, "rdef")
    ensures r.Ok? ==> forall i :: 0 <= i < |ex.styles| ==> Declares(r.value, "tc_" + ex.styles[i].0)
    ensures r.Ok? ==> forall i :: 0 <= i < |ex.styles| && ex.styles[i].1.HasHeight() ==> Declares(r.value, "ro_" + ex.styles[i].0)
  {
    var cols :- ColumnDecls(ex.sheets, 0);
    var def :- DefaultRowDecl(ex.defaultStyle);
    var regs :- RegistryDecls(ex.styles);
    assert forall name :: Declares(cols + def + regs, name) <==> Declares(cols, name) || Declares(def, name) || Declares(regs, name) by {
      forall name ensures Declares(cols + def + regs, name) <==> Declares(cols, name) || Declares(def, name) || Declares(regs, name) {
        DeclaresAppend(cols, def, name);
        DeclaresAppend(cols + def, regs, name);
      }
    }
    Ok(cols + def + regs)
  }

  /**
   * Every row style a table row refers to is declared: `getRowHeight` names either a
   * registered style's `ro_` row style or the default `rdef`.
   */
  lemma RowStyleDeclared(ex: Exporter, cls: Option<string>, name: string)
    requires AutoStyles(ex).Ok?
    requires GetRowHeight(ex.styles, cls, DefHeight(ex.defaultStyle)) == Ok(Some(name))
    ensures Declares(AutoStyles(ex).value, name)
  {
    if TruthyOpt(cls) && Lookup(ex.styles, cls.value).Some? && Lookup(ex.styles, cls.value).value.HasHeight() {
      var i := IndexOf(ex.styles, cls.value).value;
      assert ex.styles[i].0 == cls.value && ex.styles[i].1 == Lookup(ex.styles, cls.value).value;
    }
  }

  /** Every column style a table refers to is declared. */
  lemma ColumnStyleDeclared(ex: Exporter, k: nat, j: nat)
    requires AutoStyles(ex).Ok? && k < |ex.sheets|
    requires j < |Columns(ex.sheets[k], k)| && Columns(ex.sheets[k], k)[j].style.Some?
    ensures Declares(AutoStyles(ex).value, Columns(ex.sheets[k], k)[j].style.value)
  {
    ColumnsNamed(ex.sheets[k], k, j);
  }

  /** Every cell whose class names a registered style refers to a declared cell style. */
  lemma CellStyleDeclared(ex: Exporter, c: Cell, rowClass: Option<string>)
    requires AutoStyles(ex).Ok? && c != Empty
    requires TruthyOpt(CellClass(c, rowClass)) && Lookup(ex.styles, CellClass(c, rowClass).value).Some?
    ensures CellValue(c, rowClass).style.Some?
    ensures Declares(AutoStyles(ex).value, "tc_" + CellValue(c, rowClass).style.value)
  {
    var i := IndexOf(ex.styles, CellClass(c, rowClass).value).value;
    assert ex.styles[i].0 == CellClass(c, rowClass).value;
  }

  /** The automatic styles as written. */
  function AutoStylesXml(ds: seq<Decl>, show: real -> string): string {
    if |ds| == 0 then "" else DeclXml(ds[0], show) + AutoStylesXml(ds[1..], show)
  }

  // ---------------------------------------------------------------------------------
  // Default style

  /** The black text colour `fileStyles` adds when the default style names no colour. */
  const BlackText := "      <style:text-properties fo:color=\"" + DefaultColor + "\" />\n"

  /**
   * The `Default` cell style of `fileStyles`: the default style's properties when one is
   * set, then black text when there is no default or its colour is not truthy.
   */
  function DefaultStyleXml(d: Option<Style>, show: real -> string): (r: Result<string>)
    ensures r.Err? <==> d.Some? && StyleProps(d.value).Err?
    ensures r.Ok? && d.None? ==> r.value == BlackText
    ensures r.Ok? && d.Some? ==>
      r.value == PropsXml(StyleProps(d.value).value, show) + (if TruthyOpt(d.value.font.color) then "" else BlackText)
  {
    var own :- if d.Some? then (var p :- StyleProps(d.value); Ok(PropsXml(p, show))) else Ok("");
    var black := d.None? || !TruthyOpt(d.value.font.color);
    var out := own + (if black then BlackText else "");
    assert black ==> out[|out| - |BlackText|..] == BlackText;
    Ok(out)
  }

  // ---------------------------------------------------------------------------------
  // Spreadsheet

  /** Some sheet from `sid` on has a truthy row class that names no registered style. */
  predicate SomeUnknown(ex: Exporter, sid: nat) {
    exists k :: sid <= k < |ex.sheets| && !RowClassesKnown(ex.sheets[k], ex.styles, 0)
  }

  lemma SomeUnknownStep(ex: Exporter, sid: nat)
    requires sid < |ex.sheets|
    ensures SomeUnknown(ex, sid) <==> !RowClassesKnown(ex.sheets[sid], ex.styles, 0) || SomeUnknown(ex, sid + 1)
  {
    if SomeUnknown(ex, sid) && RowClassesKnown(ex.sheets[sid], ex.styles, 0) {
      var k :| sid <= k < |ex.sheets| && !RowClassesKnown(ex.sheets[k], ex.styles, 0);
      assert sid + 1 <= k;
    }
  }

  lemma NoneUnknown(ex: Exporter)
    ensures !SomeUnknown(ex, 0) <==> forall k :: 0 <= k < |ex.sheets| ==> RowClassesKnown(ex.sheets[k], ex.styles, 0)
  {
  }

  /**
   * The body of `content.xml`: the automatic styles and one table per sheet, in order.
   * The export fails when a length cannot be converted or a row's class names no
   * registered style.
   */
  function Tables(ex: Exporter, sid: nat): (r: Result<string>)
    requires sid <= |ex.sheets|
    requires forall k :: 0 <= k < |ex.sheets| ==> Valid(ex.sheets[k])
    ensures r.Err? <==> SomeUnknown(ex, sid)
    decreases |ex.sheets| - sid
  {
    if sid == |ex.sheets| then Ok("")
    else
      var t := TableXml(ex.sheets[sid], sid, ex.styles, DefHeight(ex.defaultStyle));
      SomeUnknownStep(ex, sid);
      if t.Err? then Err(t.error)
      else
        var rest :- Tables(ex, sid + 1);
        Ok(t.value + rest)
  }

  function Content(ex: Exporter, show: real -> string): (r: Result<string>)
    requires forall k :: 0 <= k < |ex.sheets| ==> Valid(ex.sheets[k])
    ensures r.Ok? <==> AutoStyles(ex).Ok? && forall k :: 0 <= k < |ex.sheets| ==> RowClassesKnown(ex.sheets[k], ex.styles, 0)
  {
    var decls :- AutoStyles(ex);
    NoneUnknown(ex);
    var tables :- Tables(ex, 0);
    Ok("  <office:automatic-styles>\n" + AutoStylesXml(decls, show) + "  </office:automatic-styles>\n"
      + "  <office:body>\n    <office:spreadsheet>\n" + tables
      + "      <table:named-expressions/>\n    </office:spreadsheet>\n  </office:body>\n")
  }
}

=== FILE: sheet.dfy ===
/**
 * The format-neutral table (`Sheet`): headers, rows of cells, per-row style names,
 * column widths, and the running column count every backend uses as its loop bound.
 */
module Sheets {
  import opened Wrappers
  import opened Text
  import opened Numeric

  /** A strictly positive span length. */
  type pos = n: int | n >= 1 witness 1

  /** The characters PHP prints numbers with: digits, sign, point, exponent, `INF` and `NAN`. */
  predicate NumberChar(c: char) {
    IsDigit(c) || c == '-' || c == '+' || c == '.' || c == 'E' || c == 'I' || c == 'N' || c == 'F' || c == 'A'
  }

  /** The printed text of a PHP int or float. */
  type NumText = t: string | forall i :: 0 <= i < |t| ==> NumberChar(t[i]) witness "0"

  /** A PHP scalar cell value: a string, or an int/float carried by its printed text. */
  datatype Value = Str(s: string) | Num(text: NumText) {
    /** PHP's `is_numeric` on the value: always true for numbers. */
    predicate IsNumber() {
      Num? || IsNumeric(s)
    }

    /** The value as PHP's string conversion gives it. */
    function Text(): string {
      if Num? then text else s
    }
  }

  /**
   * One entry of a row: `null`, a bare scalar, or an array with the optional keys
   * VAL, ROWS, COLS, STYLE and FORMULA.
   */
  datatype Cell =
    | Empty
    | Scalar(v: Value)
    | Span(val: Option<Value>, rows: Option<pos>, cols: Option<pos>, style: Option<string>, formula: Option<string>)
  {
    /** The value shown for the cell; an array without VAL shows the empty string. */
    function Shown(): Value
      requires !Empty?
    {
      if Scalar? then v else val.GetOr(Str(""))
    }

    /** Number of rows the cell covers (`ROWS ?? 1`, used only when ROWS > 1). */
    function RowSpan(): pos {
      if Span? && rows.Some? then rows.value else 1
    }

    /** Number of columns the cell covers (`COLS ?? 1`). */
    function ColSpan(): pos {
      if Span? && cols.Some? then cols.value else 1
    }
  }

  /** The class a cell is written with (`STYLE ?? $class`): its own STYLE, else the row's. */
  function CellClass(c: Cell, rowClass: Option<string>): Option<string> {
    if c.Span? && c.style.Some? then c.style else rowClass
  }

  /** PHP truthiness of a string: everything but "" and "0". */
  predicate Truthy(s: string) {
    s != "" && s != "0"
  }

  /** Truthiness of an optional string (`null` is falsy). */
  predicate TruthyOpt(s: Option<string>) {
    s.Some? && Truthy(s.value)
  }

  datatype Sheet = Sheet(
    name: string,
    colCount: nat,
    colDefault: Option<string>,
    cols: seq<string>,
    headers: seq<string>,
    rows: seq<seq<Cell>>,
    styles: map<nat, string>)

  function Max(a: nat, b: nat): nat {
    if a < b then b else a
  }

  /**
   * The sheet invariant: `colCount` bounds every row and the header list, and styles
   * are recorded only for existing rows.
   */
  predicate Valid(s: Sheet) {
    |s.headers| <= s.colCount
    && (forall i :: 0 <= i < |s.rows| ==> |s.rows[i]| <= s.colCount)
    && (forall n :: n in s.styles ==> n < |s.rows|)
  }

  /** A new, empty sheet (the name is taken as already filtered). */
  function NewSheet(name: string): (s: Sheet)
    ensures Valid(s) && s.name == name && s.colCount == 0
    ensures s.rows == [] && s.headers == [] && s.cols == [] && s.colDefault == None
  {
    Sheet(name, 0, None, [], [], [], map[])
  }

  /** `addColHeader`: append one header; the column count grows to cover it. */
  function AddColHeader(s: Sheet, column: string): (r: Sheet)
    ensures r.headers == s.headers + [column]
    ensures r.colCount == Max(s.colCount, |s.headers| + 1)
    ensures r.rows == s.rows && r.styles == s.styles && r.cols == s.cols && r.colDefault == s.colDefault && r.name == s.name
    ensures Valid(s) ==> Valid(r)
  {
    var h := s.headers + [column];
    s.(headers := h, colCount := if |h| > s.colCount then |h| else s.colCount)
  }

  /** `setColHeaders`: replace the header list; the column count never shrinks. */
  function SetColHeaders(s: Sheet, headers: seq<string>): (r: Sheet)
    ensures r.headers == headers
    ensures r.colCount == Max(s.colCount, |headers|)
    ensures r.rows == s.rows && r.styles == s.styles && r.cols == s.cols && r.colDefault == s.colDefault && r.name == s.name
    ensures Valid(s) ==> Valid(r)
  {
    s.(headers := headers, colCount := if |headers| > s.colCount then |headers| else s.colCount)
  }

  /** `setColWidth`: replace the widths and the default width, nothing else. */
  function SetColWidth(s: Sheet, widths: seq<string>, default: Option<string>): (r: Sheet)
    ensures r.cols == widths && r.colDefault == default
    ensures r.colCount == s.colCount && r.headers == s.headers && r.rows == s.rows && r.styles == s.styles && r.name == s.name
    ensures Valid(s) ==> Valid(r)
  {
    s.(cols := widths, colDefault := default)
  }

  /** `getStyle`: the style recorded for row `n`, if any. */
  function GetStyle(s: Sheet, n: int): (r: Option<string>)
    ensures r.Some? <==> n >= 0 && n in s.styles
    ensures r.Some? ==> r.value == s.styles[n]
  {
    if n >= 0 && n in s.styles then Some(s.styles[n]) else None
  }

  /** `addRow`: append one row, and record its style when one is given. */
  function AddRow(s: Sheet, row: seq<Cell>, style: Option<string>): (r: Sheet)
    ensures r.rows == s.rows + [row]
    ensures r.colCount == Max(s.colCount, |row|)
    ensures r.headers == s.headers && r.cols == s.cols && r.colDefault == s.colDefault && r.name == s.name
    ensures style.Some? ==> GetStyle(r, |s.rows|) == style
    ensures forall n :: n != |s.rows| ==> GetStyle(r, n) == GetStyle(s, n)
    ensures Valid(s) ==> Valid(r) && GetStyle(r, |s.rows|) == style
  {
    var rows := s.rows + [row];
    var cc := if |row| > s.colCount then |row| else s.colCount;
    var st := if style.Some? then s.styles[|rows| - 1 := style.value] else s.styles;
    s.(rows := rows, colCount := cc, styles := st)
  }

  /** `addArray`: `addRow` applied to each row in order, all with the same style. */
  function AddArray(s: Sheet, rows: seq<seq<Cell>>, style: Option<string>): Sheet
    decreases |rows|
  {
    if |rows| == 0 then s else AddArray(AddRow(s, rows[0], style), rows[1..], style)
  }

  /** The longest of a list of rows, or `c` when that is larger. */
  function MaxWidth(c: nat, rows: seq<seq<Cell>>): (m: nat)
    ensures m >= c && forall i :: 0 <= i < |rows| ==> |rows[i]| <= m
    ensures m == c || exists i :: 0 <= i < |rows| && m == |rows[i]|
  {
    if |rows| == 0 then c
    else
      var m := MaxWidth(c, rows[..|rows| - 1]);
      assert forall i :: 0 <= i < |rows| - 1 ==> rows[..|rows| - 1][i] == rows[i];
      Max(m, |rows[|rows| - 1]|)
  }

  lemma MaxWidthCons(c: nat, row: seq<Cell>, rows: seq<seq<Cell>>)
    ensures MaxWidth(Max(c, |row|), rows) == MaxWidth(c, [row] + rows)
  {
    var a := MaxWidth(Max(c, |row|), rows);
    var b := MaxWidth(c, [row] + rows);
    assert ([row] + rows)[0] == row;
    forall i | 0 <= i < |rows| ensures |rows[i]| <= b {
      assert ([row] + rows)[i + 1] == rows[i];
    }
    assert a <= b by {
      if a != Max(c, |row|) {
        var i :| 0 <= i < |rows| && a == |rows[i]|;
      }
    }
    assert b <= a by {
      if b != c {
        var i :| 0 <= i < |[row] + rows| && b == |([row] + rows)[i]|;
        if i > 0 {
          assert ([row] + rows)[i] == rows[i - 1];
        }
      }
    }
  }

  /** `addArray` appends the rows in order and keeps the headers, widths and name. */
  lemma {:induction false} AddArrayRows(s: Sheet, rows: seq<seq<Cell>>, style: Option<string>)
    ensures var r := AddArray(s, rows, style);
      r.rows == s.rows + rows
      && r.headers == s.headers && r.cols == s.cols && r.colDefault == s.colDefault && r.name == s.name
    decreases |rows|
  {
    if |rows| > 0 {
      var s1 := AddRow(s, rows[0], style);
      AddArrayRows(s1, rows[1..], style);
      assert [rows[0]] + rows[1..] == rows;
      assert s1.rows + rows[1..] == s.rows + rows;
    }
  }

  /** `addArray` grows the column count to the widest row. */
  lemma {:induction false} AddArrayWidth(s: Sheet, rows: seq<seq<Cell>>, style: Option<string>)
    ensures AddArray(s, rows, style).colCount == MaxWidth(s.colCount, rows)
    decreases |rows|
  {
    if |rows| > 0 {
      var s1 := AddRow(s, rows[0], style);
      AddArrayWidth(s1, rows[1..], style);
      MaxWidthCons(s.colCount, rows[0], rows[1..]);
      assert [rows[0]] + rows[1..] == rows;
    }
  }

  /** `addArray` appends the rows in order and grows the column count to the widest row. */
  lemma AddArrayShape(s: Sheet, rows: seq<seq<Cell>>, style: Option<string>)
    ensures var r := AddArray(s, rows, style);
      r.rows == s.rows + rows && r.colCount == MaxWidth(s.colCount, rows)
      && r.headers == s.headers && r.cols == s.cols && r.colDefault == s.colDefault && r.name == s.name
  {
    AddArrayRows(s, rows, style);
    AddArrayWidth(s, rows, style);
  }

  /**
   * The styles after `addArray`: every new row carries the given style, the old rows keep
   * theirs, and rows beyond the end have none.
   */
  lemma {:induction false} AddArrayStyles(s: Sheet, rows: seq<seq<Cell>>, style: Option<string>)
    requires Valid(s)
    ensures var r := AddArray(s, rows, style);
      Valid(r)
      && (forall n :: 0 <= n < |s.rows| ==> GetStyle(r, n) == GetStyle(s, n))
      && (forall n :: |s.rows| <= n < |s.rows| + |rows| ==> GetStyle(r, n) == style)
      && (forall n :: n >= |s.rows| + |rows| ==> GetStyle(r, n) == None)
    decreases |rows|
  {
    if |rows| > 0 {
      var s1 := AddRow(s, rows[0], style);
      assert |s1.rows| == |s.rows| + 1;
      AddArrayStyles(s1, rows[1..], style);
    }
  }

  /** The column count never decreases under any of the building operations. */
  lemma ColCountMonotone(s: Sheet, column: string, headers: seq<string>, row: seq<Cell>, rows: seq<seq<Cell>>, style: Option<string>)
    requires Valid(s)
    ensures AddColHeader(s, column).colCount >= s.colCount
    ensures SetColHeaders(s, headers).colCount >= s.colCount
    ensures AddRow(s, row, style).colCount >= s.colCount
    ensures AddArray(s, rows, style).colCount >= s.colCount
  {
    AddArrayShape(s, rows, style);
  }
}

=== FILE: styles.dfy ===
/**
 * Named styles: the font and cell records of `Exporter::addStyle`, the border
 * normalisation `prepareBorder`, and the ordered style registry.
 */
module Styles {
  import opened Wrappers
  import opened Text
  import opened Sheets

  /** The FONT array: COLOR, SIZE, FAMILY, WEIGHT, ALIGN (and a BACKGROUND read by ODS). */
  datatype Font = Font(
    color: Option<string>,
    size: Option<string>,
    family: Option<string>,
    weight: Option<string>,
    align: Option<string>,
    background: Option<string>)
  {
    /** PHP's `empty` on the array: no key set. */
    predicate IsEmpty() {
      color.None? && size.None? && family.None? && weight.None? && align.None? && background.None?
    }
  }

  const NoFont := Font(None, None, None, None, None, None)

  /** A border description: the COLOR, STYLE and WIDTH keys. */
  datatype Side = Side(color: Option<string>, style: Option<string>, width: Option<string>) {
    predicate IsEmpty() {
      color.None? && style.None? && width.None?
    }
  }

  const NoSide := Side(None, None, None)

  /** The colour of a border side that names none (`Exporter::$defColor`). */
  const DefaultColor := "#000000"

  datatype SideKey = Left | Right | Top | Bottom

  /** The order in which every backend visits the sides. */
  const SideOrder: seq<SideKey> := [Left, Right, Top, Bottom]

  /** The lower-case side name used in CSS properties and ODS attributes. */
  function SideName(k: SideKey): string {
    match k
    case Left => "left"
    case Right => "right"
    case Top => "top"
    case Bottom => "bottom"
  }

  /**
   * The CELL array: BACKGROUND, the flat border keys (applying to every side) and
   * the per-side arrays LEFT, RIGHT, TOP, BOTTOM.
   */
  datatype CellStyle = CellStyle(background: Option<string>, flat: Side, sides: map<SideKey, Side>) {
    predicate IsEmpty() {
      background.None? && flat.IsEmpty() && |sides| == 0
    }

    /** `isBorderStyle($cell, $borderStyles)`: one of the flat keys is set. */
    predicate HasFlat() {
      !flat.IsEmpty()
    }

    /** `isBorderStyle($cell, $borderTypes)`: one of the side keys is set. */
    predicate HasSides() {
      |sides| > 0
    }
  }

  const NoCell := CellStyle(None, NoSide, map[])

  /** One registered style: FONT, CELL (already normalised) and HEIGHT. */
  datatype Style = Style(font: Font, cell: CellStyle, height: Option<int>) {
    /** PHP's `!empty($style['HEIGHT'])`. */
    predicate HasHeight() {
      height.Some? && height.value != 0
    }
  }

  /** A side attribute, with the explicit value winning over the fallback. */
  function Prefer(own: Option<string>, fallback: Option<string>): (r: Option<string>)
    ensures own.Some? ==> r == own
    ensures own.None? ==> r == fallback
  {
    if own.Some? then own else fallback
  }

  /** The side `k` after the flat attributes have been filled into it. */
  function FillSide(c: CellStyle, k: SideKey): Side {
    var s := if k in c.sides then c.sides[k] else NoSide;
    Side(Prefer(s.color, c.flat.color), Prefer(s.style, c.flat.style), Prefer(s.width, c.flat.width))
  }

  /**
   * `prepareBorder`. When both the flat form and at least one side are given, every flat
   * attribute is copied into each side lacking it and the flat keys are dropped;
   * otherwise the cell is kept as given.
   */
  function PrepareBorder(c: CellStyle): (r: CellStyle)
    ensures !(c.HasFlat() && c.HasSides()) ==> r == c
    ensures r.background == c.background
    ensures c.HasFlat() && c.HasSides() ==>
      !r.HasFlat() && (forall k: SideKey :: k in r.sides)
      && (forall k: SideKey :: r.sides[k].color == (if k in c.sides && c.sides[k].color.Some? then c.sides[k].color else c.flat.color))
      && (forall k: SideKey :: r.sides[k].style == (if k in c.sides && c.sides[k].style.Some? then c.sides[k].style else c.flat.style))
      && (forall k: SideKey :: r.sides[k].width == (if k in c.sides && c.sides[k].width.Some? then c.sides[k].width else c.flat.width))
  {
    if c.IsEmpty() then NoCell
    else if c.HasFlat() && c.HasSides() then CellStyle(c.background, NoSide, FilledSides(c))
    else c
  }

  /** All four sides, each completed from the flat form. */
  function FilledSides(c: CellStyle): (m: map<SideKey, Side>)
    ensures forall k: SideKey :: k in m && m[k] == FillSide(c, k)
  {
    var m := map[Left := FillSide(c, Left), Right := FillSide(c, Right), Top := FillSide(c, Top), Bottom := FillSide(c, Bottom)];
    EverySideFilled(c, m);
    m
  }

  lemma EverySideFilled(c: CellStyle, m: map<SideKey, Side>)
    requires m == map[Left := FillSide(c, Left), Right := FillSide(c, Right), Top := FillSide(c, Top), Bottom := FillSide(c, Bottom)]
    ensures forall k: SideKey :: k in m && m[k] == FillSide(c, k)
  {
    forall k: SideKey ensures k in m && m[k] == FillSide(c, k) {
      match k
      case Left =>
      case Right =>
      case Top =>
      case Bottom =>
    }
  }

  lemma EverySide<T>(m: map<SideKey, T>)
    requires Left in m && Right in m && Top in m && Bottom in m
    ensures forall k: SideKey :: k in m
  {
    forall k: SideKey ensures k in m {
      match k
      case Left =>
      case Right =>
      case Top =>
      case Bottom =>
    }
  }

  /** Normalising twice changes nothing: a prepared cell never has both forms. */
  lemma PrepareBorderIdempotent(c: CellStyle)
    ensures PrepareBorder(PrepareBorder(c)) == PrepareBorder(c)
    ensures var r := PrepareBorder(c); !(r.HasFlat() && r.HasSides())
  {
  }

  /** A per-side attribute given explicitly survives the normalisation unchanged. */
  lemma SideValueWins(c: CellStyle, k: SideKey)
    requires k in c.sides
    ensures k in PrepareBorder(c).sides
    ensures c.sides[k].color.Some? ==> PrepareBorder(c).sides[k].color == c.sides[k].color
    ensures c.sides[k].style.Some? ==> PrepareBorder(c).sides[k].style == c.sides[k].style
    ensures c.sides[k].width.Some? ==> PrepareBorder(c).sides[k].width == c.sides[k].width
  {
  }

  /** The characters `/^[a-z0-9\-]+$/` admits. */
  predicate MarkChar(c: char) {
    IsLower(c) || IsDigit(c) || c == '-'
  }

  predicate AllMarkChars(s: string) {
    forall i :: 0 <= i < |s| ==> MarkChar(s[i])
  }

  /**
   * The style-name test as written: without the D modifier, PCRE's `$` also matches
   * before a final newline, so a name followed by "\n" passes.
   */
  predicate MarkMatchesAsWritten(m: string) {
    (|m| > 0 && AllMarkChars(m))
    || (|m| > 1 && m[|m| - 1] == '\n' && AllMarkChars(m[..|m| - 1]))
  }

  /** The intended style-name test: one or more lower-case letters, digits or dashes. */
  predicate ValidMark(m: string) {
    |m| > 0 && AllMarkChars(m)
  }

  /** The test as written lets a newline-terminated name through. */
  lemma MarkAcceptsTrailingNewline()
    ensures MarkMatchesAsWritten("a\n") && !ValidMark("a\n")
  {
    assert "a\n"[..1] == "a";
    assert !MarkChar("a\n"[1]);
  }

  /** The corrected test admits exactly the intended names, and those names only. */
  lemma ValidMarkIsIntended(m: string)
    ensures ValidMark(m) ==> MarkMatchesAsWritten(m)
    ensures MarkMatchesAsWritten(m) && !ValidMark(m) ==> m[|m| - 1] == '\n'
    ensures ValidMark(m) ==> forall i :: 0 <= i < |m| ==> m[i] != '\n' && m[i] != ' ' && m[i] != '.'
  {
  }

  /** The style registry: names in first-insertion order with their styles. */
  type Registry = seq<(string, Style)>

  predicate UniqueNames(reg: Registry) {
    forall i, j :: 0 <= i < j < |reg| ==> reg[i].0 != reg[j].0
  }

  /** Position of `name` in the registry. */
  function IndexOf(reg: Registry, name: string): (r: Option<nat>)
    ensures r.Some? ==> r.value < |reg| && reg[r.value].0 == name
    ensures r.None? <==> forall i :: 0 <= i < |reg| ==> reg[i].0 != name
    ensures r.Some? ==> forall i :: 0 <= i < r.value ==> reg[i].0 != name
  {
    if |reg| == 0 then None
    else if reg[0].0 == name then Some(0)
    else
      var t := IndexOf(reg[1..], name);
      if t.Some? then Some(t.value + 1) else None
  }

  /** PHP's `$this->styles[$name]`. */
  function Lookup(reg: Registry, name: string): Option<Style> {
    match IndexOf(reg, name)
    case Some(i) => Some(reg[i].1)
    case None => None
  }

  /** Store a style under a name; an existing name keeps its position. */
  function Put(reg: Registry, name: string, st: Style): (r: Registry)
    ensures IndexOf(reg, name).Some? ==> |r| == |reg| && IndexOf(r, name) == IndexOf(reg, name)
    ensures IndexOf(reg, name).None? ==> r == reg + [(name, st)]
  {
    match IndexOf(reg, name)
    case Some(i) =>
      IndexOfReplace(reg, i, name, st);
      reg[i := (name, st)]
    case None => reg + [(name, st)]
  }

  lemma IndexOfReplace(reg: Registry, i: nat, name: string, st: Style)
    requires IndexOf(reg, name) == Some(i)
    ensures IndexOf(reg[i := (name, st)], name) == Some(i)
  {
    IndexOfAgree(reg, reg[i := (name, st)], name);
  }

  /** Two registries whose names agree on `x` position by position find `x` at the same place. */
  lemma {:induction false} IndexOfAgree(a: Registry, b: Registry, x: string)
    requires |a| <= |b|
    requires forall j :: 0 <= j < |a| ==> (a[j].0 == x <==> b[j].0 == x)
    requires forall j :: |a| <= j < |b| ==> b[j].0 != x
    ensures IndexOf(a, x) == IndexOf(b, x)
  {
    if |a| > 0 && a[0].0 != x {
      IndexOfAgree(a[1..], b[1..], x);
    }
  }

  /** Storing makes the style visible under its name and leaves every other name alone. */
  lemma PutLookup(reg: Registry, name: string, st: Style, other: string)
    requires UniqueNames(reg)
    ensures UniqueNames(Put(reg, name, st))
    ensures Lookup(Put(reg, name, st), name) == Some(st)
    ensures other != name ==> IndexOf(Put(reg, name, st), other) == IndexOf(reg, other)
    ensures other != name ==> Lookup(Put(reg, name, st), other) == Lookup(reg, other)
  {
    var r := Put(reg, name, st);
    PutLookupSelf(reg, name, st);
    if other != name {
      IndexOfAgree(reg, r, other);
      var a := IndexOf(reg, other);
      if a.Some? {
        assert r[a.value] == reg[a.value];
      }
    }
  }

  /**
   * `addStyle`: a name failing the (corrected) test is rejected and the registry is
   * unchanged; otherwise the style is stored with its border normalised.
   */
  function AddStyle(reg: Registry, mark: string, font: Font, cell: CellStyle, height: Option<int>): (r: Result<Registry>)
    ensures r.Err? <==> !ValidMark(mark)
    ensures r.Err? ==> r.error == "Style mark must by small alphanumeric only."
    ensures r.Ok? ==> Lookup(r.value, mark) == Some(Style(font, PrepareBorder(cell), height))
  {
    if !ValidMark(mark) then Err("Style mark must by small alphanumeric only.")
    else
      var st := Style(font, PrepareBorder(cell), height);
      PutLookupSelf(reg, mark, st);
      Ok(Put(reg, mark, st))
  }

  lemma PutLookupSelf(reg: Registry, name: string, st: Style)
    ensures Lookup(Put(reg, name, st), name) == Some(st)
  {
    var r := Put(reg, name, st);
    match IndexOf(reg, name)
    case Some(i) =>
      assert r[i].0 == name;
    case None =>
      assert r[|reg|].0 == name;
  }

  /** `setDefault`: the default style, with its border normalised. */
  function SetDefault(font: Font, cell: CellStyle, height: Option<int>): (r: Style)
    ensures r.font == font && r.height == height
    ensures r.cell == PrepareBorder(cell) && PrepareBorder(r.cell) == r.cell
    ensures !(r.cell.HasFlat() && r.cell.HasSides())
  {
    PrepareBorderIdempotent(cell);
    Style(font, PrepareBorder(cell), height)
  }

  /** Row `i`'s class is falsy or registered. */
  predicate RowClassOk(s: Sheet, reg: Registry, i: int) {
    !(TruthyOpt(GetStyle(s, i)) && Lookup(reg, GetStyle(s, i).value).None?)
  }

  /** Every row of the sheet from `num` on has a row class that is falsy or registered. */
  predicate RowClassesKnown(s: Sheet, reg: Registry, num: nat) {
    forall i :: num <= i < |s.rows| ==> RowClassOk(s, reg, i)
  }

  /** The rows from `num` on are known exactly when row `num` and the rows after it are. */
  lemma RowClassesKnownStep(s: Sheet, reg: Registry, num: nat)
    requires num < |s.rows|
    ensures RowClassesKnown(s, reg, num) <==> RowClassOk(s, reg, num) && RowClassesKnown(s, reg, num + 1)
  {
  }
}

=== FILE: text.dfy ===
/** Character classes, decimal numerals and small sequence helpers used by the renderers. */
module Text {
  import opened Wrappers

  predicate IsDigit(c: char) {
    '0' <= c <= '9'
  }

  predicate IsUpper(c: char) {
    'A' <= c <= 'Z'
  }

  predicate IsLower(c: char) {
    'a' <= c <= 'z'
  }

  predicate IsLetter(c: char) {
    IsUpper(c) || IsLower(c)
  }

  predicate AllDigits(s: string) {
    forall i :: 0 <= i < |s| ==> IsDigit(s[i])
  }

  function DigitChar(d: nat): (c: char)
    requires d < 10
    ensures IsDigit(c)
  {
    ['0', '1', '2', '3', '4', '5', '6', '7', '8', '9'][d]
  }

  function DigitValue(c: char): nat
    requires IsDigit(c)
  {
    (c as int - '0' as int) as nat
  }

  lemma DigitRoundTrip(d: nat)
    requires d < 10
    ensures DigitValue(DigitChar(d)) == d
  {
  }

  /** Decimal text of a natural number, as PHP's string conversion of an int prints it. */
  function NatToString(n: nat): (s: string)
    ensures |s| > 0 && AllDigits(s)
  {
    if n < 10 then [DigitChar(n)] else NatToString(n / 10) + [DigitChar(n % 10)]
  }

  /** Value of a string of decimal digits (empty gives 0). */
  function ParseDigits(s: string): nat
    requires AllDigits(s)
  {
    if |s| == 0 then 0 else ParseDigits(s[..|s| - 1]) * 10 + DigitValue(s[|s| - 1])
  }

  /** Reading back a printed natural gives the same number. */
  lemma {:induction false} ParseNatToString(n: nat)
    ensures ParseDigits(NatToString(n)) == n
  {
    var s := NatToString(n);
    if n < 10 {
      DigitRoundTrip(n);
    } else {
      ParseNatToString(n / 10);
      assert s[..|s| - 1] == NatToString(n / 10);
      DigitRoundTrip(n % 10);
    }
  }

  /** Printing naturals is injective. */
  lemma NatToStringInjective(m: nat, n: nat)
    requires NatToString(m) == NatToString(n)
    ensures m == n
  {
    ParseNatToString(m);
    ParseNatToString(n);
  }

  /** Decimal text of an integer, with a leading minus sign when negative. */
  function IntToString(n: int): (s: string)
    ensures |s| > 0
    ensures n >= 0 ==> s == NatToString(n)
    ensures n < 0 ==> s[0] == '-' && s[1..] == NatToString(-n)
  {
    if n >= 0 then NatToString(n) else "-" + NatToString(-n)
  }

  /** Printing integers is injective: the sign and the digits determine the number. */
  lemma IntToStringInjective(m: int, n: int)
    requires IntToString(m) == IntToString(n)
    ensures m == n
  {
    if m >= 0 && n >= 0 {
      NatToStringInjective(m, n);
    } else if m < 0 && n < 0 {
      NatToStringInjective(-m, -n);
    }
  }

  /** PHP's `strtoupper` on one (ASCII) character. */
  function UpperChar(c: char): (r: char)
    ensures IsLower(c) ==> IsUpper(r) && r as int == c as int - 32
    ensures !IsLower(c) ==> r == c
  {
    if IsLower(c) then (c as int - 32) as char else c
  }

  /** PHP's `strtoupper`. */
  function Upper(s: string): (r: string)
    ensures |r| == |s|
    ensures forall i :: 0 <= i < |s| ==> r[i] == UpperChar(s[i])
  {
    if |s| == 0 then [] else [UpperChar(s[0])] + Upper(s[1..])
  }

  /** Upper-casing twice changes nothing more; no lower-case letter survives it. */
  lemma UpperIdempotent(s: string)
    ensures Upper(Upper(s)) == Upper(s)
    ensures forall i :: 0 <= i < |s| ==> !IsLower(Upper(s)[i])
  {
  }

  /** `s` repeated `k` times (PHP's `str_repeat`). */
  function Repeat(s: string, k: nat): (r: string)
    ensures |r| == k * |s|
  {
    if k == 0 then [] else s + Repeat(s, k - 1)
  }

  predicate Contains(s: string, c: char) {
    exists i :: 0 <= i < |s| && s[i] == c
  }

  predicate EndsWith(s: string, suffix: string) {
    |suffix| <= |s| && s[|s| - |suffix|..] == suffix
  }

  /** Concatenation of a sequence of strings. */
  function Concat(parts: seq<string>): string {
    if |parts| == 0 then [] else parts[0] + Concat(parts[1..])
  }

  /** Concatenation of `parts` with `sep` between consecutive parts (PHP's `implode`). */
  function Join(sep: string, parts: seq<string>): string {
    if |parts| == 0 then []
    else if |parts| == 1 then parts[0]
    else parts[0] + sep + Join(sep, parts[1..])
  }

  /** The value stored under the first occurrence of `k` in an association list. */
  function FirstValue<K(==), V>(pairs: seq<(K, V)>, k: K): (r: Option<V>)
    ensures r.None? <==> forall i :: 0 <= i < |pairs| ==> pairs[i].0 != k
    ensures r.Some? ==> exists i :: 0 <= i < |pairs| && pairs[i] == (k, r.value)
  {
    if |pairs| == 0 then None
    else if pairs[0].0 == k then Some(pairs[0].1)
    else
      var r := FirstValue(pairs[1..], k);
      assert r.Some? ==> exists i :: 0 <= i < |pairs[1..]| && pairs[1..][i] == (k, r.value);
      r
  }

  lemma {:induction false} FirstValueAppend<K, V>(a: seq<(K, V)>, b: seq<(K, V)>, k: K)
    ensures FirstValue(a + b, k) == if FirstValue(a, k).Some? then FirstValue(a, k) else FirstValue(b, k)
    decreases |a|
  {
    if |a| == 0 {
      assert a + b == b;
    } else {
      assert (a + b)[1..] == a[1..] + b;
      FirstValueAppend(a[1..], b, k);
    }
  }

  /** A one-entry list when the value is present, else the empty list. */
  function Entry<K, V>(k: K, v: Option<V>): seq<(K, V)> {
    if v.Some? then [(k, v.value)] else []
  }

  lemma EntryValue<K, V>(k: K, v: Option<V>, other: K)
    ensures FirstValue(Entry(k, v), k) == v
    ensures other != k ==> FirstValue(Entry(k, v), other).None?
  {
  }
}

=== FILE: units.dfy ===
/**
 * The unit converter `Exporter::convertSize`: a size given as text, possibly ending in a
 * unit, is read in the input unit and returned in the output unit. Sizes are exact reals;
 * rounding is half away from zero, as PHP's `round` does.
 */
module Units {
  import opened Wrappers
  import opened Text
  import opened Numeric
  import opened Xml

  /** Pixel-equivalents of one unit of each recognised input unit. */
  function FromFactor(unit: string): Option<real> {
    if unit == "em" || unit == "px" then Some(1.0)
    else if unit == "pt" then Some(96.0 / 72.0)
    else if unit == "pc" then Some(16.0)
    else if unit == "in" then Some(96.0)
    else if unit == "mm" then Some(3.78)
    else if unit == "cm" then Some(37.8)
    else None
  }

  /** Decimal places kept when converting to each output unit; `em` is not rounded. */
  function Precision(unit: string): nat {
    if unit == "px" || unit == "pt" then 2
    else if unit == "pc" || unit == "in" then 4
    else 6
  }

  predicate IsOutputUnit(unit: string) {
    unit in {"em", "px", "pt", "pc", "in", "mm", "cm"}
  }

  /** `10^p` as a real: one unit in the last of `p` decimal places is its inverse. */
  function Scale(p: nat): (r: real)
    ensures r >= 1.0
  {
    Pow10(p) as real
  }

  /**
   * The number of `1 / scale` steps that rounding lands on: the whole number nearest to
   * `x * scale`, halves away from zero.
   */
  function GridSteps(x: real, scale: real): (k: int)
    requires scale > 0.0
    ensures -0.5 <= k as real - x * scale <= 0.5
  {
    if x >= 0.0 then
      HalfFloor(x * scale);
      (x * scale + 0.5).Floor
    else
      HalfFloor(-x * scale);
      assert -x * scale == -(x * scale);
      -(-x * scale + 0.5).Floor
  }

  /** Rounding to a multiple of `1 / scale`, halves away from zero. */
  function RoundScaled(x: real, scale: real): real
    requires scale > 0.0
  {
    GridSteps(x, scale) as real / scale
  }

  /** PHP's `round($x, $p)`: to `p` decimal places, halves away from zero. */
  function RoundTo(x: real, p: nat): real {
    RoundScaled(x, Scale(p))
  }

  lemma HalfFloor(z: real)
    ensures -0.5 <= (z + 0.5).Floor as real - z <= 0.5
  {
  }

  lemma ScaledDifference(f: real, y: real, scale: real)
    requires scale > 0.0 && -0.5 <= f - y * scale <= 0.5
    ensures -0.5 / scale <= f / scale - y <= 0.5 / scale
  {
    var a := f - y * scale;
    assert f / scale - y == a / scale;
  }

  lemma RoundScaledError(x: real, scale: real)
    requires scale > 0.0
    ensures -0.5 / scale <= RoundScaled(x, scale) - x <= 0.5 / scale
  {
    ScaledDifference(GridSteps(x, scale) as real, x, scale);
  }

  /** Rounding moves a value by at most half a unit in the last kept place. */
  lemma RoundToError(x: real, p: nat)
    ensures -0.5 / Scale(p) <= RoundTo(x, p) - x <= 0.5 / Scale(p)
  {
    RoundScaledError(x, Scale(p));
  }

  lemma DivMul(n: real, scale: real)
    requires scale > 0.0
    ensures (n / scale) * scale == n
  {
  }

  /**
   * Rounding lands on the grid: the result times `10^p` is the whole number of steps
   * nearest to `x * 10^p`.
   */
  lemma RoundToOnGrid(x: real, p: nat)
    ensures RoundTo(x, p) * Scale(p) == GridSteps(x, Scale(p)) as real
  {
    var scale := Scale(p);
    DivMul(GridSteps(x, scale) as real, scale);
  }

  lemma ProductSign(x: real, scale: real)
    requires scale > 0.0
    ensures x >= 0.0 <==> x * scale >= 0.0
  {
    if x < 0.0 {
      assert -x * scale > 0.0;
    }
  }

  lemma StepsExact(x: real, scale: real, n: int)
    requires scale > 0.0 && x * scale == n as real
    ensures GridSteps(x, scale) == n
  {
    ProductSign(x, scale);
    if x < 0.0 {
      assert -x * scale + 0.5 == -n as real + 0.5;
    }
  }

  lemma StepsTie(x: real, scale: real, n: int)
    requires scale > 0.0 && x * scale == n as real + 0.5
    ensures GridSteps(x, scale) == if n >= 0 then n + 1 else n
  {
    ProductSign(x, scale);
    if n < 0 {
      assert -x * scale + 0.5 == -n as real;
    }
  }

  /** A value already on the grid is kept as it is. */
  lemma RoundToExact(x: real, p: nat, n: int)
    requires x * Scale(p) == n as real
    ensures RoundTo(x, p) == x
  {
    var scale := Scale(p);
    StepsExact(x, scale, n);
    assert RoundTo(x, p) == n as real / scale;
    assert (x * scale) / scale == x;
  }

  /** A value exactly halfway between two grid points goes to the one farther from zero. */
  lemma RoundToTie(x: real, p: nat, n: int)
    requires x * Scale(p) == n as real + 0.5
    ensures RoundTo(x, p) == (if n >= 0 then n + 1 else n) as real / Scale(p)
  {
    StepsTie(x, Scale(p), n);
  }

  /** `convertFromUnit`: a value in `unit` as pixel-equivalents. */
  function ConvertFromUnit(unit: string, v: real): (r: Result<real>)
    ensures r.Ok? <==> FromFactor(unit).Some?
    ensures r.Ok? ==> r.value == v * FromFactor(unit).value
  {
    match FromFactor(unit)
    case Some(f) => Ok(v * f)
    case None => Err("Unknown input measure unit: " + HtmlSpecialChars(unit))
  }

  /** `convertToUnit`: pixel-equivalents in `unit`, rounded to that unit's precision. */
  function ConvertToUnit(unit: string, v: real): (r: Result<real>)
    ensures r.Ok? <==> IsOutputUnit(unit)
    ensures r.Ok? && unit != "em" ==> r.value == RoundTo(v / FromFactor(unit).value, Precision(unit))
    ensures r.Ok? && unit == "em" ==> r.value == v
  {
    if unit == "em" then Ok(v)
    else if IsOutputUnit(unit) then Ok(RoundTo(v / FromFactor(unit).value, Precision(unit)))
    else Err("Unknown output measure unit: " + HtmlSpecialChars(unit))
  }

  /** PHP's `str_replace($pat, '', $s)`: every non-overlapping occurrence, left to right, removed. */
  function RemoveAll(s: string, pat: string): (r: string)
    ensures |r| <= |s|
  {
    if |pat| == 0 || |s| < |pat| then s
    else if s[..|pat|] == pat then RemoveAll(s[|pat|..], pat)
    else [s[0]] + RemoveAll(s[1..], pat)
  }

  /** The longest run of ASCII letters ending `s` (the match of `/[a-z]+$/i`). */
  function TrailingLetters(s: string): (r: string)
    ensures EndsWith(s, r)
    ensures forall i :: 0 <= i < |r| ==> IsLetter(r[i])
    ensures |r| < |s| ==> !IsLetter(s[|s| - |r| - 1])
  {
    if |s| > 0 && IsLetter(s[|s| - 1]) then
      var r := TrailingLetters(s[..|s| - 1]) + [s[|s| - 1]];
      assert s[|s| - |r|..] == s[..|s| - 1][|s| - |r|..] + [s[|s| - 1]];
      r
    else []
  }

  /**
   * The three failures of `convertSize` for a size written as `text`: no unit to read, an
   * unknown input unit, an unknown output unit; each names the escaped culprit.
   */
  function SizeErrors(text: string, out: string): set<string> {
    {"Unknown measure value: " + HtmlSpecialChars(text),
     "Unknown input measure unit: " + HtmlSpecialChars(TrailingLetters(text)),
     "Unknown output measure unit: " + HtmlSpecialChars(out)}
  }

  /** The part of `convertSize` after the short-cuts: read the trailing unit, convert through pixels. */
  function ConvertTagged(text: string, out: string): (r: Result<real>)
    ensures r.Err? ==> r.error in SizeErrors(text, out)
  {
    var units := TrailingLetters(text);
    if |units| == 0 then Err("Unknown measure value: " + HtmlSpecialChars(text))
    else
      var px :- ConvertFromUnit(units, LeadingValue(RemoveAll(text, units)));
      ConvertToUnit(out, px)
  }

  /**
   * `Exporter::convertSize($num, $def, $out)`. A PHP number is passed as its printed text,
   * which is numeric; `out` absent means "same as `def`".
   */
  function ConvertSize(num: string, def: string, out: Option<string>): (r: Result<real>)
    ensures r.Err? ==> r.error in SizeErrors(if IsNumeric(num) then num + def else num, out.GetOr(def))
  {
    var o := out.GetOr(def);
    if IsNumeric(num) then
      if def != o then ConvertTagged(num + def, o) else Ok(LeadingValue(num))
    else if EndsWith(num, o) then Ok(LeadingValue(RemoveAll(num, o)))
    else ConvertTagged(num, o)
  }

  /** A unit as written after a number: one or more ASCII letters. */
  predicate IsUnitWord(u: string) {
    |u| > 0 && forall i :: 0 <= i < |u| ==> IsLetter(u[i])
  }

  /** Text holding no ASCII letter. */
  predicate LetterFree(s: string) {
    forall i :: 0 <= i < |s| ==> !IsLetter(s[i])
  }

  /** A number is written with digits, a sign and a dot only. */
  lemma NumericLetterFree(t: string)
    requires IsNumeric(t)
    ensures |t| > 0 && LetterFree(t)
  {
    forall i | 0 <= i < |t| ensures !IsLetter(t[i]) {
      NumericChars(t, i);
    }
  }

  /** A unit after a number makes the text non-numeric. */
  lemma TaggedNotNumeric(t: string, u: string)
    requires IsUnitWord(u)
    ensures !IsNumeric(t + u)
  {
    assert IsLetter((t + u)[|t|]);
    if IsNumeric(t + u) {
      NumericChars(t + u, |t|);
    }
  }

  lemma {:induction false} RemoveAllTail(s: string, pat: string)
    requires |pat| > 0 && LetterFree(s) && IsLetter(pat[0])
    ensures RemoveAll(s + pat, pat) == s
    decreases |s|
  {
    var t := s + pat;
    if |s| == 0 {
      assert t[..|pat|] == pat && t[|pat|..] == [];
    } else {
      assert t[..|pat|][0] != pat[0] by { assert !IsLetter(t[0]); }
      assert t[1..] == s[1..] + pat;
      RemoveAllTail(s[1..], pat);
      assert [s[0]] + s[1..] == s;
    }
  }

  lemma {:induction false} TrailingLettersOfTagged(s: string, unit: string)
    requires |s| > 0 && !IsLetter(s[|s| - 1]) && IsUnitWord(unit)
    ensures TrailingLetters(s + unit) == unit
    decreases |unit|
  {
    var t := s + unit;
    var u := unit[..|unit| - 1];
    var c := unit[|unit| - 1];
    assert t[..|t| - 1] == s + u;
    assert t[|t| - 1] == c && IsLetter(c);
    assert TrailingLetters(t) == TrailingLetters(s + u) + [c];
    if |u| == 0 {
      assert s + u == s;
    } else {
      TrailingLettersOfTagged(s, u);
    }
    assert u + [c] == unit;
  }

  /** The unit read from a number followed by a unit is that unit, and removing it leaves the number. */
  lemma TaggedReading(t: string, u: string)
    requires IsNumeric(t) && IsUnitWord(u)
    ensures TrailingLetters(t + u) == u
    ensures RemoveAll(t + u, u) == t
  {
    NumericLetterFree(t);
    TrailingLettersOfTagged(t, u);
    RemoveAllTail(t, u);
  }

  lemma KnownUnitShape(a: string)
    requires FromFactor(a).Some? || IsOutputUnit(a)
    ensures |a| == 2 && IsUnitWord(a)
  {
  }

  /** Reading a tagged number in a known unit goes through its pixel value. */
  lemma TaggedConverts(t: string, a: string, b: string)
    requires IsNumeric(t) && FromFactor(a).Some?
    ensures ConvertTagged(t + a, b) == ConvertToUnit(b, LeadingValue(t) * FromFactor(a).value)
  {
    KnownUnitShape(a);
    TaggedReading(t, a);
    var v := LeadingValue(t);
    assert ConvertFromUnit(a, v) == Ok(v * FromFactor(a).value);
  }

  /** A bare number whose input unit is the output unit is returned as its value. */
  lemma BareNumberUnchanged(t: string, def: string, out: Option<string>)
    requires IsNumeric(t) && out.GetOr(def) == def
    ensures ConvertSize(t, def, out) == Ok(LeadingValue(t))
  {
  }

  /**
   * A bare number in a known input unit `a` is converted to any other unit `b` through
   * its pixel value: `convertToUnit(b, value × factor(a))`, failing as that does.
   */
  lemma BareNumberConverts(t: string, a: string, b: string)
    requires IsNumeric(t) && FromFactor(a).Some? && a != b
    ensures ConvertSize(t, a, Some(b)) == ConvertToUnit(b, LeadingValue(t) * FromFactor(a).value)
  {
    TaggedConverts(t, a, b);
  }

  /** A number followed by the output unit is read as that number, with no unit arithmetic. */
  lemma SuffixedByOutput(t: string, u: string, def: string, out: Option<string>)
    requires IsNumeric(t) && IsUnitWord(u) && out.GetOr(def) == u
    ensures ConvertSize(t + u, def, out) == Ok(LeadingValue(t))
  {
    TaggedNotNumeric(t, u);
    NumericLetterFree(t);
    RemoveAllTail(t, u);
    assert (t + u)[|t|..] == u;
  }

  /**
   * A number tagged with a known unit `a` converts to another output unit `b` as its value
   * times `a`'s factor, divided by `b`'s factor and, unless `b` is `em`, rounded to `b`'s
   * precision.
   */
  lemma ConvertKnownUnits(t: string, a: string, def: string, b: string)
    requires IsNumeric(t) && FromFactor(a).Some? && IsOutputUnit(b) && a != b
    ensures ConvertSize(t + a, def, Some(b)) == ConvertToUnit(b, LeadingValue(t) * FromFactor(a).value)
    ensures b != "em" ==>
      ConvertSize(t + a, def, Some(b))
        == Ok(RoundTo(LeadingValue(t) * FromFactor(a).value / FromFactor(b).value, Precision(b)))
  {
    var s := t + a;
    TaggedNotNumeric(t, a);
    KnownUnitShape(a);
    KnownUnitShape(b);
    assert !EndsWith(s, b) by {
      assert s[|s| - 2..] == a;
    }
    TaggedConverts(t, a, b);
  }

  /** A bare number with an unrecognised input unit fails with the input-unit error. */
  lemma UnknownInputUnit(t: string, a: string, b: string)
    requires IsNumeric(t) && IsUnitWord(a) && FromFactor(a).None? && a != b
    ensures ConvertSize(t, a, Some(b)) == Err("Unknown input measure unit: " + HtmlSpecialChars(a))
  {
    TaggedReading(t, a);
  }

  /** A known input unit and an unrecognised output unit fail with the output-unit error. */
  lemma UnknownOutputUnit(t: string, a: string, b: string)
    requires IsNumeric(t) && FromFactor(a).Some? && !IsOutputUnit(b) && a != b
    ensures ConvertSize(t, a, Some(b)) == Err("Unknown output measure unit: " + HtmlSpecialChars(b))
  {
    BareNumberConverts(t, a, b);
  }

  /** Text that is not a number and does not end in a letter has no unit to read. */
  lemma NoUnitFails(num: string, def: string, out: Option<string>)
    requires !IsNumeric(num) && !EndsWith(num, out.GetOr(def))
    requires |num| == 0 || !IsLetter(num[|num| - 1])
    ensures ConvertSize(num, def, out) == Err("Unknown measure value: " + HtmlSpecialChars(num))
  {
  }

  /** The library's own size case: 100 mm is 10 cm. */
  lemma MillimetresToCentimetres()
    ensures ConvertSize("100", "mm", Some("cm")) == Ok(10.0)
  {
    HundredIsNumeric();
    MetricUnits();
    BareNumberConverts("100", "mm", "cm");
    TenOnSixPlaces();
  }

  /** The library's own size case: 1 cm is 10 mm. */
  lemma CentimetresToMillimetres()
    ensures ConvertSize("1", "cm", Some("mm")) == Ok(10.0)
  {
    OneIsNumeric();
    MetricUnits();
    BareNumberConverts("1", "cm", "mm");
    TenOnSixPlaces();
  }

  /** The library's own size case: "100px" is 75 pt. */
  lemma PixelsToPoints()
    ensures ConvertSize("100px", "pt", None) == Ok(75.0)
  {
    HundredIsNumeric();
    PixelUnits();
    ConvertKnownUnits("100", "px", "pt", "pt");
    SeventyFiveOnTwoPlaces();
  }

  /** The library's own size case: "100px" read in pixels is 100. */
  lemma PixelsAsPixels()
    ensures ConvertSize("100px", "px", None) == Ok(100.0)
  {
    HundredIsNumeric();
    PixelUnits();
    SuffixedByOutput("100", "px", "px", None);
  }

  lemma MetricUnits()
    ensures FromFactor("mm") == Some(3.78) && FromFactor("cm") == Some(37.8)
    ensures IsOutputUnit("mm") && IsOutputUnit("cm") && "mm" != "cm"
    ensures Precision("mm") == 6 && Precision("cm") == 6
  {
  }

  lemma PixelUnits()
    ensures FromFactor("px") == Some(1.0) && FromFactor("pt") == Some(96.0 / 72.0)
    ensures IsOutputUnit("pt") && "px" != "pt" && Precision("pt") == 2
    ensures IsUnitWord("px") && "100" + "px" == "100px"
  {
  }

  lemma TenOnSixPlaces()
    ensures RoundTo(10.0, 6) == 10.0
  {
    SixPlaces();
    RoundToExact(10.0, 6, 10000000);
  }

  lemma SeventyFiveOnTwoPlaces()
    ensures RoundTo(75.0, 2) == 75.0
  {
    assert Scale(2) == 100.0;
    RoundToExact(75.0, 2, 7500);
  }

  lemma SixPlaces()
    ensures Scale(6) == 1000000.0
  {
  }

  lemma HundredIsNumeric()
    ensures IsNumeric("100") && LeadingValue("100") == 100.0
  {
    NatTextIsNumeric(100);
    assert NatToString(100) == "100" by {
      assert NatToString(10) == "10";
    }
  }

  lemma OneIsNumeric()
    ensures IsNumeric("1") && LeadingValue("1") == 1.0
  {
    NatTextIsNumeric(1);
    assert NatToString(1) == "1";
  }
}

=== FILE: walker.dfy ===
/**
 * The span-tracking cell walker shared by the CSV, XLSX and ODS backends.
 *
 * Each row is scanned by an output column `j` and a shift `move`. A skip entry at `(row, j)`
 * (left by a cell spanning several rows above, or several columns to the left) stands for
 * covered columns: it is reported and shifts the remaining source cells right. The source
 * cell `j - move` is emitted when it is present and has not been emitted yet. Emitting a
 * cell that spans rows or columns seeds skip entries for later rows and for its own row.
 *
 * The backends differ only in the scan bound: XLSX stops before `colCount + move`,
 * CSV and ODS run up to it inclusively.
 */
module Walker {
  import opened Sheets

  datatype Bound = Strict | Inclusive

  /** The largest value of `j - move` the scan still visits. */
  function Limit(bound: Bound, colCount: nat): int {
    if bound == Strict then colCount - 1 else colCount
  }

  /**
   * What the scan reports at output column `col`: the source cell `src` of the row, or
   * `k` covered columns starting there.
   */
  datatype Event = Real(col: nat, src: nat) | Covered(col: nat, k: pos)

  /** Skip entries of the current row: output column to run length. */
  type SkipRow = map<nat, pos>

  /** Skip entries of later rows, by row number. */
  type Plan = map<nat, SkipRow>

  function RowOf(plan: Plan, n: nat): SkipRow {
    if n in plan then plan[n] else map[]
  }

  /**
   * The entries a cell emitted at column `j` of row `num` leaves for the rows below: for
   * each of the next `ROWS - 1` rows, `COLS ?? 1` columns at column `j`.
   */
  function SeedBelow(plan: Plan, c: Cell, num: nat, j: nat): Plan {
    SeedRows(plan, num + 1, num + c.RowSpan(), j, c.ColSpan())
  }

  /** `w` columns at column `j` in each of rows `a .. b - 1`. */
  function SeedRows(plan: Plan, a: nat, b: nat, j: nat, w: pos): Plan
    decreases b - a
  {
    if a >= b then plan else SeedRows(plan[a := RowOf(plan, a)[j := w]], a + 1, b, j, w)
  }

  lemma {:induction false} SeedRowsSpec(plan: Plan, a: nat, b: nat, j: nat, w: pos)
    ensures var r := SeedRows(plan, a, b, j, w);
      (forall n: nat :: a <= n < b ==> n in r && r[n] == RowOf(plan, n)[j := w])
      && (forall n :: n in r <==> n in plan || a <= n < b)
      && (forall n :: n in r && !(a <= n < b) ==> r[n] == plan[n])
    decreases b - a
  {
    if a < b {
      var p := plan[a := RowOf(plan, a)[j := w]];
      SeedRowsSpec(p, a + 1, b, j, w);
      assert forall n :: n != a ==> RowOf(p, n) == RowOf(plan, n);
    }
  }

  /**
   * Seeding for a cell spanning `ROWS` rows sets `COLS ?? 1` at column `j` of each of the
   * next `ROWS - 1` rows, adds no other row, and leaves every other row's entries alone.
   */
  lemma SeedBelowSpec(plan: Plan, c: Cell, num: nat, j: nat)
    ensures var r := SeedBelow(plan, c, num, j);
      (forall n: nat :: num < n < num + c.RowSpan() ==> n in r && r[n] == RowOf(plan, n)[j := c.ColSpan()])
      && (forall n :: n in r <==> n in plan || num < n < num + c.RowSpan())
      && (forall n :: n in r && !(num < n < num + c.RowSpan()) ==> r[n] == plan[n])
  {
    SeedRowsSpec(plan, num + 1, num + c.RowSpan(), j, c.ColSpan());
  }

  /** The entry a cell emitted at column `j` leaves in its own row: `COLS - 1` columns at `j + 1`. */
  function SeedRight(cur: SkipRow, c: Cell, j: nat): (r: SkipRow)
    ensures c.ColSpan() > 1 ==> r == cur[j + 1 := c.ColSpan() - 1]
    ensures c.ColSpan() <= 1 ==> r == cur
  {
    if c.ColSpan() > 1 then cur[j + 1 := c.ColSpan() - 1] else cur
  }

  /** A cell the scan emits: present, and beyond the last emitted one. */
  predicate Emits(row: seq<Cell>, h: int, last: int) {
    0 <= h < |row| && row[h] != Empty && last < h
  }

  /**
   * The state of one row's scan: output column `j`, shift `move`, last emitted source
   * index, the row's remaining skip entries and the plan for later rows.
   */
  datatype Scan = Scan(j: nat, move: nat, last: int, cur: SkipRow, plan: Plan)

  /** The skip length at the current column, 0 when there is none. */
  function SkipAt(s: Scan): nat {
    if s.j in s.cur then s.cur[s.j] else 0
  }

  /**
   * One iteration of the scan: report a skip entry at `j` (dropping it, since it is never
   * read again), then emit source cell `j - move` if it is present and new.
   */
  function Step(row: seq<Cell>, num: nat, s: Scan): (r: (seq<Event>, Scan))
    requires -1 <= s.last < |row|
    ensures -1 <= r.1.last < |row|
    ensures r.1.j == s.j + 1 && r.1.move == s.move + SkipAt(s)
    ensures r.1.last > s.last
      || (r.1.last == s.last && r.1.plan == s.plan
          && (s.j in s.cur ==> |r.1.cur| < |s.cur|) && (s.j !in s.cur ==> r.1.cur == s.cur))
  {
    var k := SkipAt(s);
    var cov := if s.j in s.cur then [Covered(s.j, s.cur[s.j])] else [];
    var rest := if s.j in s.cur then s.cur - {s.j} else s.cur;
    var h := s.j - (s.move + k);
    if Emits(row, h, s.last) then
      (cov + [Real(s.j, h)], Scan(s.j + 1, s.move + k, h, SeedRight(rest, row[h], s.j), SeedBelow(s.plan, row[h], num, s.j)))
    else
      (cov, Scan(s.j + 1, s.move + k, s.last, rest, s.plan))
  }

  /** The scan from state `s` until `j - move` passes the limit: the events and the final plan. */
  function WalkFrom(row: seq<Cell>, limit: int, num: nat, s: Scan): (r: (seq<Event>, Plan))
    requires -1 <= s.last < |row|
    decreases |row| - s.last, |s.cur|, limit + s.move - s.j
  {
    if s.j - s.move > limit then ([], s.plan)
    else
      var st := Step(row, num, s);
      var r := WalkFrom(row, limit, num, st.1);
      (st.0 + r.0, r.1)
  }

  /** One more iteration, when the scan has not passed the limit. */
  lemma WalkFromUnfold(row: seq<Cell>, limit: int, num: nat, s: Scan)
    requires -1 <= s.last < |row| && s.j - s.move <= limit
    ensures WalkFrom(row, limit, num, s).0 == Step(row, num, s).0 + WalkFrom(row, limit, num, Step(row, num, s).1).0
    ensures WalkFrom(row, limit, num, s).1 == WalkFrom(row, limit, num, Step(row, num, s).1).1
  {
  }

  /** The scan of row `num`: its skip entries are taken out of the plan, then discarded. */
  function WalkRow(row: seq<Cell>, bound: Bound, colCount: nat, num: nat, plan: Plan): (seq<Event>, Plan) {
    WalkFrom(row, Limit(bound, colCount), num, Start(plan, num))
  }

  /** A row scan as a value: from the row, its number and the incoming plan, to its events and the outgoing plan. */
  type RowWalk = (seq<Cell>, nat, Plan) -> (seq<Event>, Plan)

  /** Rows `num..` scanned in turn, each handing its plan to the next: one event list per row. */
  function Thread(rows: seq<seq<Cell>>, f: RowWalk, num: nat, plan: Plan): (r: seq<seq<Event>>)
    requires num <= |rows|
    ensures |r| == |rows| - num
    decreases |rows| - num
  {
    if num == |rows| then []
    else
      var w := f(rows[num], num, plan);
      [w.0] + Thread(rows, f, num + 1, w.1)
  }

  /** The row scan for the given bound. */
  function RowWalker(bound: Bound, colCount: nat): RowWalk {
    (row: seq<Cell>, n: nat, p: Plan) => WalkRow(row, bound, colCount, n, p)
  }

  /** The scan of rows `num..`, one event list per row. */
  function WalkRows(rows: seq<seq<Cell>>, bound: Bound, colCount: nat, num: nat, plan: Plan): (r: seq<seq<Event>>)
    requires num <= |rows|
    ensures |r| == |rows| - num
  {
    Thread(rows, RowWalker(bound, colCount), num, plan)
  }

  /** The scan of a whole sheet: exactly one event list per row. */
  function WalkSheet(s: Sheet, bound: Bound): (r: seq<seq<Event>>)
    ensures |r| == |s.rows|
  {
    WalkRows(s.rows, bound, s.colCount, 0, map[])
  }

  // ---------------------------------------------------------------------------------
  // Reference definitions

  /** Source indices of the emitted cells, in emission order. */
  function Srcs(evs: seq<Event>): seq<nat> {
    if |evs| == 0 then [] else (if evs[0].Real? then [evs[0].src] else []) + Srcs(evs[1..])
  }

  /** Indices in `[a, b)` of the present cells of `row`, in increasing order. */
  function PresentBetween(row: seq<Cell>, a: int, b: int): (r: seq<nat>)
    ensures forall x: int :: x in r <==> 0 <= x && a <= x < b && x < |row| && row[x] != Empty
    ensures forall p, q :: 0 <= p < q < |r| ==> r[p] < r[q]
    ensures forall p :: 0 <= p < |r| ==> a <= r[p]
    decreases b - a
  {
    if a >= b then []
    else (if Present1(row, a) then [a as nat] else []) + PresentBetween(row, a + 1, b)
  }

  /** Indices of the present (non-null) cells of a row, in order. */
  function Present(row: seq<Cell>): seq<nat> {
    PresentBetween(row, 0, |row|)
  }

  // ---------------------------------------------------------------------------------
  // The scan invariant

  /**
   * `m` is the largest source index already examined (after applying any skip): the
   * scan position is at most one past it, no present cell lies in `(last, m]` (all of
   * them up to `m` have been emitted), and `m` has not passed the limit.
   */
  predicate Inv(row: seq<Cell>, limit: int, s: Scan, m: int) {
    s.j - s.move <= m + 1 && s.last <= m && m <= limit
    && forall i :: s.last < i <= m && 0 <= i < |row| ==> row[i] == Empty
  }

  /** The largest examined index after one more iteration. */
  function NextM(s: Scan, m: int): int {
    if s.j - (s.move + SkipAt(s)) == m + 1 then m + 1 else m
  }

  lemma {:induction false} SrcsAppend(a: seq<Event>, b: seq<Event>)
    ensures Srcs(a + b) == Srcs(a) + Srcs(b)
    decreases |a|
  {
    if |a| > 0 {
      assert (a + b)[1..] == a[1..] + b;
      SrcsAppend(a[1..], b);
    } else {
      assert a + b == b;
    }
  }

  lemma PresentStep(row: seq<Cell>, a: int, b: int)
    requires a < b
    ensures PresentBetween(row, a, b) == (if Present1(row, a) then [a as nat] else []) + PresentBetween(row, a + 1, b)
  {
  }

  /** One iteration keeps the invariant, with `m` advanced by `NextM`. */
  lemma StepInv(row: seq<Cell>, limit: int, num: nat, s: Scan, m: int)
    requires -1 <= s.last < |row| && Inv(row, limit, s, m) && s.j - s.move <= limit
    ensures Inv(row, limit, Step(row, num, s).1, NextM(s, m))
    ensures m <= NextM(s, m) <= m + 1
  {
  }

  /**
   * What one iteration reports: nothing, one covered run (examining nothing new), or the
   * source cell just past `m`, when no skip applies and the scan stands exactly there.
   * The only source it may emit is the newly examined index, exactly when that is present.
   */
  lemma StepEvents(row: seq<Cell>, limit: int, num: nat, s: Scan, m: int)
    requires -1 <= s.last < |row| && Inv(row, limit, s, m) && s.j - s.move <= limit
    ensures var e := Step(row, num, s).0;
      e == []
      || (s.j in s.cur && e == [Covered(s.j, s.cur[s.j])] && NextM(s, m) == m)
      || (e == [Real(s.j, m + 1)] && NextM(s, m) == m + 1 && s.j == m + 1 + s.move)
    ensures Srcs(Step(row, num, s).0) == if NextM(s, m) == m + 1 && Present1(row, m + 1) then [m + 1] else []
  {
  }

  /** One iteration reports covered width equal to the skip it applies, and only an emitted cell changes the plan. */
  lemma StepMore(row: seq<Cell>, limit: int, num: nat, s: Scan, m: int)
    requires -1 <= s.last < |row| && Inv(row, limit, s, m) && s.j - s.move <= limit
    ensures CovSum(Step(row, num, s).0) == SkipAt(s)
    ensures Step(row, num, s).0 != [Real(s.j, m + 1)] ==> Step(row, num, s).1.plan == s.plan
  {
    StepEvents(row, limit, num, s, m);
  }

  /** The cell at index `i` exists and is not null. */
  predicate Present1(row: seq<Cell>, i: int) {
    0 <= i < |row| && row[i] != Empty
  }

  /** Examining one more index splits off its entry from the cells still to come. */
  lemma PresentNext(row: seq<Cell>, limit: int, m: int, m2: int)
    requires m <= m2 <= m + 1 && m2 <= limit
    ensures PresentBetween(row, m + 1, limit + 1)
      == (if m2 == m + 1 && Present1(row, m + 1) then [m + 1] else []) + PresentBetween(row, m2 + 1, limit + 1)
  {
    if m2 == m + 1 {
      PresentStep(row, m + 1, limit + 1);
    }
  }

  /**
   * The scan emits, in order, exactly the present cells it has not yet examined up to the
   * limit.
   */
  lemma {:induction false} WalkSrcs(row: seq<Cell>, limit: int, num: nat, s: Scan, m: int)
    requires -1 <= s.last < |row| && Inv(row, limit, s, m)
    ensures Srcs(WalkFrom(row, limit, num, s).0) == PresentBetween(row, m + 1, limit + 1)
    decreases |row| - s.last, |s.cur|, limit + s.move - s.j
  {
    if s.j - s.move <= limit {
      var st := Step(row, num, s);
      var m2 := NextM(s, m);
      var r := WalkFrom(row, limit, num, st.1).0;
      var head: seq<nat> := if m2 == m + 1 && Present1(row, m + 1) then [m + 1] else [];
      StepInv(row, limit, num, s, m);
      StepEvents(row, limit, num, s, m);
      PresentNext(row, limit, m, m2);
      WalkSrcs(row, limit, num, st.1, m2);
      SrcsAppend(st.0, r);
      WalkFromUnfold(row, limit, num, s);
      assert Srcs(st.0 + r) == head + PresentBetween(row, m2 + 1, limit + 1);
    } else {
      assert m == limit;
    }
  }

  /** Every column reported lies at or after `j`, and the columns strictly increase. */
  predicate ColsFrom(evs: seq<Event>, j: int) {
    (forall a :: 0 <= a < |evs| ==> evs[a].col >= j)
    && (forall a, b :: 0 <= a < b < |evs| ==> evs[a].col < evs[b].col)
  }

  lemma ColsFromAppend(e: seq<Event>, evs: seq<Event>, j: nat)
    requires |e| <= 1 && (forall a :: 0 <= a < |e| ==> e[a].col == j)
    requires ColsFrom(evs, j + 1)
    ensures ColsFrom(e + evs, j)
  {
    var s := e + evs;
    forall a, b | 0 <= a < b < |s| ensures s[a].col < s[b].col {
      assert s[b] == evs[b - |e|];
      if a >= |e| {
        assert s[a] == evs[a - |e|];
      }
    }
  }

  /**
   * Columns strictly increase: no source cell is emitted at a column where a covered run
   * starts, since the run moves the scan back over cells already examined.
   */
  lemma {:induction false} WalkCols(row: seq<Cell>, limit: int, num: nat, s: Scan, m: int)
    requires -1 <= s.last < |row| && Inv(row, limit, s, m)
    ensures ColsFrom(WalkFrom(row, limit, num, s).0, s.j)
    decreases |row| - s.last, |s.cur|, limit + s.move - s.j
  {
    if s.j - s.move <= limit {
      var st := Step(row, num, s);
      StepInv(row, limit, num, s, m);
      StepEvents(row, limit, num, s, m);
      WalkCols(row, limit, num, st.1, NextM(s, m));
      ColsFromAppend(st.0, WalkFrom(row, limit, num, st.1).0, s.j);
    }
  }

  /** Every source cell emitted from state `s` lies at column `m + 1 + move` or later. */
  predicate RealsFrom(evs: seq<Event>, c: int) {
    forall a :: 0 <= a < |evs| && evs[a].Real? ==> evs[a].col >= c
  }

  lemma RealsAppend(a: seq<Event>, b: seq<Event>, c: int, d: int)
    requires c <= d && RealsFrom(a, c) && RealsFrom(b, d)
    ensures RealsFrom(a + b, c)
  {
    forall i | 0 <= i < |a + b| && (a + b)[i].Real? ensures (a + b)[i].col >= c {
      if i >= |a| {
        assert (a + b)[i] == b[i - |a|];
      }
    }
  }

  lemma {:induction false} WalkLag(row: seq<Cell>, limit: int, num: nat, s: Scan, m: int)
    requires -1 <= s.last < |row| && Inv(row, limit, s, m)
    ensures RealsFrom(WalkFrom(row, limit, num, s).0, m + 1 + s.move)
    decreases |row| - s.last, |s.cur|, limit + s.move - s.j
  {
    if s.j - s.move <= limit {
      var st := Step(row, num, s);
      var m2 := NextM(s, m);
      StepInv(row, limit, num, s, m);
      StepEvents(row, limit, num, s, m);
      WalkLag(row, limit, num, st.1, m2);
      assert RealsFrom(st.0, m + 1 + s.move);
      RealsAppend(st.0, WalkFrom(row, limit, num, st.1).0, m + 1 + s.move, m2 + 1 + st.1.move);
      WalkFromUnfold(row, limit, num, s);
    }
  }

  /** After a covered run of `k` columns at column `c`, every emitted cell lies at `c + k` or later. */
  predicate RunsRespected(evs: seq<Event>) {
    forall a, b :: 0 <= a < b < |evs| && evs[a].Covered? && evs[b].Real? ==> evs[b].col >= evs[a].col + evs[a].k
  }

  lemma RunsAppend(e: seq<Event>, r: seq<Event>, c: int)
    requires |e| <= 1 && RunsRespected(r)
    requires forall a :: 0 <= a < |e| && e[a].Covered? ==> c >= e[a].col + e[a].k
    requires RealsFrom(r, c)
    ensures RunsRespected(e + r)
  {
    var evs := e + r;
    forall a, b | 0 <= a < b < |evs| && evs[a].Covered? && evs[b].Real? ensures evs[b].col >= evs[a].col + evs[a].k {
      assert evs[b] == r[b - |e|];
      if a >= |e| {
        assert evs[a] == r[a - |e|];
      }
    }
  }

  lemma {:induction false} WalkRuns(row: seq<Cell>, limit: int, num: nat, s: Scan, m: int)
    requires -1 <= s.last < |row| && Inv(row, limit, s, m)
    ensures RunsRespected(WalkFrom(row, limit, num, s).0)
    decreases |row| - s.last, |s.cur|, limit + s.move - s.j
  {
    if s.j - s.move <= limit {
      var st := Step(row, num, s);
      StepInv(row, limit, num, s, m);
      StepEvents(row, limit, num, s, m);
      WalkRuns(row, limit, num, st.1, NextM(s, m));
      WalkLag(row, limit, num, st.1, NextM(s, m));
      RunsAppend(st.0, WalkFrom(row, limit, num, st.1).0, NextM(s, m) + 1 + st.1.move);
    }
  }

  lemma {:induction false} PresentLimit(row: seq<Cell>, a: int, b: int)
    requires b >= |row|
    ensures PresentBetween(row, a, b) == PresentBetween(row, a, |row|)
    decreases b - a
  {
    if a < b {
      PresentLimit(row, a + 1, b);
      if a < |row| {
        PresentStep(row, a, |row|);
      }
    }
  }

  /** The initial state of a row's scan. */
  function Start(plan: Plan, num: nat): Scan {
    Scan(0, 0, -1, RowOf(plan, num), plan - {num})
  }

  /**
   * The scan of one row, when the row fits the bound: every present cell once, in source
   * order; columns strictly increase; and a covered run of `k` columns at `c` pushes
   * every later cell to `c + k` or beyond.
   */
  lemma WalkRowSpec(row: seq<Cell>, bound: Bound, colCount: nat, num: nat, plan: Plan)
    requires |row| <= Limit(bound, colCount) + 1
    ensures Srcs(WalkRow(row, bound, colCount, num, plan).0) == Present(row)
    ensures ColsFrom(WalkRow(row, bound, colCount, num, plan).0, 0)
    ensures RunsRespected(WalkRow(row, bound, colCount, num, plan).0)
    ensures Placed(WalkRow(row, bound, colCount, num, plan).0, 0)
  {
    var limit := Limit(bound, colCount);
    WalkSrcs(row, limit, num, Start(plan, num), -1);
    WalkCols(row, limit, num, Start(plan, num), -1);
    WalkRuns(row, limit, num, Start(plan, num), -1);
    WalkPlaced(row, limit, num, Start(plan, num), -1);
    PresentLimit(row, 0, limit + 1);
  }

  // ---------------------------------------------------------------------------------
  // Placement: where each emitted cell lands

  /** Total width of the covered runs in `evs`. */
  function CovSum(evs: seq<Event>): nat {
    if |evs| == 0 then 0 else (if evs[0].Covered? then evs[0].k else 0) + CovSum(evs[1..])
  }

  lemma {:induction false} CovSumAppend(a: seq<Event>, b: seq<Event>)
    ensures CovSum(a + b) == CovSum(a) + CovSum(b)
    decreases |a|
  {
    if |a| > 0 {
      assert (a + b)[1..] == a[1..] + b;
      CovSumAppend(a[1..], b);
    } else {
      assert a + b == b;
    }
  }

  /**
   * Every emitted source cell lands at its own index, shifted right by `base` plus the
   * width of all covered runs reported before it.
   */
  predicate Placed(evs: seq<Event>, base: int) {
    forall a :: 0 <= a < |evs| && evs[a].Real? ==> evs[a].col == evs[a].src + base + CovSum(evs[..a])
  }

  lemma PlacedAppend(e: seq<Event>, r: seq<Event>, base: int)
    requires Placed(e, base) && Placed(r, base + CovSum(e))
    ensures Placed(e + r, base)
  {
    var evs := e + r;
    forall a | 0 <= a < |evs| && evs[a].Real? ensures evs[a].col == evs[a].src + base + CovSum(evs[..a]) {
      if a < |e| {
        assert evs[..a] == e[..a];
      } else {
        assert evs[a] == r[a - |e|];
        assert evs[..a] == e + r[..a - |e|];
        CovSumAppend(e, r[..a - |e|]);
      }
    }
  }

  lemma {:induction false} WalkPlaced(row: seq<Cell>, limit: int, num: nat, s: Scan, m: int)
    requires -1 <= s.last < |row| && Inv(row, limit, s, m)
    ensures Placed(WalkFrom(row, limit, num, s).0, s.move)
    decreases |row| - s.last, |s.cur|, limit + s.move - s.j
  {
    if s.j - s.move <= limit {
      var st := Step(row, num, s);
      StepInv(row, limit, num, s, m);
      StepEvents(row, limit, num, s, m);
      StepMore(row, limit, num, s, m);
      WalkPlaced(row, limit, num, st.1, NextM(s, m));
      assert Placed(st.0, s.move) by {
        if st.0 == [Real(s.j, m + 1)] {
          assert st.0[..0] == [];
        }
      }
      PlacedAppend(st.0, WalkFrom(row, limit, num, st.1).0, s.move);
    }
  }

  // ---------------------------------------------------------------------------------
  // The two bounds

  predicate AllCovered(evs: seq<Event>) {
    forall a :: 0 <= a < |evs| ==> evs[a].Covered?
  }

  /**
   * Once every present cell has been examined, the scan only reports covered runs and
   * leaves the plan as it was.
   */
  lemma {:induction false} NoRealsTail(row: seq<Cell>, limit: int, num: nat, s: Scan, m: int)
    requires -1 <= s.last < |row| && Inv(row, limit, s, m) && m + 1 >= |row|
    ensures AllCovered(WalkFrom(row, limit, num, s).0)
    ensures WalkFrom(row, limit, num, s).1 == s.plan
    decreases |row| - s.last, |s.cur|, limit + s.move - s.j
  {
    if s.j - s.move <= limit {
      var st := Step(row, num, s);
      StepInv(row, limit, num, s, m);
      StepEvents(row, limit, num, s, m);
      StepMore(row, limit, num, s, m);
      assert st.0 != [Real(s.j, m + 1)] by {
        assert Srcs(st.0) == [];
      }
      NoRealsTail(row, limit, num, st.1, NextM(s, m));
      var r := WalkFrom(row, limit, num, st.1).0;
      forall a | 0 <= a < |st.0 + r| ensures (st.0 + r)[a].Covered? {
        if a >= |st.0| {
          assert (st.0 + r)[a] == r[a - |st.0|];
        }
      }
    }
  }

  /**
   * Raising the limit by one past the end of the row only appends covered runs: the same
   * cells are emitted at the same columns and the plan for later rows is the same.
   */
  lemma {:induction false} WalkOneFurther(row: seq<Cell>, limit: int, num: nat, s: Scan, m: int)
    requires -1 <= s.last < |row| && Inv(row, limit, s, m) && |row| <= limit + 1
    ensures PrefixUpToRuns(WalkFrom(row, limit, num, s).0, WalkFrom(row, limit + 1, num, s).0)
    ensures WalkFrom(row, limit, num, s).1 == WalkFrom(row, limit + 1, num, s).1
    decreases |row| - s.last, |s.cur|, limit + s.move - s.j
  {
    if s.j - s.move <= limit {
      var st := Step(row, num, s);
      StepInv(row, limit, num, s, m);
      WalkOneFurther(row, limit, num, st.1, NextM(s, m));
      var a := WalkFrom(row, limit, num, st.1);
      var b := WalkFrom(row, limit + 1, num, st.1);
      assert WalkFrom(row, limit, num, s) == (st.0 + a.0, a.1);
      assert WalkFrom(row, limit + 1, num, s) == (st.0 + b.0, b.1);
      PrefixPrepend(st.0, a.0, b.0);
    } else {
      NoRealsTail(row, limit + 1, num, s, m);
      var b := WalkFrom(row, limit + 1, num, s).0;
      assert b[0..] == b;
    }
  }

  lemma PrefixPrepend(e: seq<Event>, a: seq<Event>, b: seq<Event>)
    requires PrefixUpToRuns(a, b)
    ensures PrefixUpToRuns(e + a, e + b)
  {
    assert (e + b)[|e + a|..] == b[|a|..];
    assert e + b == e + a + b[|a|..] by {
      assert b == a + b[|a|..];
    }
  }

  /**
   * For a row within the column count, the strict scan (XLSX) is a prefix of the inclusive
   * one (CSV, ODS): the extra iterations report only covered runs at the end of the row
   * and change nothing for later rows.
   */
  lemma StrictIsPrefix(row: seq<Cell>, colCount: nat, num: nat, plan: Plan)
    requires |row| <= colCount
    ensures PrefixUpToRuns(WalkRow(row, Strict, colCount, num, plan).0, WalkRow(row, Inclusive, colCount, num, plan).0)
    ensures WalkRow(row, Strict, colCount, num, plan).1 == WalkRow(row, Inclusive, colCount, num, plan).1
  {
    var st := Start(plan, num);
    var lim := Limit(Strict, colCount);
    assert Limit(Inclusive, colCount) == lim + 1;
    WalkOneFurther(row, lim, num, st, -1);
  }

  /** Every key of the plan lies after row `num`. */
  predicate PlanAfter(plan: Plan, num: int) {
    forall n :: n in plan ==> n > num
  }

  lemma {:induction false} WalkPlanAfter(row: seq<Cell>, limit: int, num: nat, s: Scan)
    requires -1 <= s.last < |row| && PlanAfter(s.plan, num)
    ensures PlanAfter(WalkFrom(row, limit, num, s).1, num)
    decreases |row| - s.last, |s.cur|, limit + s.move - s.j
  {
    if s.j - s.move <= limit {
      var h := s.j - (s.move + SkipAt(s));
      if Emits(row, h, s.last) {
        SeedBelowSpec(s.plan, row[h], num, s.j);
      }
      WalkPlanAfter(row, limit, num, Step(row, num, s).1);
    }
  }

  /**
   * A row's skip entries are used by that row alone: after the scan of row `num` the plan
   * holds entries for later rows only.
   */
  lemma RowEntriesDiscarded(row: seq<Cell>, bound: Bound, colCount: nat, num: nat, plan: Plan)
    requires PlanAfter(plan, num - 1)
    ensures PlanAfter(WalkRow(row, bound, colCount, num, plan).1, num)
  {
    WalkPlanAfter(row, Limit(bound, colCount), num, Start(plan, num));
  }

  // ---------------------------------------------------------------------------------
  // Whole sheets

  /** A row's events emit its present cells in order, at increasing, correctly shifted columns. */
  predicate RowScanned(row: seq<Cell>, evs: seq<Event>) {
    Srcs(evs) == Present(row) && ColsFrom(evs, 0) && RunsRespected(evs) && Placed(evs, 0)
  }

  /** The strict events are the inclusive ones less some trailing covered runs. */
  predicate PrefixUpToRuns(a: seq<Event>, b: seq<Event>) {
    a <= b && AllCovered(b[|a|..])
  }

  /** Rows `num..` threaded by a row scan whose every row satisfies `ok` under any plan, all satisfy it. */
  lemma {:induction false} ThreadAll(rows: seq<seq<Cell>>, f: RowWalk, ok: (seq<Cell>, seq<Event>) -> bool, num: nat, plan: Plan)
    requires num <= |rows|
    requires forall k, p :: num <= k < |rows| ==> ok(rows[k], f(rows[k], k, p).0)
    ensures forall i :: num <= i < |rows| ==> ok(rows[i], Thread(rows, f, num, plan)[i - num])
    decreases |rows| - num
  {
    if num < |rows| {
      var w := f(rows[num], num, plan);
      var rest := Thread(rows, f, num + 1, w.1);
      ThreadAll(rows, f, ok, num + 1, w.1);
      assert Thread(rows, f, num, plan) == [w.0] + rest;
      forall i | num <= i < |rows| ensures ok(rows[i], ([w.0] + rest)[i - num]) {
        if i > num {
          assert ([w.0] + rest)[i - num] == rest[i - (num + 1)];
        }
      }
    }
  }

  /**
   * Rows threaded by two row scans that hand on the same plan, where on every row the first
   * is a prefix of the second up to covered runs: so is every row of the result.
   */
  lemma {:induction false} ThreadPrefix(rows: seq<seq<Cell>>, f: RowWalk, g: RowWalk, num: nat, plan: Plan)
    requires num <= |rows|
    requires forall k, p :: num <= k < |rows| ==> f(rows[k], k, p).1 == g(rows[k], k, p).1
    requires forall k, p :: num <= k < |rows| ==> PrefixUpToRuns(f(rows[k], k, p).0, g(rows[k], k, p).0)
    ensures forall i :: 0 <= i < |rows| - num ==> PrefixUpToRuns(Thread(rows, f, num, plan)[i], Thread(rows, g, num, plan)[i])
    decreases |rows| - num
  {
    if num < |rows| {
      var v := f(rows[num], num, plan);
      var w := g(rows[num], num, plan);
      var a := Thread(rows, f, num + 1, v.1);
      var b := Thread(rows, g, num + 1, w.1);
      ThreadPrefix(rows, f, g, num + 1, v.1);
      assert v.1 == w.1;
      assert Thread(rows, f, num, plan) == [v.0] + a;
      assert Thread(rows, g, num, plan) == [w.0] + b;
      forall i | 0 <= i < |rows| - num ensures PrefixUpToRuns(([v.0] + a)[i], ([w.0] + b)[i]) {
        if i > 0 {
          assert ([v.0] + a)[i] == a[i - 1];
          assert ([w.0] + b)[i] == b[i - 1];
        }
      }
    }
  }

  /** The scan of every row is complete, ordered and placed, for either bound. */
  lemma WalkRowsSpec(rows: seq<seq<Cell>>, bound: Bound, colCount: nat, num: nat, plan: Plan)
    requires num <= |rows|
    requires forall i :: 0 <= i < |rows| ==> |rows[i]| <= colCount
    ensures forall i :: num <= i < |rows| ==> RowScanned(rows[i], WalkRows(rows, bound, colCount, num, plan)[i - num])
  {
    var ok := (row: seq<Cell>, evs: seq<Event>) => RowScanned(row, evs);
    forall k, p | num <= k < |rows| ensures ok(rows[k], RowWalker(bound, colCount)(rows[k], k, p).0) {
      WalkRowSpec(rows[k], bound, colCount, k, p);
    }
    ThreadAll(rows, RowWalker(bound, colCount), ok, num, plan);
  }

  /** On rows that fit the column count, the XLSX scan of each row is a prefix of the CSV/ODS scan of it. */
  lemma StrictRowsPrefix(rows: seq<seq<Cell>>, colCount: nat, num: nat, plan: Plan)
    requires num <= |rows|
    requires forall i :: 0 <= i < |rows| ==> |rows[i]| <= colCount
    ensures forall i :: 0 <= i < |rows| - num ==>
      PrefixUpToRuns(WalkRows(rows, Strict, colCount, num, plan)[i], WalkRows(rows, Inclusive, colCount, num, plan)[i])
  {
    var f := RowWalker(Strict, colCount);
    var g := RowWalker(Inclusive, colCount);
    forall k, p | num <= k < |rows|
      ensures f(rows[k], k, p).1 == g(rows[k], k, p).1 && PrefixUpToRuns(f(rows[k], k, p).0, g(rows[k], k, p).0)
    {
      StrictIsPrefix(rows[k], colCount, k, p);
    }
    ThreadPrefix(rows, f, g, num, plan);
  }

  /** Sheet-level summary: complete, ordered, placed, and the two bounds agree up to trailing runs. */
  lemma WalkSheetSpec(s: Sheet)
    requires Valid(s)
    ensures forall i :: 0 <= i < |s.rows| ==> RowScanned(s.rows[i], WalkSheet(s, Inclusive)[i])
    ensures forall i :: 0 <= i < |s.rows| ==> RowScanned(s.rows[i], WalkSheet(s, Strict)[i])
    ensures forall i :: 0 <= i < |s.rows| ==> PrefixUpToRuns(WalkSheet(s, Strict)[i], WalkSheet(s, Inclusive)[i])
  {
    WalkSheetScanned(s, Inclusive);
    WalkSheetScanned(s, Strict);
    WalkSheetPrefix(s);
  }

  /** Every row of a sheet is scanned completely, in order and in place, for the given bound. */
  lemma WalkSheetScanned(s: Sheet, bound: Bound)
    requires Valid(s)
    ensures forall i :: 0 <= i < |s.rows| ==> RowScanned(s.rows[i], WalkSheet(s, bound)[i])
  {
    WalkRowsSpec(s.rows, bound, s.colCount, 0, map[]);
  }

  /** On a sheet, each strict row scan is the inclusive one less trailing covered runs. */
  lemma WalkSheetPrefix(s: Sheet)
    requires Valid(s)
    ensures forall i :: 0 <= i < |s.rows| ==> PrefixUpToRuns(WalkSheet(s, Strict)[i], WalkSheet(s, Inclusive)[i])
  {
    StrictRowsPrefix(s.rows, s.colCount, 0, map[]);
  }

  // ---------------------------------------------------------------------------------
  // Sources of emitted cells

  /** Every emitted source index names a present cell of the row. */
  predicate Sourced(row: seq<Cell>, evs: seq<Event>) {
    forall a :: 0 <= a < |evs| && evs[a].Real? ==> evs[a].src < |row| && row[evs[a].src] != Empty
  }

  lemma {:induction false} WalkSourced(row: seq<Cell>, evs: seq<Event>)
    requires Srcs(evs) == Present(row)
    ensures Sourced(row, evs)
  {
    forall a | 0 <= a < |evs| && evs[a].Real? ensures evs[a].src < |row| && row[evs[a].src] != Empty {
      SrcsMember(evs, a);
    }
  }

  lemma {:induction false} SrcsMember(evs: seq<Event>, a: nat)
    requires a < |evs| && evs[a].Real?
    ensures evs[a].src in Srcs(evs)
  {
    if a > 0 {
      SrcsMember(evs[1..], a - 1);
    }
  }

  /** Every source listed is emitted by some event. */
  lemma {:induction false} SrcsHas(evs: seq<Event>, x: nat)
    requires x in Srcs(evs)
    ensures exists a :: 0 <= a < |evs| && evs[a].Real? && evs[a].src == x
  {
    if evs[0].Real? && evs[0].src == x {
    } else {
      SrcsHas(evs[1..], x);
      var a :| 0 <= a < |evs[1..]| && evs[1..][a].Real? && evs[1..][a].src == x;
      assert evs[a + 1] == evs[1..][a];
    }
  }
}

=== FILE: workbook.dfy ===
/**
 * The exporter's document state shared by every backend: the default style, the ordered
 * sheet list with its unique-name rule (`checkUniqueName`, `addSheet`, `insertSheet`),
 * and the style registry.
 */
module Workbook {
  import opened Wrappers
  import opened Text
  import opened Numeric
  import opened Sheets
  import opened Styles

  /** `defaultStyle` is `None` until `setDefault` is called (PHP's empty array). */
  datatype Exporter = Exporter(defaultStyle: Option<Style>, sheets: seq<Sheet>, styles: Registry)

  const NewExporter := Exporter(None, [], [])

  function Names(sheets: seq<Sheet>): set<string> {
    set i | 0 <= i < |sheets| :: sheets[i].name
  }

  /** `$sheet->getName() == $x` holds for some sheet: PHP compares the names loosely. */
  predicate Taken(sheets: seq<Sheet>, x: string) {
    exists i :: 0 <= i < |sheets| && LooseEq(sheets[i].name, x)
  }

  /** No two sheets have names that PHP's `==` considers equal. */
  predicate DistinctNames(sheets: seq<Sheet>) {
    forall i, j :: 0 <= i < j < |sheets| ==> !LooseEq(sheets[i].name, sheets[j].name)
  }

  /** The name tried at attempt `count`: the base itself, then `base_1`, `base_2`, ... */
  function Candidate(base: string, count: nat): string {
    base + (if count == 0 then "" else "_" + NatToString(count))
  }

  /** Distinct attempts give distinct names. */
  lemma CandidateInjective(base: string, m: nat, n: nat)
    requires Candidate(base, m) == Candidate(base, n)
    ensures m == n
  {
    CandidateLength(base, m);
    CandidateLength(base, n);
    if m > 0 && n > 0 {
      var c := Candidate(base, m);
      assert c[|base| + 1..] == NatToString(m);
      assert c[|base| + 1..] == NatToString(n);
      NatToStringInjective(m, n);
    }
  }

  lemma CandidateLength(base: string, k: nat)
    ensures k == 0 <==> |Candidate(base, k)| == |base|
  {
  }

  /** A suffixed candidate holds an underscore, so it is never numeric and matches only itself. */
  lemma SuffixedTaken(sheets: seq<Sheet>, base: string, k: nat)
    requires k >= 1
    ensures Taken(sheets, Candidate(base, k)) <==> Candidate(base, k) in Names(sheets)
  {
    var c := Candidate(base, k);
    assert c[|base|] == '_';
    forall i | 0 <= i < |sheets| ensures LooseEq(sheets[i].name, c) <==> sheets[i].name == c {
      LooseEqExact(sheets[i].name, c, |base|);
    }
  }

  /** The used names that a later attempt (from `count` on) could still hit. */
  ghost function Ahead(names: set<string>, base: string, count: nat): set<string> {
    set x | x in names && exists m: nat :: m >= count && x == Candidate(base, m)
  }

  lemma {:induction false} SubsetCard<T>(a: set<T>, b: set<T>)
    requires a <= b
    ensures |a| <= |b|
    decreases |a|
  {
    if a != {} {
      var y :| y in a;
      SubsetCard(a - {y}, b - {y});
    }
  }

  lemma AheadShrinks(names: set<string>, base: string, count: nat)
    requires Candidate(base, count) in names
    ensures |Ahead(names, base, count + 1)| < |Ahead(names, base, count)|
  {
    var c := Candidate(base, count);
    var a := Ahead(names, base, count + 1);
    var b := Ahead(names, base, count);
    assert c in b;
    forall x | x in a ensures x in b - {c} {
      var m: nat :| m >= count + 1 && x == Candidate(base, m);
      if x == c {
        CandidateInjective(base, m, count);
      }
    }
    SubsetCard(a, b - {c});
  }

  lemma AheadNarrows(names: set<string>, base: string, count: nat)
    ensures |Ahead(names, base, count + 1)| <= |Ahead(names, base, count)|
  {
    SubsetCard(Ahead(names, base, count + 1), Ahead(names, base, count));
  }

  /** What the search for a free name still has ahead of it: one more step while on the bare base. */
  ghost function Remaining(names: set<string>, base: string, count: nat): nat {
    |Ahead(names, base, count)| + (if count == 0 then 1 else 0)
  }

  /**
   * The first attempt from `count` on whose name `used` rejects, for any test of use that
   * holds of a suffixed name only when it is in `names`.
   */
  function FirstFree(used: string -> bool, names: set<string>, base: string, count: nat): (m: nat)
    requires forall k: nat :: k >= 1 && used(Candidate(base, k)) ==> Candidate(base, k) in names
    ensures m >= count && !used(Candidate(base, m))
    ensures forall k :: count <= k < m ==> used(Candidate(base, k))
    decreases Remaining(names, base, count)
  {
    if used(Candidate(base, count)) then
      if count == 0 then
        AheadNarrows(names, base, 0);
        FirstFree(used, names, base, 1)
      else
        AheadShrinks(names, base, count);
        FirstFree(used, names, base, count + 1)
    else count
  }

  lemma SuffixedUsed(sheets: seq<Sheet>, base: string)
    ensures forall k: nat :: k >= 1 && Taken(sheets, Candidate(base, k)) ==> Candidate(base, k) in Names(sheets)
  {
    forall k: nat | k >= 1 && Taken(sheets, Candidate(base, k)) ensures Candidate(base, k) in Names(sheets) {
      SuffixedTaken(sheets, base, k);
    }
  }

  /**
   * The attempt number `checkUniqueName` settles on: the first one from `count` on whose
   * name no sheet's name equals under PHP's `==`.
   */
  function UniqueIndex(sheets: seq<Sheet>, base: string, count: nat): (m: nat)
    ensures m >= count && !Taken(sheets, Candidate(base, m))
    ensures forall k :: count <= k < m ==> Taken(sheets, Candidate(base, k))
  {
    SuffixedUsed(sheets, base);
    FirstFree(x => Taken(sheets, x), Names(sheets), base, count)
  }

  /** `checkUniqueName($newName, $count)` over the current sheets. */
  function CheckUniqueName(sheets: seq<Sheet>, base: string, count: nat): string {
    Candidate(base, UniqueIndex(sheets, base, count))
  }

  /**
   * The result equals no sheet's name under PHP's `==`; it is the base itself when that is
   * free, and otherwise `base_N` for the least N >= 1 that is not literally a sheet's name.
   */
  lemma CheckUniqueNameSpec(sheets: seq<Sheet>, base: string)
    ensures !Taken(sheets, CheckUniqueName(sheets, base, 0))
    ensures !Taken(sheets, base) ==> CheckUniqueName(sheets, base, 0) == base
    ensures Taken(sheets, base) ==>
      exists n: nat :: n >= 1 && CheckUniqueName(sheets, base, 0) == base + "_" + NatToString(n)
        && forall k :: 1 <= k < n ==> base + "_" + NatToString(k) in Names(sheets)
  {
    var n := UniqueIndex(sheets, base, 0);
    assert Candidate(base, 0) == base;
    if Taken(sheets, base) {
      assert n >= 1;
      forall k | 1 <= k < n ensures base + "_" + NatToString(k) in Names(sheets) {
        assert Taken(sheets, Candidate(base, k));
        SuffixedTaken(sheets, base, k);
        assert Candidate(base, k) == base + "_" + NatToString(k);
      }
      assert CheckUniqueName(sheets, base, 0) == base + "_" + NatToString(n);
    }
  }

  /** `checkUniqueName($name) == $name` holds exactly when the name is free. */
  lemma CheckedEqualsBase(sheets: seq<Sheet>, base: string)
    ensures LooseEq(CheckUniqueName(sheets, base, 0), base) <==> !Taken(sheets, base)
  {
    CheckUniqueNameSpec(sheets, base);
    var found := CheckUniqueName(sheets, base, 0);
    if Taken(sheets, base) {
      var n: nat :| n >= 1 && found == base + "_" + NatToString(n);
      assert found[|base|] == '_';
      LooseEqExact(base, found, |base|);
    }
  }

  /** `addSheet`: a sheet whose name PHP finds equal to a used one is rejected, otherwise appended. */
  function AddSheet(ex: Exporter, sheet: Sheet): (r: Result<Exporter>)
    ensures r.Err? <==> Taken(ex.sheets, sheet.name)
    ensures r.Err? ==> r.error == "Sheet name already exists."
    ensures r.Ok? ==> r.value == ex.(sheets := ex.sheets + [sheet])
  {
    CheckedEqualsBase(ex.sheets, sheet.name);
    if !LooseEq(CheckUniqueName(ex.sheets, sheet.name, 0), sheet.name) then Err("Sheet name already exists.")
    else Ok(ex.(sheets := ex.sheets + [sheet]))
  }

  /** `insertSheet`: a new empty sheet under the first free variant of the name. */
  function InsertSheet(ex: Exporter, name: string): (r: (Exporter, Sheet))
    ensures r.0 == ex.(sheets := ex.sheets + [r.1])
    ensures !Taken(ex.sheets, r.1.name) && r.1.rows == [] && r.1.colCount == 0
    ensures !Taken(ex.sheets, name) ==> r.1.name == name
  {
    CheckUniqueNameSpec(ex.sheets, name);
    var sheet := NewSheet(CheckUniqueName(ex.sheets, name, 0));
    (ex.(sheets := ex.sheets + [sheet]), sheet)
  }

  /** Sheet names stay pairwise distinct under PHP's `==` for both ways of adding a sheet. */
  lemma AddingKeepsNamesDistinct(ex: Exporter, sheet: Sheet, name: string)
    requires DistinctNames(ex.sheets)
    ensures AddSheet(ex, sheet).Ok? ==> DistinctNames(AddSheet(ex, sheet).value.sheets)
    ensures DistinctNames(InsertSheet(ex, name).0.sheets)
  {
    forall s: Sheet | !Taken(ex.sheets, s.name) ensures DistinctNames(ex.sheets + [s]) {
      var a := ex.sheets + [s];
      forall i, j | 0 <= i < j < |a| ensures !LooseEq(a[i].name, a[j].name) {
        if j == |ex.sheets| {
          assert a[i] == ex.sheets[i];
        } else {
          assert a[i] == ex.sheets[i] && a[j] == ex.sheets[j];
        }
      }
    }
  }

  /** "1" and "1.0" are the same name to PHP: the second is refused, or renamed to "1.0_1". */
  lemma NumericNamesClash(ex: Exporter)
    requires ex.sheets == [NewSheet("1")]
    ensures AddSheet(ex, NewSheet("1.0")).Err?
    ensures InsertSheet(ex, "1.0").1.name == "1.0_1"
  {
    OneTaken(ex.sheets);
    OneSuffixFree(ex.sheets);
    var m := UniqueIndex(ex.sheets, "1.0", 0);
    assert Candidate("1.0", 0) == "1.0";
    assert m == 1;
  }

  lemma OneTaken(sheets: seq<Sheet>)
    requires sheets == [NewSheet("1")]
    ensures Taken(sheets, "1.0")
  {
    OneIsNumeric();
    assert LooseEq(sheets[0].name, "1.0");
  }

  lemma OneSuffixFree(sheets: seq<Sheet>)
    requires sheets == [NewSheet("1")]
    ensures Candidate("1.0", 1) == "1.0_1" && !Taken(sheets, "1.0_1")
  {
    assert NatToString(1) == "1";
    SuffixedTaken(sheets, "1.0", 1);
    assert "1.0_1" != sheets[0].name;
  }

  lemma OneIsNumeric()
    ensures IsNumeric("1") && IsNumeric("1.0")
    ensures LeadingValue("1") == 1.0 && LeadingValue("1.0") == 1.0
  {
    NatTextIsNumeric(1);
    assert NatToString(1) == "1";
    OnePointZero();
  }

  lemma OnePointZero()
    ensures ScanPrefix("1.0") == Prefix(0, 1, true, 1)
    ensures IsNumeric("1.0") && LeadingValue("1.0") == 1.0
  {
    var s := "1.0";
    assert DigitRun(s, 0) == 1 by { assert DigitRun(s, 1) == 0; }
    assert DigitRun(s, 2) == 1;
    assert s[0..1] == "1" && s[2..3] == "0";
  }

  /** `addStyle` on the exporter: the registry changes, nothing else. */
  function ExporterAddStyle(ex: Exporter, mark: string, font: Font, cell: CellStyle, height: Option<int>): (r: Result<Exporter>)
    ensures r.Err? <==> !ValidMark(mark)
    ensures r.Ok? ==> r.value.sheets == ex.sheets && r.value.defaultStyle == ex.defaultStyle
    ensures r.Ok? ==> Lookup(r.value.styles, mark) == Some(Style(font, PrepareBorder(cell), height))
  {
    var reg :- AddStyle(ex.styles, mark, font, cell, height);
    Ok(ex.(styles := reg))
  }
}

=== FILE: wrappers.dfy ===
/** Failure-carrying datatypes shared by every module of the model. */
module Wrappers {

  /** An optional value: PHP's `null` or an unset array key. */
  datatype Option<+T> = None | Some(value: T) {

    /** The carried value, or `default` when there is none (PHP's `??`). */
    function GetOr(default: T): T {
      match this
      case Some(v) => v
      case None => default
    }
  }

  /** The outcome of an operation that can throw an exception in the source. */
  datatype Result<+R> = Ok(value: R) | Err(error: string) {

    predicate IsFailure() {
      Err?
    }

    function PropagateFailure<U>(): Result<U>
      requires Err?
    {
      Err(error)
    }

    function Extract(): R
      requires Ok?
    {
      value
    }
  }

  /** The texts of a run of results joined in order, or the first failure among them. */
  function ConcatOk(rs: seq<Result<string>>): (r: Result<string>)
    ensures r.Err? <==> exists j :: 0 <= j < |rs| && rs[j].Err?
  {
    if |rs| == 0 then Ok("")
    else if rs[0].Err? then Err(rs[0].error)
    else
      var rest :- ConcatOk(rs[1..]);
      Ok(rs[0].value + rest)
  }
}

=== FILE: xlsx.dfy ===
/**
 * The worksheet part of the XLSX backend (`ExporterXlsx`): cell elements with their
 * style index and type, covered cells under merges, merge ranges, row heights, the
 * header row, the rows of a sheet, the relationship ids of the sheets and colours.
 */
module Xlsx {
  import opened Wrappers
  import opened Text
  import opened Numeric
  import opened Xml
  import opened Sheets
  import opened Styles
  import opened Walker
  import opened Alpha

  /** One `<c>` element: reference, `s` attribute, type, formula and (escaped) content. */
  datatype XCell = XCell(ref: string, style: Option<nat>, numeric: bool, formula: Option<string>, text: string)

  function Render(x: XCell): string {
    "<c r=\"" + x.ref + "\""
    + (if x.style.Some? then " s=\"" + NatToString(x.style.value) + "\"" else "")
    + " t=\"" + (if x.numeric then "n" else "inlineStr") + "\">"
    + (if x.formula.Some? then "<f aca=\"false\">" + x.formula.value + "</f>" else "")
    + (if x.numeric then "<v>" + x.text + "</v>" else "<is><t>" + x.text + "</t></is>")
    + "</c>"
  }

  /**
   * The `n` type test: a PHP int or float, or a numeric string starting with a digit (so
   * "-5", "+5" and ".5" are written as strings).
   */
  predicate IsNumCell(v: Value) {
    v.Num? || (IsNumeric(v.s) && |v.s| > 0 && IsDigit(v.s[0]))
  }

  /** A cell whose own STYLE names no registered style. */
  predicate BadCell(c: Cell, reg: Registry) {
    c.Span? && c.style.Some? && Lookup(reg, c.style.value).None?
  }

  /** The `s` attribute: one past the class's position among the registered styles, for a truthy class. */
  function StyleIndex(cls: Option<string>, reg: Registry): (r: Option<nat>)
    requires TruthyOpt(cls) ==> IndexOf(reg, cls.value).Some?
    ensures r.Some? <==> TruthyOpt(cls)
    ensures r.Some? ==> 1 <= r.value <= |reg| && reg[r.value - 1].0 == cls.value
    ensures r.Some? ==> forall i :: 0 <= i < r.value - 1 ==> reg[i].0 != cls.value
  {
    if TruthyOpt(cls) then Some(IndexOf(reg, cls.value).value + 1) else None
  }

  /** `ROWS ?? 1` and `COLS ?? 1` of a spanning cell give the merged rectangle. */
  predicate Spans(c: Cell) {
    c.ColSpan() > 1 || c.RowSpan() > 1
  }

  /**
   * What the `<c>` element `x` of cell `c` at column `col` of line `line` holds: its
   * reference, the number flag and the text that decodes back to the shown value, the
   * position of the cell's class among the registered styles, and the decodable formula.
   */
  ghost predicate ElementOf(x: XCell, c: Cell, col: nat, line: nat, rowClass: Option<string>, reg: Registry)
    requires c != Empty
  {
    ParseRef(x.ref) == Some((col as int, line))
    && x.numeric == IsNumCell(c.Shown())
    && (x.numeric ==> x.text == c.Shown().Text())
    && Unescape(x.text) == c.Shown().Text()
    && (x.style.Some? <==> TruthyOpt(CellClass(c, rowClass)))
    && (x.style.Some? ==> 1 <= x.style.value <= |reg| && reg[x.style.value - 1].0 == CellClass(c, rowClass).value)
    && (x.formula.Some? <==> c.Span? && c.formula.Some? && !Falsy(c.formula.value))
    && (x.formula.Some? ==> Unescape(x.formula.value) == c.formula.value)
  }

  /**
   * `getCell`/`getCellValue` for a present cell emitted at column `col` of sheet line
   * `line`: the element, and the merge range of a spanning cell.
   */
  function GetCell(c: Cell, col: nat, line: nat, rowClass: Option<string>, reg: Registry): (r: Result<(XCell, Option<(string, string)>)>)
    requires c != Empty
    requires TruthyOpt(rowClass) ==> Lookup(reg, rowClass.value).Some?
    ensures r.Err? <==> BadCell(c, reg)
    ensures r.Err? ==> r.error == "Missing style: " + HtmlSpecialChars(c.style.value)
    ensures r.Ok? ==> ElementOf(r.value.0, c, col, line, rowClass, reg)
    ensures r.Ok? ==> (r.value.1.Some? <==> Spans(c))
    ensures r.Ok? && r.value.1.Some? ==>
      ParseRef(r.value.1.value.0) == Some((col as int, line))
      && ParseRef(r.value.1.value.1) == Some(((col + c.ColSpan() - 1) as int, line + c.RowSpan() - 1))
  {
    if BadCell(c, reg) then Err("Missing style: " + HtmlSpecialChars(c.style.value))
    else Ok((CellElement(c, col, line, rowClass, reg), MergeRange(c, col, line)))
  }

  /** The `<c>` element of a present cell whose own style is registered. */
  function CellElement(c: Cell, col: nat, line: nat, rowClass: Option<string>, reg: Registry): (x: XCell)
    requires c != Empty && !BadCell(c, reg)
    requires TruthyOpt(rowClass) ==> Lookup(reg, rowClass.value).Some?
    ensures ElementOf(x, c, col, line, rowClass, reg)
  {
    var txt := CellText(c.Shown());
    XCell(RefAt(col, line), CellStyle(c, rowClass, reg), txt.0, CellFormula(c), txt.1)
  }

  /** The `r` attribute of the cell at column `col` of line `line`. */
  function RefAt(col: nat, line: nat): (r: string)
    ensures ParseRef(r) == Some((col as int, line))
  {
    ParseCellRef(col, line);
    CellRef(col, line)
  }

  /** The `s` attribute of a good cell: the position of its class, when truthy. */
  function CellStyle(c: Cell, rowClass: Option<string>, reg: Registry): (si: Option<nat>)
    requires !BadCell(c, reg)
    requires TruthyOpt(rowClass) ==> Lookup(reg, rowClass.value).Some?
    ensures si.Some? <==> TruthyOpt(CellClass(c, rowClass))
    ensures si.Some? ==> 1 <= si.value <= |reg| && reg[si.value - 1].0 == CellClass(c, rowClass).value
  {
    CellClassKnown(c, rowClass, reg);
    StyleIndex(CellClass(c, rowClass), reg)
  }

  /** Whether a value is written as a number, and its escaped text, which decodes back to it. */
  function CellText(v: Value): (r: (bool, string))
    ensures r.0 == IsNumCell(v) && (r.0 ==> r.1 == v.Text()) && Unescape(r.1) == v.Text()
  {
    var num := IsNumCell(v);
    XmlEntitiesRoundTrip(v.Text());
    assert num ==> Unescape(v.Text()) == v.Text() by {
      if num && v.Str? {
        NumericHasNoAmpersand(v.s);
        UnescapePlain(v.s);
      } else if num {
        NumTextPlain(v.text);
      }
    }
    (num, if num then v.Text() else XmlEntities(v.Text()))
  }

  /** The escaped formula of a cell with a truthy one, which decodes back to it. */
  function CellFormula(c: Cell): (f: Option<string>)
    ensures f.Some? <==> c.Span? && c.formula.Some? && !Falsy(c.formula.value)
    ensures f.Some? ==> Unescape(f.value) == c.formula.value
  {
    if c.Span? && c.formula.Some? && !Falsy(c.formula.value) then
      UnescapeEscapeAll(c.formula.value, HtmlApos);
      Some(HtmlSpecialChars(c.formula.value))
    else None
  }

  /** The class a good cell is written with, when truthy, is registered. */
  lemma CellClassKnown(c: Cell, rowClass: Option<string>, reg: Registry)
    requires !BadCell(c, reg)
    requires TruthyOpt(rowClass) ==> Lookup(reg, rowClass.value).Some?
    ensures TruthyOpt(CellClass(c, rowClass)) ==> IndexOf(reg, CellClass(c, rowClass).value).Some?
  {
  }

  /** The merge range of a spanning cell: from its own position to the far corner. */
  function MergeRange(c: Cell, col: nat, line: nat): (m: Option<(string, string)>)
    ensures m.Some? <==> Spans(c)
    ensures m.Some? ==>
      ParseRef(m.value.0) == Some((col as int, line))
      && ParseRef(m.value.1) == Some(((col + c.ColSpan() - 1) as int, line + c.RowSpan() - 1))
  {
    if Spans(c) then
      ParseCellRef(col, line);
      ParseCellRef(col + c.ColSpan() - 1, line + c.RowSpan() - 1);
      Some((CellRef(col, line), CellRef(col + c.ColSpan() - 1, line + c.RowSpan() - 1)))
    else None
  }

  /** Printed numbers hold no `&`, so they decode to themselves. */
  lemma NumTextPlain(t: NumText)
    ensures Unescape(t) == t
  {
    UnescapePlain(t);
  }

  /**
   * `getRowHeight`: a truthy row class must name a registered style; its non-zero HEIGHT
   * is the row height, and otherwise the row has none.
   */
  function RowHeight(reg: Registry, cls: Option<string>): (r: Result<Option<int>>)
    ensures r.Err? <==> TruthyOpt(cls) && Lookup(reg, cls.value).None?
    ensures r.Err? ==> r.error == "Missing style: " + HtmlSpecialChars(cls.value)
    ensures r.Ok? ==> (r.value.Some? <==> TruthyOpt(cls) && Lookup(reg, cls.value).value.HasHeight())
    ensures r.Ok? && r.value.Some? ==> r.value == Lookup(reg, cls.value).value.height && r.value.value != 0
  {
    if !TruthyOpt(cls) then Ok(None)
    else
      match Lookup(reg, cls.value)
      case None => Err("Missing style: " + HtmlSpecialChars(cls.value))
      case Some(st) => if st.HasHeight() then Ok(st.height) else Ok(None)
  }

  /** The references of the `k` empty cells written under a merge, from column `j` on. */
  function CoveredRefs(j: nat, k: nat, line: nat): (r: seq<string>)
    ensures |r| == k
    ensures forall i :: 0 <= i < k ==> ParseRef(r[i]) == Some(((j + i) as int, line))
  {
    if k == 0 then []
    else
      ParseCellRef(j + k - 1, line);
      CoveredRefs(j, k - 1, line) + [CellRef(j + k - 1, line)]
  }

  function CoveredXml(refs: seq<string>): string {
    if |refs| == 0 then [] else "<c r=\"" + refs[0] + "\" />" + CoveredXml(refs[1..])
  }

  /** Number of the listed cells that span more than one row or column. */
  function SpanCount(row: seq<Cell>, srcs: seq<nat>): nat {
    if |srcs| == 0 then 0 else (if srcs[0] < |row| && Spans(row[srcs[0]]) then 1 else 0) + SpanCount(row, srcs[1..])
  }

  lemma {:induction false} SpanCountAppend(row: seq<Cell>, a: seq<nat>, b: seq<nat>)
    ensures SpanCount(row, a + b) == SpanCount(row, a) + SpanCount(row, b)
    decreases |a|
  {
    if |a| > 0 {
      assert (a + b)[1..] == a[1..] + b;
      SpanCountAppend(row, a[1..], b);
    } else {
      assert a + b == b;
    }
  }

  /** The cells of one row, from its walker events: covered runs and emitted cells, in order. */
  function RowCells(row: seq<Cell>, evs: seq<Event>, line: nat, rowClass: Option<string>, reg: Registry): (r: Result<(string, seq<(string, string)>)>)
    requires Sourced(row, evs)
    requires TruthyOpt(rowClass) ==> Lookup(reg, rowClass.value).Some?
    ensures r.Err? <==> exists a :: 0 <= a < |evs| && evs[a].Real? && BadCell(row[evs[a].src], reg)
    ensures r.Ok? ==> |r.value.1| == SpanCount(row, Srcs(evs))
  {
    if |evs| == 0 then Ok(([], []))
    else
      BadEventCons(row, evs, reg);
      var head := EventCells(row, evs[0], line, rowClass, reg);
      if head.Err? then Err(head.error)
      else
        var rest :- RowCells(row, evs[1..], line, rowClass, reg);
        SpanCountAppend(row, if evs[0].Real? then [evs[0].src] else [], Srcs(evs[1..]));
        Ok((head.value.0 + rest.0, head.value.1 + rest.1))
  }

  /** The XML of one walker event: a run of covered cells, or one emitted cell. */
  function EventCells(row: seq<Cell>, ev: Event, line: nat, rowClass: Option<string>, reg: Registry): (r: Result<(string, seq<(string, string)>)>)
    requires ev.Real? ==> ev.src < |row| && row[ev.src] != Empty
    requires TruthyOpt(rowClass) ==> Lookup(reg, rowClass.value).Some?
    ensures r.Err? <==> ev.Real? && BadCell(row[ev.src], reg)
    ensures r.Ok? ==> |r.value.1| == SpanCount(row, if ev.Real? then [ev.src] else [])
  {
    match ev
    case Covered(j, k) => Ok((CoveredXml(CoveredRefs(j, k, line)), []))
    case Real(j, src) =>
      var c :- GetCell(row[src], j, line, rowClass, reg);
      Ok((Render(c.0), if c.1.Some? then [c.1.value] else []))
  }

  /** A bad emitted cell among the events is the first one's or one of the rest's. */
  lemma BadEventCons(row: seq<Cell>, evs: seq<Event>, reg: Registry)
    requires Sourced(row, evs) && |evs| > 0
    ensures Sourced(row, evs[1..])
    ensures (exists a :: 0 <= a < |evs| && evs[a].Real? && BadCell(row[evs[a].src], reg))
      <==> ((evs[0].Real? && BadCell(row[evs[0].src], reg))
        || (exists a :: 0 <= a < |evs[1..]| && evs[1..][a].Real? && BadCell(row[evs[1..][a].src], reg)))
  {
    assert forall a :: 1 <= a < |evs| ==> evs[1..][a - 1] == evs[a];
  }

  /** A row is written without error: its class, if truthy, and every cell's own STYLE are registered. */
  predicate RowOk(row: seq<Cell>, cls: Option<string>, reg: Registry) {
    !(TruthyOpt(cls) && Lookup(reg, cls.value).None?)
    && forall i :: 0 <= i < |row| ==> !BadCell(row[i], reg)
  }

  /** One `<row>` element: line number, optional height and its cells. */
  datatype XRow = XRow(line: nat, ht: Option<int>, cells: string)

  function RenderRow(r: XRow): string {
    "    <row r=\"" + NatToString(r.line) + "\""
    + (if r.ht.Some? then " ht=\"" + IntToString(r.ht.value) + "\"" else "")
    + ">" + r.cells + "</row>\n"
  }

  /**
   * A scanned row: the height is looked up first, then the cells are written. Since the
   * scan emits every present cell, the row fails exactly when it is not `RowOk`.
   */
  function RowXml(row: seq<Cell>, evs: seq<Event>, line: nat, rowClass: Option<string>, reg: Registry): (r: Result<(XRow, seq<(string, string)>)>)
    requires RowScanned(row, evs)
    ensures r.Err? <==> !RowOk(row, rowClass, reg)
    ensures r.Err? && TruthyOpt(rowClass) && Lookup(reg, rowClass.value).None? ==> r.error == "Missing style: " + HtmlSpecialChars(rowClass.value)
    ensures r.Ok? ==> r.value.0.line == line && r.value.0.ht == RowHeight(reg, rowClass).value
    ensures r.Ok? ==> |r.value.1| == SpanCount(row, Present(row))
  {
    WalkSourced(row, evs);
    BadCellEmitted(row, evs, reg);
    var ht :- RowHeight(reg, rowClass);
    var cells :- RowCells(row, evs, line, rowClass, reg);
    Ok((XRow(line, ht, cells.0), cells.1))
  }

  /** For a complete scan, some emitted cell is bad exactly when some cell of the row is. */
  lemma BadCellEmitted(row: seq<Cell>, evs: seq<Event>, reg: Registry)
    requires Srcs(evs) == Present(row)
    ensures Sourced(row, evs)
    ensures (exists a :: 0 <= a < |evs| && evs[a].Real? && BadCell(row[evs[a].src], reg))
      <==> (exists i :: 0 <= i < |row| && BadCell(row[i], reg))
  {
    WalkSourced(row, evs);
    if i :| 0 <= i < |row| && BadCell(row[i], reg) {
      assert i in Present(row);
      SrcsHas(evs, i);
    }
  }

  /** Spanning cells over the rows from `num` on. */
  function SpanTotal(rows: seq<seq<Cell>>, num: nat): nat
    requires num <= |rows|
    decreases |rows| - num
  {
    if num == |rows| then 0 else SpanCount(rows[num], Present(rows[num])) + SpanTotal(rows, num + 1)
  }

  /** Every row of the sheet from `num` on is written without error. */
  predicate RowsOk(s: Sheet, reg: Registry, num: nat) {
    forall i :: num <= i < |s.rows| ==> RowOk(s.rows[i], GetStyle(s, i), reg)
  }

  lemma RowsOkStep(s: Sheet, reg: Registry, num: nat)
    requires num < |s.rows|
    ensures RowsOk(s, reg, num) <==> RowOk(s.rows[num], GetStyle(s, num), reg) && RowsOk(s, reg, num + 1)
  {
  }

  /** The written rows sit on consecutive lines after `head` and carry their rows' heights. */
  predicate RowsPlaced(out: seq<XRow>, s: Sheet, reg: Registry, head: nat, num: nat) {
    forall i :: 0 <= i < |out| ==>
      out[i].line == head + num + i + 1 && RowHeight(reg, GetStyle(s, num + i)) == Ok(out[i].ht)
  }

  lemma RowsPlacedCons(x: XRow, rest: seq<XRow>, s: Sheet, reg: Registry, head: nat, num: nat)
    requires x.line == head + num + 1 && RowHeight(reg, GetStyle(s, num)) == Ok(x.ht)
    requires RowsPlaced(rest, s, reg, head, num + 1)
    ensures RowsPlaced([x] + rest, s, reg, head, num)
  {
    var out := [x] + rest;
    forall i | 0 <= i < |out|
      ensures out[i].line == head + num + i + 1 && RowHeight(reg, GetStyle(s, num + i)) == Ok(out[i].ht)
    {
      if i > 0 {
        assert out[i] == rest[i - 1];
      }
    }
  }

  /**
   * The data rows of a sheet from row `num` on, below `head` header lines: consecutive line
   * numbers, each row's height, and one merge range per spanning cell.
   */
  function SheetRows(s: Sheet, scan: seq<seq<Event>>, reg: Registry, head: nat, num: nat): (r: Result<(seq<XRow>, seq<(string, string)>)>)
    requires |scan| == |s.rows| && num <= |s.rows|
    requires forall i :: 0 <= i < |s.rows| ==> RowScanned(s.rows[i], scan[i])
    ensures r.Err? <==> !RowsOk(s, reg, num)
    ensures r.Ok? ==> |r.value.0| == |s.rows| - num && RowsPlaced(r.value.0, s, reg, head, num)
    decreases |s.rows| - num
  {
    if num == |s.rows| then Ok(([], []))
    else
      assert RowScanned(s.rows[num], scan[num]);
      var first := RowXml(s.rows[num], scan[num], head + num + 1, GetStyle(s, num), reg);
      RowsOkStep(s, reg, num);
      if first.Err? then Err(first.error)
      else
        var rest := SheetRows(s, scan, reg, head, num + 1);
        if rest.Err? then Err(rest.error)
        else
          RowsPlacedCons(first.value.0, rest.value.0, s, reg, head, num);
          Ok(([first.value.0] + rest.value.0, first.value.1 + rest.value.1))
  }

  /** The sheet's rows yield one merge range per spanning cell, row by row. */
  lemma {:induction false} SheetRowsSpans(s: Sheet, scan: seq<seq<Event>>, reg: Registry, head: nat, num: nat)
    requires |scan| == |s.rows| && num <= |s.rows|
    requires forall i :: 0 <= i < |s.rows| ==> RowScanned(s.rows[i], scan[i])
    ensures SheetRows(s, scan, reg, head, num).Ok? ==>
      |SheetRows(s, scan, reg, head, num).value.1| == SpanTotal(s.rows, num)
    decreases |s.rows| - num
  {
    if num < |s.rows| {
      var first := RowXml(s.rows[num], scan[num], head + num + 1, GetStyle(s, num), reg);
      var rest := SheetRows(s, scan, reg, head, num + 1);
      SheetRowsSpans(s, scan, reg, head, num + 1);
      if first.Ok? && rest.Ok? {
        var n1 := |first.value.1|;
        assert n1 == SpanCount(s.rows[num], Present(s.rows[num]));
        assert SheetRows(s, scan, reg, head, num).value.1 == first.value.1 + rest.value.1;
      }
    }
  }

  /** The header row on line 1: one inline-string cell per header, at columns 0, 1, ... */
  function HeaderCells(headers: seq<string>): (r: seq<XCell>)
    ensures |r| == |headers|
    ensures forall i :: 0 <= i < |r| ==>
      ParseRef(r[i].ref) == Some((i, 1)) && r[i].style.None? && !r[i].numeric && r[i].formula.None?
      && Unescape(r[i].text) == headers[i]
  {
    seq(|headers|, i requires 0 <= i < |headers| => HeaderCell(headers[i], i))
  }

  function HeaderCell(h: string, i: nat): (r: XCell)
    ensures ParseRef(r.ref) == Some((i as int, 1)) && r.style.None? && !r.numeric && r.formula.None?
    ensures Unescape(r.text) == h
  {
    ParseCellRef(i, 1);
    XmlEntitiesRoundTrip(h);
    XCell(CellRef(i, 1), None, false, None, XmlEntities(h))
  }

  function HeaderXml(headers: seq<string>): string {
    if |headers| == 0 then "" else "    <row r=\"1\">" + RenderAll(HeaderCells(headers)) + "</row>\n"
  }

  function RenderAll(cells: seq<XCell>): string {
    if |cells| == 0 then [] else Render(cells[0]) + RenderAll(cells[1..])
  }

  /**
   * `printHeader` and `printSheet` of one sheet: the header row (line 1 when there are
   * headers), the data rows after it, and the merge ranges collected on the way.
   */
  function SheetData(s: Sheet, reg: Registry): (r: Result<(string, seq<(string, string)>)>)
    requires Valid(s)
    ensures r.Err? <==> !RowsOk(s, reg, 0)
    ensures r.Ok? ==> |r.value.1| == SpanTotal(s.rows, 0)
  {
    WalkSheetScanned(s, Strict);
    var head := if |s.headers| == 0 then 0 else 1;
    SheetRowsSpans(s, WalkSheet(s, Strict), reg, head, 0);
    var rows :- SheetRows(s, WalkSheet(s, Strict), reg, head, 0);
    Ok((HeaderXml(s.headers) + Concat(seq(|rows.0|, i requires 0 <= i < |rows.0| => RenderRow(rows.0[i]))), rows.1))
  }

  /** The `<mergeCells>` block: nothing without merges, else a count and one element per range. */
  function MergeXml(merges: seq<(string, string)>): (r: string)
    ensures |r| == 0 <==> |merges| == 0
    ensures |merges| > 0 ==> MergeCountReads(r, |merges|)
    ensures forall i :: 0 <= i < |merges| ==> Occurs(MergeCellXml(merges[i]), r)
  {
    if |merges| == 0 then ""
    else
      var cells := seq(|merges|, i requires 0 <= i < |merges| => MergeCellXml(merges[i]));
      var n := NatToString(|merges|);
      var open := "  <mergeCells count=\"" + n + "\">\n";
      var r := open + Concat(cells) + "  </mergeCells>\n";
      assert MergeCountReads(r, |merges|) by {
        assert r[..21] == "  <mergeCells count=\"";
        assert r[21..21 + |n|] == n;
        assert r[21 + |n|] == '"';
        ParseNatToString(|merges|);
      }
      assert forall i :: 0 <= i < |merges| ==> Occurs(MergeCellXml(merges[i]), r) by {
        forall i | 0 <= i < |merges| ensures Occurs(MergeCellXml(merges[i]), r) {
          ConcatOccurs(cells, i);
          OccursIn(cells[i], open, Concat(cells), "  </mergeCells>\n");
        }
      }
      r
  }

  /** One `<mergeCell>` element. */
  function MergeCellXml(m: (string, string)): string {
    "    <mergeCell ref=\"" + m.0 + ":" + m.1 + "\"/>\n"
  }

  /** `r` opens `<mergeCells` with a `count` attribute whose digits read back as `n`. */
  predicate MergeCountReads(r: string, n: nat) {
    exists k :: 21 < k < |r| && r[..21] == "  <mergeCells count=\"" && r[k] == '"'
      && AllDigits(r[21..k]) && ParseDigits(r[21..k]) == n
  }

  /** `p` appears as a contiguous part of `s`. */
  predicate Occurs(p: string, s: string) {
    exists k, j :: 0 <= k <= j <= |s| && s[k..j] == p
  }

  lemma {:induction false} ConcatOccurs(parts: seq<string>, i: nat)
    requires i < |parts|
    ensures Occurs(parts[i], Concat(parts))
  {
    if i == 0 {
      assert Concat(parts)[0..|parts[0]|] == parts[0];
    } else {
      ConcatOccurs(parts[1..], i - 1);
      var rest := Concat(parts[1..]);
      var k, j :| 0 <= k <= j <= |rest| && rest[k..j] == parts[1..][i - 1];
      var h := |parts[0]|;
      assert Concat(parts) == parts[0] + rest;
      assert Concat(parts)[h + k..h + j] == rest[k..j];
    }
  }

  lemma OccursIn(p: string, a: string, s: string, b: string)
    requires Occurs(p, s)
    ensures Occurs(p, a + s + b)
  {
    var k, j :| 0 <= k <= j <= |s| && s[k..j] == p;
    assert (a + s + b)[|a| + k..|a| + j] == s[k..j];
  }

  /** `getSheetRelationships`: sheet `num` is `rIdN` with N = num + 2, pointing at `sheet{num + 1}.xml`. */
  function SheetRelationships(count: nat): (r: seq<(string, string)>)
    ensures |r| == count
    ensures forall num :: 0 <= num < count ==> RelIdReads(r[num].0, num + 2) && RelTargetReads(r[num].1, num + 1)
  {
    var r := seq(count, num requires 0 <= num < count => (RelId(num), RelTarget(num)));
    assert forall num :: 0 <= num < count ==> RelIdReads(r[num].0, num + 2) && RelTargetReads(r[num].1, num + 1) by {
      forall num | 0 <= num < count ensures RelIdReads(r[num].0, num + 2) && RelTargetReads(r[num].1, num + 1) {
        RelEntryReads(num);
      }
    }
    r
  }

  /** `id` is `rId` followed by the decimal digits of `n`. */
  predicate RelIdReads(id: string, n: nat) {
    |id| > 3 && id[..3] == "rId" && AllDigits(id[3..]) && ParseDigits(id[3..]) == n
  }

  /** `t` is the worksheet path `/xl/worksheets/sheet<n>.xml`, read back from its digits. */
  predicate RelTargetReads(t: string, n: nat) {
    |t| > 24 && t[..20] == "/xl/worksheets/sheet" && t[|t| - 4..] == ".xml"
    && AllDigits(t[20..|t| - 4]) && ParseDigits(t[20..|t| - 4]) == n
  }

  lemma RelEntryReads(num: nat)
    ensures RelIdReads(RelId(num), num + 2) && RelTargetReads(RelTarget(num), num + 1)
  {
    var d := NatToString(num + 2);
    assert RelId(num)[..3] == "rId" && RelId(num)[3..] == d;
    ParseNatToString(num + 2);
    var e := NatToString(num + 1);
    var t := RelTarget(num);
    assert t[..20] == "/xl/worksheets/sheet" && t[20..|t| - 4] == e && t[|t| - 4..] == ".xml";
    ParseNatToString(num + 1);
  }

  function RelId(num: nat): string {
    "rId" + NatToString(num + 2)
  }

  function RelTarget(num: nat): string {
    "/xl/worksheets/sheet" + NatToString(num + 1) + ".xml"
  }

  /** Relationship ids are distinct, never the `rId1` kept for the styles part, and so are the targets. */
  lemma RelationshipsDistinct(count: nat)
    ensures var r := SheetRelationships(count);
      (forall i, j :: 0 <= i < j < count ==> r[i].0 != r[j].0 && r[i].1 != r[j].1)
      && (forall i :: 0 <= i < count ==> r[i].0 != "rId1")
  {
    var r := SheetRelationships(count);
    forall i, j | 0 <= i < j < count ensures r[i].0 != r[j].0 && r[i].1 != r[j].1 {
      assert r[i] == (RelId(i), RelTarget(i)) && r[j] == (RelId(j), RelTarget(j));
      RelIdInjective(i, j);
      RelTargetInjective(i, j);
    }
    forall i | 0 <= i < count ensures r[i].0 != "rId1" {
      assert r[i].0 == RelId(i);
      RelIdNotStyles(i);
    }
  }

  lemma RelIdInjective(a: nat, b: nat)
    ensures RelId(a) == RelId(b) ==> a == b
  {
    if RelId(a) == RelId(b) {
      assert RelId(a)[3..] == NatToString(a + 2);
      assert RelId(b)[3..] == NatToString(b + 2);
      NatToStringInjective(a + 2, b + 2);
    }
  }

  lemma RelIdNotStyles(a: nat)
    ensures RelId(a) != "rId1"
  {
    if RelId(a) == "rId1" {
      assert RelId(a)[3..] == NatToString(a + 2);
      assert "rId1"[3..] == NatToString(1);
      NatToStringInjective(a + 2, 1);
    }
  }

  lemma RelTargetInjective(a: nat, b: nat)
    ensures RelTarget(a) == RelTarget(b) ==> a == b
  {
    if RelTarget(a) == RelTarget(b) {
      TargetNumber(a + 1, b + 1);
    }
  }

  lemma TargetNumber(a: nat, b: nat)
    requires "/xl/worksheets/sheet" + NatToString(a) + ".xml" == "/xl/worksheets/sheet" + NatToString(b) + ".xml"
    ensures a == b
  {
    var p := "/xl/worksheets/sheet";
    var x := p + NatToString(a) + ".xml";
    assert |NatToString(a)| == |NatToString(b)|;
    assert x[|p|..|x| - 4] == NatToString(a);
    assert x[|p|..|x| - 4] == NatToString(b);
    NatToStringInjective(a, b);
  }

  /** `convertColor`: `#rrggbb` becomes the ARGB `FFRRGGBB`; the leading character is dropped. */
  function ConvertColor(c: string): (r: string)
    ensures |r| == 2 + (if |c| == 0 then 0 else |c| - 1)
    ensures r[..2] == "FF"
    ensures forall i :: 2 <= i < |r| ==> r[i] == UpperChar(c[i - 1]) && !IsLower(r[i])
  {
    "FF" + (if |c| == 0 then "" else Upper(c[1..]))
  }

  /** The conversion ignores letter case. */
  lemma ConvertColorCaseBlind(c: string)
    ensures ConvertColor(Upper(c)) == ConvertColor(c)
  {
    if |c| > 0 {
      assert Upper(c)[1..] == Upper(c[1..]);
      UpperIdempotent(c[1..]);
    }
  }
}

=== FILE: xlsxstyles.dfy ===
/**
 * The XLSX style sheet (`fileStyles`, `reshuffleStyles`, `sortStyle`,
 * `reshuffleStyleBorder`, `getBorderStyle`, `convertBorderType`, `printCellXfs`): the
 * default style and the registered styles are split into shared font, fill and border
 * lists, each kept free of duplicates in first-seen order, and every style becomes one
 * cell format (`xf`) pointing into those lists.
 */
module XlsxStyles {
  import opened Wrappers
  import opened Text
  import opened Sheets
  import opened Styles
  import opened Units
  import opened Xlsx

  /** The font size the default style gets when it names none. */
  const DefaultFontSize := "10pt"

  /**
   * The default style as `fileStyles` completes it: a font size is always present and the
   * cell part always exists; an exporter without a default gets just the size.
   */
  function XlsxDefault(d: Option<Style>): (r: Style)
    ensures r.font.size.Some? && !r.font.IsEmpty()
    ensures d.Some? && d.value.font.size.Some? ==> r == d.value
    ensures d.Some? ==> r.cell == d.value.cell && r.height == d.value.height
    ensures d.Some? ==> r.font.(size := d.value.font.size) == d.value.font
    ensures d.Some? && d.value.font.size.None? ==> r.font.size == Some(DefaultFontSize)
    ensures d.None? ==> r == Style(NoFont.(size := Some(DefaultFontSize)), NoCell, None)
  {
    match d
    case None => Style(NoFont.(size := Some(DefaultFontSize)), NoCell, None)
    case Some(st) => st.(font := st.font.(size := Prefer(st.font.size, Some(DefaultFontSize))))
  }

  /** The list `reshuffleStyles` works through: the default first, then the registry in order. */
  function StyleList(d: Option<Style>, reg: Registry): (r: seq<Style>)
    ensures |r| == |reg| + 1 && r[0] == XlsxDefault(d)
    ensures forall i :: 0 <= i < |reg| ==> r[i + 1] == reg[i].1
  {
    [XlsxDefault(d)] + seq(|reg|, i requires 0 <= i < |reg| => reg[i].1)
  }

  /** A non-empty font inherits the default's SIZE, and its FAMILY when it has one. */
  function FontRecord(f: Font, d: Style): (r: Font)
    ensures r.size == (if f.size.Some? then f.size else d.font.size)
    ensures r.family == (if f.family.Some? then f.family else d.font.family)
    ensures r.color == f.color && r.weight == f.weight && r.align == f.align && r.background == f.background
  {
    f.(size := Prefer(f.size, d.font.size), family := Prefer(f.family, d.font.family))
  }

  /** Position of the first occurrence of `x`. */
  function Find<T(==)>(list: seq<T>, x: T): (r: Option<nat>)
    ensures r.None? <==> x !in list
    ensures r.Some? ==> r.value < |list| && list[r.value] == x
    ensures r.Some? ==> forall j :: 0 <= j < r.value ==> list[j] != x
  {
    if |list| == 0 then None
    else if list[0] == x then Some(0)
    else
      var t := Find(list[1..], x);
      if t.Some? then Some(t.value + 1) else None
  }

  /**
   * `sortStyle`: the position of an equal record already listed, or else the record is
   * appended and its new position returned.
   */
  function FindOrAppend<T(==)>(list: seq<T>, x: T): (r: (seq<T>, nat))
    ensures r.1 < |r.0| && r.0[r.1] == x && list <= r.0
    ensures x in list ==> r.0 == list && forall j :: 0 <= j < r.1 ==> list[j] != x
    ensures x !in list ==> r.0 == list + [x] && r.1 == |list|
  {
    match Find(list, x)
    case Some(k) => (list, k)
    case None => (list + [x], |list|)
  }

  predicate Distinct<T(==)>(s: seq<T>) {
    forall i, j :: 0 <= i < j < |s| ==> s[i] != s[j]
  }

  /** Appending never introduces a duplicate. */
  lemma FindOrAppendDistinct<T>(list: seq<T>, x: T)
    requires Distinct(list)
    ensures Distinct(FindOrAppend(list, x).0)
  {
  }

  /** A border side as stored for the style sheet: colour, optional style and width in points. */
  datatype Line = Line(color: string, style: Option<string>, width: real)

  type BorderItem = map<SideKey, Line>

  /** The side `k` after `reshuffleStyleBorder`: each flat attribute that is set overwrites it. */
  function FlatOver(c: CellStyle, k: SideKey): (r: Side)
    ensures r.color == (if c.flat.color.Some? then c.flat.color else if k in c.sides then c.sides[k].color else None)
    ensures r.style == (if c.flat.style.Some? then c.flat.style else if k in c.sides then c.sides[k].style else None)
    ensures r.width == (if c.flat.width.Some? then c.flat.width else if k in c.sides then c.sides[k].width else None)
  {
    var own := if k in c.sides then c.sides[k] else NoSide;
    Side(Prefer(c.flat.color, own.color), Prefer(c.flat.style, own.style), Prefer(c.flat.width, own.width))
  }

  /** The sides the border record is built from: the flat form spreads over all four. */
  function XlsxSides(c: CellStyle): (r: map<SideKey, Side>)
    ensures !c.HasFlat() ==> r == c.sides
    ensures c.HasFlat() ==> forall k: SideKey :: k in r && r[k] == FlatOver(c, k) && !r[k].IsEmpty()
  {
    if c.HasFlat() then
      var m := map[Left := FlatOver(c, Left), Right := FlatOver(c, Right), Top := FlatOver(c, Top), Bottom := FlatOver(c, Bottom)];
      EverySide(m);
      m
    else c.sides
  }

  /** One side's record: the colour defaults to black, the width (in points) to 1. */
  function LineOf(s: Side): (r: Result<Line>)
    ensures r.Err? <==> s.width.Some? && ConvertSize(s.width.value, "pt", None).Err?
    ensures r.Ok? ==> r.value.color == s.color.GetOr(DefaultColor) && r.value.style == s.style
    ensures r.Ok? && s.width.None? ==> r.value.width == 1.0
    ensures r.Ok? && s.width.Some? ==> ConvertSize(s.width.value, "pt", None) == Ok(r.value.width)
  {
    var w :- if s.width.Some? then ConvertSize(s.width.value, "pt", None) else Ok(1.0);
    Ok(Line(s.color.GetOr(DefaultColor), s.style, w))
  }

  /** A side that takes part in the border record: present and not empty. */
  predicate Drawn(sides: map<SideKey, Side>, k: SideKey) {
    k in sides && !sides[k].IsEmpty()
  }

  /** The border record over the sides `ks`, in order; the first bad width is the error. */
  function ItemFrom(sides: map<SideKey, Side>, ks: seq<SideKey>): (r: Result<BorderItem>)
    ensures r.Err? <==> exists i :: 0 <= i < |ks| && Drawn(sides, ks[i]) && LineOf(sides[ks[i]]).Err?
    ensures r.Ok? ==> forall k :: k in r.value <==> k in ks && Drawn(sides, k)
    ensures r.Ok? ==> forall k :: k in r.value ==> LineOf(sides[k]) == Ok(r.value[k])
  {
    if |ks| == 0 then Ok(map[])
    else
      var k := ks[0];
      if Drawn(sides, k) then
        var l := LineOf(sides[k]);
        if l.Err? then Err(l.error)
        else
          var rest :- ItemFrom(sides, ks[1..]);
          assert forall j :: 0 <= j < |ks| - 1 ==> ks[1..][j] == ks[j + 1];
          Ok(rest[k := l.value])
      else
        var rest := ItemFrom(sides, ks[1..]);
        assert forall j :: 0 <= j < |ks| - 1 ==> ks[1..][j] == ks[j + 1];
        rest
  }

  /** The border record of a cell style, as `reshuffleStyles` builds it. */
  function BorderItemOf(c: CellStyle): (r: Result<BorderItem>)
    ensures r.Err? <==> exists k: SideKey :: Drawn(XlsxSides(c), k) && LineOf(XlsxSides(c)[k]).Err?
    ensures r.Ok? ==> forall k: SideKey :: k in r.value <==> Drawn(XlsxSides(c), k)
    ensures r.Ok? ==> forall k :: k in r.value ==> LineOf(XlsxSides(c)[k]) == Ok(r.value[k])
  {
    EverySideOrdered();
    ItemFrom(XlsxSides(c), SideOrder)
  }

  lemma EverySideOrdered()
    ensures forall k: SideKey :: k in SideOrder
  {
    forall k: SideKey ensures k in SideOrder {
      match k
      case Left => assert SideOrder[0] == k;
      case Right => assert SideOrder[1] == k;
      case Top => assert SideOrder[2] == k;
      case Bottom => assert SideOrder[3] == k;
    }
  }

  /** One cell format: font (absent for an empty font), fill, border and alignment. */
  datatype Xf = Xf(font: Option<nat>, fill: nat, border: nat, align: Option<string>)

  /** The outcome of `reshuffleStyles`: the formats (MAP) and the three shared lists. */
  datatype Groups = Groups(xfs: seq<Xf>, fonts: seq<Font>, fills: seq<Option<string>>, borders: seq<BorderItem>)

  const NoGroups := Groups([], [], [], [])

  /** One pass of the loop in `reshuffleStyles`, for the style `st`. */
  function Place(g: Groups, st: Style, d: Style): Result<Groups> {
    var font := if st.font.IsEmpty() then (g.fonts, None) else
      var p := FindOrAppend(g.fonts, FontRecord(st.font, d)); (p.0, Some(p.1));
    var fill := FindOrAppend(g.fills, st.cell.background);
    var item :- BorderItemOf(st.cell);
    var border := FindOrAppend(g.borders, item);
    var align := if st.font.IsEmpty() then None else st.font.align;
    Ok(Groups(g.xfs + [Xf(font.1, fill.1, border.1, align)], font.0, fill.0, border.0))
  }

  /** `reshuffleStyles` over `list` with the completed default `d`. */
  function Reshuffle(list: seq<Style>, d: Style): Result<Groups>
    decreases |list|
  {
    if |list| == 0 then Ok(NoGroups)
    else
      var g :- Reshuffle(list[..|list| - 1], d);
      Place(g, list[|list| - 1], d)
  }

  /** The format `x` describes the style `st`: each index leads to an equal record. */
  predicate Fits(g: Groups, x: Xf, st: Style, d: Style) {
    (x.font.Some? <==> !st.font.IsEmpty())
    && (x.font.Some? ==> x.font.value < |g.fonts| && g.fonts[x.font.value] == FontRecord(st.font, d))
    && x.align == (if st.font.IsEmpty() then None else st.font.align)
    && x.fill < |g.fills| && g.fills[x.fill] == st.cell.background
    && x.border < |g.borders| && BorderItemOf(st.cell) == Ok(g.borders[x.border])
  }

  /** The invariant of the loop: one format per style seen, every one fitting, no duplicates. */
  predicate Sound(g: Groups, list: seq<Style>, d: Style) {
    |g.xfs| == |list| && Distinct(g.fonts) && Distinct(g.fills) && Distinct(g.borders)
    && forall i :: 0 <= i < |list| ==> Fits(g, g.xfs[i], list[i], d)
  }

  /** Growing the lists keeps every earlier format fitting. */
  lemma FitsGrow(g: Groups, h: Groups, x: Xf, st: Style, d: Style)
    requires Fits(g, x, st, d)
    requires g.fonts <= h.fonts && g.fills <= h.fills && g.borders <= h.borders
    ensures Fits(h, x, st, d)
  {
  }

  lemma PlaceSound(g: Groups, list: seq<Style>, st: Style, d: Style)
    requires Sound(g, list, d)
    requires Place(g, st, d).Ok?
    ensures Sound(Place(g, st, d).value, list + [st], d)
  {
    var h := Place(g, st, d).value;
    var l := list + [st];
    if !st.font.IsEmpty() {
      FindOrAppendDistinct(g.fonts, FontRecord(st.font, d));
    }
    FindOrAppendDistinct(g.fills, st.cell.background);
    FindOrAppendDistinct(g.borders, BorderItemOf(st.cell).value);
    forall i | 0 <= i < |l| ensures Fits(h, h.xfs[i], l[i], d) {
      if i < |list| {
        assert h.xfs[i] == g.xfs[i] && l[i] == list[i];
        FitsGrow(g, h, g.xfs[i], list[i], d);
      }
    }
  }

  /**
   * After `reshuffleStyles`, there is one format per style, every index leads to an equal
   * record, and none of the three lists holds a duplicate. It fails exactly when some
   * drawn border side has a width the unit converter rejects.
   */
  lemma {:induction false} ReshuffleSound(list: seq<Style>, d: Style)
    ensures Reshuffle(list, d).Err? <==> exists i :: 0 <= i < |list| && BorderItemOf(list[i].cell).Err?
    ensures Reshuffle(list, d).Ok? ==> Sound(Reshuffle(list, d).value, list, d)
  {
    ReshuffleFails(list, d);
    SomeBorderFailsMeans(list);
    ReshuffleKeepsSound(list, d);
  }

  lemma PlaceFails(g: Groups, st: Style, d: Style)
    ensures Place(g, st, d).Err? <==> BorderItemOf(st.cell).Err?
  {
  }

  /** A style with a drawn border side the unit converter rejects. */
  predicate BorderFails(st: Style) {
    BorderItemOf(st.cell).Err?
  }

  /** Some style of the list has a border side the unit converter rejects. */
  ghost predicate SomeBorderFails(list: seq<Style>) {
    SomeHolds(list, BorderFails)
  }

  ghost predicate SomeHolds(list: seq<Style>, f: Style -> bool) {
    exists i :: 0 <= i < |list| && f(list[i])
  }

  lemma SomeHoldsSnoc(pre: seq<Style>, st: Style, f: Style -> bool)
    ensures SomeHolds(pre + [st], f) <==> SomeHolds(pre, f) || f(st)
  {
    var list := pre + [st];
    if SomeHolds(pre, f) {
      var i :| 0 <= i < |pre| && f(pre[i]);
      assert list[i] == pre[i];
    }
    if f(st) {
      assert list[|pre|] == st;
    }
    if SomeHolds(list, f) {
      var i :| 0 <= i < |list| && f(list[i]);
      if i < |pre| {
        assert list[i] == pre[i];
      } else {
        assert list[i] == st;
      }
    }
  }

  lemma SomeBorderFailsMeans(list: seq<Style>)
    ensures SomeBorderFails(list) <==> exists i :: 0 <= i < |list| && BorderItemOf(list[i].cell).Err?
  {
    assert forall i :: 0 <= i < |list| ==> (BorderFails(list[i]) <==> BorderItemOf(list[i].cell).Err?);
  }

  lemma SomeBorderFailsSnoc(pre: seq<Style>, st: Style)
    ensures SomeBorderFails(pre + [st]) <==> SomeBorderFails(pre) || BorderItemOf(st.cell).Err?
  {
    SomeHoldsSnoc(pre, st, BorderFails);
    assert BorderFails(st) <==> BorderItemOf(st.cell).Err?;
  }

  lemma ReshuffleSnocFails(pre: seq<Style>, st: Style, d: Style)
    ensures Reshuffle(pre + [st], d).Err? <==> Reshuffle(pre, d).Err? || BorderItemOf(st.cell).Err?
  {
    var list := pre + [st];
    assert list[..|list| - 1] == pre && list[|list| - 1] == st;
    if Reshuffle(pre, d).Ok? {
      PlaceFails(Reshuffle(pre, d).value, st, d);
    }
  }

  lemma {:induction false} ReshuffleFails(list: seq<Style>, d: Style)
    ensures Reshuffle(list, d).Err? <==> SomeBorderFails(list)
    decreases |list|
  {
    if |list| > 0 {
      var pre := list[..|list| - 1];
      var st := list[|list| - 1];
      assert list == pre + [st];
      ReshuffleFails(pre, d);
      ReshuffleSnocFails(pre, st, d);
      SomeBorderFailsSnoc(pre, st);
    }
  }

  lemma {:induction false} ReshuffleKeepsSound(list: seq<Style>, d: Style)
    ensures Reshuffle(list, d).Ok? ==> Sound(Reshuffle(list, d).value, list, d)
    decreases |list|
  {
    if |list| > 0 {
      var pre := list[..|list| - 1];
      var st := list[|list| - 1];
      assert list == pre + [st];
      ReshuffleKeepsSound(pre, d);
      var g := Reshuffle(pre, d);
      if g.Ok? && Place(g.value, st, d).Ok? {
        PlaceSound(g.value, pre, st, d);
      }
    }
  }

  /** Reference definition: the distinct elements of `s` in order of first occurrence. */
  function FirstSeen<T(==)>(s: seq<T>): seq<T> {
    if |s| == 0 then []
    else
      var pre := s[..|s| - 1];
      FirstSeen(pre) + (if s[|s| - 1] in pre then [] else [s[|s| - 1]])
  }

  /** The first-seen list holds exactly the elements of the input. */
  lemma {:induction false} FirstSeenElements<T>(s: seq<T>)
    ensures forall x :: x in FirstSeen(s) <==> x in s
    decreases |s|
  {
    if |s| > 0 {
      var pre := s[..|s| - 1];
      FirstSeenElements(pre);
      assert s == pre + [s[|s| - 1]];
    }
  }

  /** Folding `FindOrAppend` over a sequence builds its first-seen list. */
  lemma FirstSeenStep<T>(s: seq<T>, x: T)
    ensures FirstSeen(s + [x]) == FindOrAppend(FirstSeen(s), x).0
  {
    assert (s + [x])[..|s|] == s;
    FirstSeenElements(s);
  }

  /** The fonts the styles contribute, in order: the completed font of each non-empty one. */
  function FontsIn(list: seq<Style>, d: Style): seq<Font> {
    if |list| == 0 then []
    else
      var st := list[|list| - 1];
      FontsIn(list[..|list| - 1], d) + (if st.font.IsEmpty() then [] else [FontRecord(st.font, d)])
  }

  /** The fills the styles contribute, in order: each style's background. */
  function FillsIn(list: seq<Style>): seq<Option<string>> {
    if |list| == 0 then [] else FillsIn(list[..|list| - 1]) + [list[|list| - 1].cell.background]
  }

  /** The border records the styles contribute, in order, or the first failure. */
  function BordersIn(list: seq<Style>): Result<seq<BorderItem>> {
    if |list| == 0 then Ok([])
    else
      var pre :- BordersIn(list[..|list| - 1]);
      var item :- BorderItemOf(list[|list| - 1].cell);
      Ok(pre + [item])
  }

  /** What one pass does to the three lists. */
  lemma PlaceLists(g: Groups, st: Style, d: Style)
    requires Place(g, st, d).Ok?
    ensures var h := Place(g, st, d).value;
      h.fonts == (if st.font.IsEmpty() then g.fonts else FindOrAppend(g.fonts, FontRecord(st.font, d)).0)
      && h.fills == FindOrAppend(g.fills, st.cell.background).0
      && BorderItemOf(st.cell).Ok? && h.borders == FindOrAppend(g.borders, BorderItemOf(st.cell).value).0
  {
  }

  /** The step of the loop, unfolded once. */
  lemma ReshuffleLast(list: seq<Style>, d: Style)
    requires |list| > 0 && Reshuffle(list, d).Ok?
    ensures Reshuffle(list[..|list| - 1], d).Ok?
    ensures Reshuffle(list, d) == Place(Reshuffle(list[..|list| - 1], d).value, list[|list| - 1], d)
  {
  }

  /** The font list is the first-seen list of the completed non-empty fonts. */
  lemma {:induction false} ReshuffleFonts(list: seq<Style>, d: Style)
    requires Reshuffle(list, d).Ok?
    ensures Reshuffle(list, d).value.fonts == FirstSeen(FontsIn(list, d))
    decreases |list|
  {
    if |list| > 0 {
      var pre := list[..|list| - 1];
      var st := list[|list| - 1];
      ReshuffleLast(list, d);
      ReshuffleFonts(pre, d);
      var g := Reshuffle(pre, d).value;
      PlaceLists(g, st, d);
      var fs := FontsIn(pre, d);
      assert list[..|list| - 1] == pre;
      if st.font.IsEmpty() {
        assert FontsIn(list, d) == fs;
      } else {
        assert FontsIn(list, d) == fs + [FontRecord(st.font, d)];
        FirstSeenStep(fs, FontRecord(st.font, d));
      }
    }
  }

  /** The fill list is the first-seen list of the backgrounds. */
  lemma {:induction false} ReshuffleFills(list: seq<Style>, d: Style)
    requires Reshuffle(list, d).Ok?
    ensures Reshuffle(list, d).value.fills == FirstSeen(FillsIn(list))
    decreases |list|
  {
    if |list| > 0 {
      var pre := list[..|list| - 1];
      ReshuffleLast(list, d);
      ReshuffleFills(pre, d);
      PlaceLists(Reshuffle(pre, d).value, list[|list| - 1], d);
      FirstSeenStep(FillsIn(pre), list[|list| - 1].cell.background);
    }
  }

  /** The border list is the first-seen list of the border records; both fail together. */
  lemma {:induction false} ReshuffleBorders(list: seq<Style>, d: Style)
    ensures Reshuffle(list, d).Ok? <==> BordersIn(list).Ok?
    ensures Reshuffle(list, d).Ok? ==> Reshuffle(list, d).value.borders == FirstSeen(BordersIn(list).value)
    decreases |list|
  {
    if |list| > 0 {
      var pre := list[..|list| - 1];
      var st := list[|list| - 1];
      ReshuffleBorders(pre, d);
      var item := BorderItemOf(st.cell);
      if BordersIn(pre).Ok? && item.Ok? {
        FirstSeenStep(BordersIn(pre).value, item.value);
      }
    }
  }

  /** The completed default comes first, so its font, fill and border are entry 0 of each list. */
  lemma DefaultFirst(d: Option<Style>, reg: Registry)
    ensures var list := StyleList(d, reg);
      var r := Reshuffle(list, XlsxDefault(d));
      r.Ok? ==> (|r.value.xfs| > 0 && |r.value.fonts| > 0
        && r.value.xfs[0].font == Some(0) && r.value.xfs[0].fill == 0 && r.value.xfs[0].border == 0
        && r.value.fonts[0] == XlsxDefault(d).font)
  {
    var list := StyleList(d, reg);
    var dd := XlsxDefault(d);
    var r := Reshuffle(list, dd);
    if r.Ok? {
      ReshuffleSound(list, dd);
      ReshufflePrefix(list, 1, dd);
      var g0 := Reshuffle(list[..1], dd).value;
      assert list[..1][..0] == [];
      assert g0.fonts == [dd.font] && g0.fills == [dd.cell.background];
      assert g0.xfs[0] == Xf(Some(0), 0, 0, dd.font.align);
      assert r.value.xfs[0] == g0.xfs[0];
    }
  }

  /** A successful reshuffle extends the reshuffle of every prefix. */
  lemma {:induction false} ReshufflePrefix(list: seq<Style>, n: nat, d: Style)
    requires n <= |list| && Reshuffle(list, d).Ok?
    ensures Reshuffle(list[..n], d).Ok?
    ensures var g := Reshuffle(list[..n], d).value; var h := Reshuffle(list, d).value;
      g.xfs <= h.xfs && g.fonts <= h.fonts && g.fills <= h.fills && g.borders <= h.borders
    decreases |list|
  {
    if n < |list| {
      var pre := list[..|list| - 1];
      ReshufflePrefix(pre, n, d);
      assert pre[..n] == list[..n];
    } else {
      assert list[..n] == list;
    }
  }

  /**
   * The border style written for a side: `solid` is `thin`; a width of 4 or more, or 2 or
   * more, turns to `convertBorderType` for `thick` or `medium`; a positive width with no
   * truthy style is `thin`.
   */
  function BorderStyleOf(style: Option<string>, width: real): (r: Option<string>)
    ensures style == Some("solid") ==> r == Some("thin")
    ensures style == Some("dashed") ==> r == Some(if width >= 2.0 then "mediumDashed" else "dashed")
    ensures TruthyOpt(style) && style != Some("solid") && style != Some("dashed") ==> r == style
    ensures !TruthyOpt(style) && width >= 4.0 ==> r == Some("thick")
    ensures !TruthyOpt(style) && 2.0 <= width < 4.0 ==> r == Some("medium")
    ensures !TruthyOpt(style) && 0.0 < width < 2.0 ==> r == Some("thin")
    ensures !TruthyOpt(style) && width <= 0.0 ==> r == style
  {
    var s := if style == Some("solid") then Some("thin") else style;
    if width >= 4.0 then Some(ConvertBorderType(s, "thick"))
    else if width >= 2.0 then Some(ConvertBorderType(s, "medium"))
    else if width > 0.0 && !TruthyOpt(s) then Some("thin")
    else s
  }

  /** `convertBorderType`: a truthy style is kept, with `dashed` widened; otherwise `alt`. */
  function ConvertBorderType(style: Option<string>, alt: string): (r: string)
    ensures !TruthyOpt(style) ==> r == alt
    ensures TruthyOpt(style) && style.value != "dashed" ==> r == style.value
    ensures style == Some("dashed") ==> r == "mediumDashed"
  {
    if TruthyOpt(style) then
      if style.value == "dashed" then "medium" + "Dashed" else style.value
    else alt
  }

  /** Every style the classification writes is an ST_BorderStyle value or the style as given. */
  lemma BorderStyleRange(style: Option<string>, width: real)
    ensures var r := BorderStyleOf(style, width);
      r.None? || r.value in {"thin", "medium", "thick", "mediumDashed"} || r == style
    ensures BorderStyleOf(style, width).None? <==> style.None? && width <= 0.0
  {
  }

  /** `getBorderStyle` for side `k`: a styled element with its colour, or an empty one. */
  function SideXml(k: SideKey, line: Option<Line>): (r: string)
    ensures line.None? ==> r == "      <" + SideName(k) + " />\n"
  {
    var st := if line.Some? then BorderStyleOf(line.value.style, line.value.width) else None;
    if st.Some? then
      "      <" + SideName(k) + " style=\"" + st.value + "\">\n        <color rgb=\""
      + ConvertColor(line.value.color) + "\" />\n      </" + SideName(k) + ">\n"
    else "      <" + SideName(k) + " />\n"
  }

  /** One `<border>` entry: the four sides in order, then the empty diagonal. */
  function BorderXml(b: BorderItem): string {
    "    <border>\n"
    + Concat(seq(4, i requires 0 <= i < 4 => SideXml(SideOrder[i], if SideOrder[i] in b then Some(b[SideOrder[i]]) else None)))
    + "      <diagonal />\n    </border>\n"
  }

  /** An entry of the printed fill list: a style's fill, or the inserted `gray125` pattern. */
  datatype FillEntry = Pattern(fill: Option<string>) | Gray125

  /** One `<fill>` element: a solid pattern for a truthy background, none otherwise. */
  function FillXml(e: FillEntry): string {
    match e
    case Gray125 => "    <fill>\n      <patternFill patternType=\"gray125\" />\n    </fill>\n"
    case Pattern(f) =>
      if TruthyOpt(f) then
        "    <fill>\n      <patternFill patternType=\"solid\">\n        <fgColor rgb=\"" + ConvertColor(f.value)
        + "\" />\n      </patternFill>\n    </fill>\n"
      else "    <fill>\n      <patternFill patternType=\"none\" />\n    </fill>\n"
  }

  /** The printed fill entries: the `gray125` entry follows the first fill. */
  function PrintedFills(fills: seq<Option<string>>): seq<FillEntry> {
    if |fills| == 0 then []
    else [Pattern(fills[0]), Gray125] + seq(|fills| - 1, i requires 0 <= i < |fills| - 1 => Pattern(fills[i + 1]))
  }

  /** The `fillId` written for fill `f`, skipping the inserted entry. */
  function PrintedFillId(f: nat): nat {
    if f > 0 then f + 1 else 0
  }

  /** The written fill ids lead to the right entries, `gray125` sits at 1, and the count is one more. */
  lemma PrintedFillsIndex(fills: seq<Option<string>>)
    requires |fills| > 0
    ensures |PrintedFills(fills)| == |fills| + 1
    ensures PrintedFills(fills)[1] == Gray125
    ensures forall f :: 0 <= f < |fills| ==> PrintedFills(fills)[PrintedFillId(f)] == Pattern(fills[f])
    ensures forall f, g :: 0 <= f < g < |fills| ==> PrintedFillId(f) < PrintedFillId(g) && PrintedFillId(g) != 1
  {
  }

  /** The ids `printCellXfs` writes for a format: font 0 when it has none, the shifted fill. */
  function XfIds(x: Xf): (nat, nat, nat) {
    (x.font.GetOr(0), PrintedFillId(x.fill), x.border)
  }

  /** One `<xf>` line of `cellXfs`, with an alignment for a truthy ALIGN. */
  function XfXml(x: Xf): string {
    var ids := XfIds(x);
    "    <xf numFmtId=\"0\" fontId=\"" + NatToString(ids.0) + "\" fillId=\"" + NatToString(ids.1)
    + "\" borderId=\"" + NatToString(ids.2) + "\" xfId=\"0\">"
    + (if TruthyOpt(x.align) then "\n      <alignment horizontal=\"" + x.align.value + "\" />\n    " else "")
    + "</xf>\n"
  }

  /**
   * For every style, the ids in its printed format lead to entries printed from its own
   * records: its font (or the default's, entry 0, for an empty font), its fill and its border.
   */
  lemma PrintedIdsMatch(d: Option<Style>, reg: Registry, i: nat)
    requires i <= |reg|
    requires Reshuffle(StyleList(d, reg), XlsxDefault(d)).Ok?
    ensures |Reshuffle(StyleList(d, reg), XlsxDefault(d)).value.xfs| == |reg| + 1
    ensures var list := StyleList(d, reg); var dd := XlsxDefault(d);
      var g := Reshuffle(list, dd).value; var ids := XfIds(g.xfs[i]);
      ids.0 < |g.fonts| && ids.1 < |PrintedFills(g.fills)| && ids.2 < |g.borders|
      && g.fonts[ids.0] == (if list[i].font.IsEmpty() then dd.font else FontRecord(list[i].font, dd))
      && PrintedFills(g.fills)[ids.1] == Pattern(list[i].cell.background)
      && BorderItemOf(list[i].cell) == Ok(g.borders[ids.2])
  {
    var list := StyleList(d, reg);
    var dd := XlsxDefault(d);
    ReshuffleSound(list, dd);
    DefaultFirst(d, reg);
    var g := Reshuffle(list, dd).value;
    assert Fits(g, g.xfs[i], list[i], dd);
    PrintedFillsIndex(g.fills);
  }

  /** Each format fits its style, read off one position at a time. */
  lemma FitsAt(list: seq<Style>, d: Style, k: nat)
    requires Reshuffle(list, d).Ok? && k < |list|
    ensures k < |Reshuffle(list, d).value.xfs|
    ensures Fits(Reshuffle(list, d).value, Reshuffle(list, d).value.xfs[k], list[k], d)
  {
    ReshuffleSound(list, d);
  }

  /**
   * The `s` attribute of a cell with a registered class names the format built from that
   * class's style: format `n` is registry entry `n - 1`, because the default comes first.
   */
  lemma CellStyleFormat(d: Option<Style>, reg: Registry, cls: Option<string>)
    requires TruthyOpt(cls) ==> IndexOf(reg, cls.value).Some?
    requires Reshuffle(StyleList(d, reg), XlsxDefault(d)).Ok?
    ensures var n := StyleIndex(cls, reg);
      var g := Reshuffle(StyleList(d, reg), XlsxDefault(d)).value;
      n.Some? ==> n.value < |g.xfs| && Fits(g, g.xfs[n.value], Lookup(reg, cls.value).value, XlsxDefault(d))
  {
    var n := StyleIndex(cls, reg);
    if n.Some? {
      StyleIndexEntry(d, reg, cls);
      FitsAt(StyleList(d, reg), XlsxDefault(d), n.value);
    }
  }

  /** A truthy class's `s` attribute is the position of its style in the list behind the default. */
  lemma StyleIndexEntry(d: Option<Style>, reg: Registry, cls: Option<string>)
    requires TruthyOpt(cls) ==> IndexOf(reg, cls.value).Some?
    ensures var n := StyleIndex(cls, reg);
      n.Some? ==> n.value < |StyleList(d, reg)| && Lookup(reg, cls.value) == Some(StyleList(d, reg)[n.value])
  {
    if TruthyOpt(cls) {
      EntryBehindDefault(StyleList(d, reg), reg, cls.value);
    }
  }

  lemma EntryBehindDefault(list: seq<Style>, reg: Registry, name: string)
    requires |list| == |reg| + 1 && forall i :: 0 <= i < |reg| ==> list[i + 1] == reg[i].1
    requires IndexOf(reg, name).Some?
    ensures Lookup(reg, name) == Some(list[IndexOf(reg, name).value + 1])
  {
    var j := IndexOf(reg, name).value;
    assert list[j + 1] == reg[j].1;
  }
}

=== FILE: xml.dfy ===
/**
 * Escaping of text placed in XML and HTML output: the five predefined entities of
 * XML 1.0 section 4.6 (`Exporter::xmlEntities`) and PHP's `htmlspecialchars` with
 * ENT_QUOTES, which differs only in writing the apostrophe as `&#039;`.
 */
module Xml {
  import opened Text
  import opened Numeric

  const XmlApos := "&apos;"
  const HtmlApos := "&#039;"

  predicate IsSpecial(c: char) {
    c == '<' || c == '>' || c == '"' || c == '\'' || c == '&'
  }

  /** The replacement of one character; `apos` is the apostrophe's entity. */
  function EscapeChar(c: char, apos: string): string {
    if c == '<' then "&lt;"
    else if c == '>' then "&gt;"
    else if c == '"' then "&quot;"
    else if c == '\'' then apos
    else if c == '&' then "&amp;"
    else [c]
  }

  /** Single-pass replacement of every special character (PHP's `strtr` with an array). */
  function EscapeAll(s: string, apos: string): string {
    if |s| == 0 then [] else EscapeChar(s[0], apos) + EscapeAll(s[1..], apos)
  }

  /** PHP's falsy strings. */
  predicate Falsy(s: string) {
    s == "" || s == "0"
  }

  /** `Exporter::xmlEntities`: numeric and falsy text is returned as is, anything else escaped. */
  function XmlEntities(s: string): string {
    if IsNumeric(s) || Falsy(s) then s else EscapeAll(s, XmlApos)
  }

  /** PHP's `htmlspecialchars($s, ENT_QUOTES)`. */
  function HtmlSpecialChars(s: string): string {
    EscapeAll(s, HtmlApos)
  }

  predicate StartsWith(s: string, p: string) {
    |p| <= |s| && s[..|p|] == p
  }

  /** Length of the entity opening `s`, 0 when `s` opens none of the recognised ones. */
  function EntityLen(s: string): (n: nat)
    ensures n <= |s|
  {
    if StartsWith(s, "&lt;") || StartsWith(s, "&gt;") then 4
    else if StartsWith(s, "&quot;") || StartsWith(s, XmlApos) || StartsWith(s, HtmlApos) then 6
    else if StartsWith(s, "&amp;") then 5
    else 0
  }

  /** The character denoted by the entity opening `s`. */
  function EntityChar(s: string): char {
    if StartsWith(s, "&lt;") then '<'
    else if StartsWith(s, "&gt;") then '>'
    else if StartsWith(s, "&quot;") then '"'
    else if StartsWith(s, "&amp;") then '&'
    else '\''
  }

  /** Decoder of the entities written by either escaper: the partner of `EscapeAll`. */
  function Unescape(s: string): string {
    if |s| == 0 then []
    else if s[0] == '&' && EntityLen(s) > 0 then [EntityChar(s)] + Unescape(s[EntityLen(s)..])
    else [s[0]] + Unescape(s[1..])
  }

  /** Escaped text holds no raw markup character other than the `&` opening an entity. */
  lemma {:induction false} EscapeAllIsMarkupFree(s: string, apos: string, i: nat)
    requires apos == XmlApos || apos == HtmlApos
    requires i < |EscapeAll(s, apos)|
    ensures var e := EscapeAll(s, apos); e[i] != '<' && e[i] != '>' && e[i] != '"' && e[i] != '\''
  {
    if |s| > 0 {
      var head := EscapeChar(s[0], apos);
      if i >= |head| {
        EscapeAllIsMarkupFree(s[1..], apos, i - |head|);
      }
    }
  }

  /** Decoding one entity: `e` opens with an entity of length `k` standing for `c`. */
  lemma UnescapeEntity(e: string, k: nat, c: char)
    requires 0 < k <= |e| && e[0] == '&' && EntityLen(e) == k && EntityChar(e) == c
    ensures Unescape(e) == [c] + Unescape(e[k..])
  {
  }

  lemma UnescapeLt(rest: string)
    ensures Unescape("&lt;" + rest) == "<" + Unescape(rest)
  {
    var e := "&lt;" + rest;
    assert e[..4] == "&lt;" && e[4..] == rest;
    UnescapeEntity(e, 4, '<');
  }

  lemma UnescapeGt(rest: string)
    ensures Unescape("&gt;" + rest) == ">" + Unescape(rest)
  {
    var e := "&gt;" + rest;
    assert e[..4] == "&gt;" && e[4..] == rest;
    UnescapeEntity(e, 4, '>');
  }

  lemma UnescapeQuot(rest: string)
    ensures Unescape("&quot;" + rest) == "\"" + Unescape(rest)
  {
    var e := "&quot;" + rest;
    assert e[..4][1] == 'q';
    assert e[..6] == "&quot;" && e[6..] == rest;
    UnescapeEntity(e, 6, '"');
  }

  lemma UnescapeApos(apos: string, rest: string)
    requires apos == XmlApos || apos == HtmlApos
    ensures Unescape(apos + rest) == "'" + Unescape(rest)
  {
    var e := apos + rest;
    assert e[..6] == apos && e[6..] == rest;
    assert e[..4][1] == e[1] && e[..5][1] == e[1] && e[..6][1] == e[1];
    assert e[1] == '#' || e[1] == 'a';
    assert e[..5][2] == e[2] && e[2] != 'm';
    assert !StartsWith(e, "&lt;") && !StartsWith(e, "&gt;") && !StartsWith(e, "&quot;");
    assert !StartsWith(e, "&amp;");
    UnescapeEntity(e, 6, '\'');
  }

  lemma UnescapeAmp(rest: string)
    ensures Unescape("&amp;" + rest) == "&" + Unescape(rest)
  {
    var e := "&amp;" + rest;
    assert e[..4][1] == 'a';
    assert |e| >= 6 ==> e[..6][2] == 'm';
    assert e[..5] == "&amp;" && e[5..] == rest;
    UnescapeEntity(e, 5, '&');
  }

  lemma UnescapeStep(c: char, apos: string, rest: string)
    requires apos == XmlApos || apos == HtmlApos
    ensures Unescape(EscapeChar(c, apos) + rest) == [c] + Unescape(rest)
  {
    if !IsSpecial(c) {
      assert ([c] + rest)[0] == c && ([c] + rest)[1..] == rest;
    } else if c == '<' {
      UnescapeLt(rest);
    } else if c == '>' {
      UnescapeGt(rest);
    } else if c == '"' {
      UnescapeQuot(rest);
    } else if c == '\'' {
      UnescapeApos(apos, rest);
    } else {
      UnescapeAmp(rest);
    }
  }

  /** Decoding the escaped text gives the original back, for either apostrophe entity. */
  lemma {:induction false} UnescapeEscapeAll(s: string, apos: string)
    requires apos == XmlApos || apos == HtmlApos
    ensures Unescape(EscapeAll(s, apos)) == s
  {
    if |s| > 0 {
      UnescapeStep(s[0], apos, EscapeAll(s[1..], apos));
      UnescapeEscapeAll(s[1..], apos);
      assert [s[0]] + s[1..] == s;
    }
  }

  /** Text without `&` decodes to itself. */
  lemma {:induction false} UnescapePlain(s: string)
    requires !Contains(s, '&')
    ensures Unescape(s) == s
  {
    if |s| > 0 {
      assert s[0] != '&';
      assert !Contains(s[1..], '&') by {
        forall i | 0 <= i < |s[1..]| ensures s[1..][i] != '&' {
          assert s[1..][i] == s[i + 1];
        }
      }
      UnescapePlain(s[1..]);
      assert [s[0]] + s[1..] == s;
    }
  }

  lemma NumericHasNoAmpersand(s: string)
    requires IsNumeric(s)
    ensures !Contains(s, '&')
  {
    if Contains(s, '&') {
      var i :| 0 <= i < |s| && s[i] == '&';
      NumericChars(s, i);
    }
  }

  /** `xmlEntities` loses nothing: decoding its output always gives its input back. */
  lemma XmlEntitiesRoundTrip(s: string)
    ensures Unescape(XmlEntities(s)) == s
  {
    if IsNumeric(s) {
      NumericHasNoAmpersand(s);
      UnescapePlain(s);
    } else if Falsy(s) {
      assert !Contains(s, '&');
      UnescapePlain(s);
    } else {
      UnescapeEscapeAll(s, XmlApos);
    }
  }

  /** Escaping distributes over concatenation: it works character by character. */
  lemma {:induction false} EscapeAllAppend(a: string, b: string, apos: string)
    ensures EscapeAll(a + b, apos) == EscapeAll(a, apos) + EscapeAll(b, apos)
  {
    if |a| > 0 {
      assert (a + b)[0] == a[0];
      assert (a + b)[1..] == a[1..] + b;
      EscapeAllAppend(a[1..], b, apos);
    } else {
      assert a + b == b;
    }
  }

  /** Text without special characters is left unchanged. */
  lemma {:induction false} EscapeAllPlain(s: string, apos: string)
    requires forall i :: 0 <= i < |s| ==> !IsSpecial(s[i])
    ensures EscapeAll(s, apos) == s
  {
    if |s| > 0 {
      EscapeAllPlain(s[1..], apos);
    }
  }
}
